=== FILE: README.md ===
# Mantra IAS front-end: a Dafny model of the attempt engine and the page logic

This project models the client of an exam-preparation platform. Students take
timed mock tests and review their attempts. Administrators manage meetings,
questions, daily problems and users. All scoring and storage happen on a
backend, so the client's logic is made of three things:

- what each page does with the state it holds;
- which requests it sends, and in what order;
- how it reacts to each answer or failure.

The model keeps those three things and proves properties of them.

Every backend call is a `Reply<T>` (module `Wrappers`): `Ok(value)` or
`Err(status, message)`. A handler is a pure function from the page state and
the replies it will receive to the new state and the requests it sent, in
order. JavaScript semantics are written out where they matter:

- `%` truncates toward zero (`Clock.JsRem`) and `Math.floor` is explicit (`Clock.FloorDiv`);
- `||` treats `""` and `0` as false;
- `parseInt` skips white space, reads a sign and a `0x` prefix, and gives `NaN`, modelled as `None` (`Text.ParseInt`);
- `trim` removes the ECMAScript white-space set (`Text.Trim`);
- `substring(0, n)` is `Text.Take`.

Modules:

- `Attempt`, `Submission`, `Session`, `Clock` and `Grading` model the timed test page, src/pages/TestAttempt.tsx.
  - `Attempt` is the state with its synchronous transitions: start, answer, navigate, tick.
  - `Submission` is the four-request submission: calculate score, get detailed results, save attempt, save score.
  - `Session` is the effect loop React runs around them. The timer effect lists `submitting` among its dependencies, and `handleSubmitTest` has no guard of its own. `Session` proves what follows from that while a user is stored:
    - when the countdown reaches zero, two submissions start at once;
    - every submission that settles while the clock reads zero starts another (`Session.ZeroStartsTwoSubmissions`, `Session.SubmissionsNeverStop`);
    - the Submit button's `disabled` flag does block repeated clicks (`Session.ButtonBlocksClicks`).
  - With no stored user the handler raises and drops the flag in one pass, so nothing is sent and the loop does not start (`Session.NoUserSubmitsNothing`, `Session.CountdownWithoutUser`). These two lemmas describe that branch on its own: `startTest` loads no attempt without a user, and a session's user flag is fixed, so a session that started from the mount state never reaches it.
- `Review` is the "My Attempts" page.
- `StudentNav` is the student navigation bar.
- `UserDashboard` and `StudentDashboard` are the two student landing pages.
- `Login` and `Signup` are the sign-in, password-reset and registration flows.
- `Meetings`, `Questions`, `DailyProblems` and `Users` are the administration pages.
- `Text` and `Palette` are shared helpers.

Behaviours of the code that the model keeps:

- Two submit triggers are not serialised by a guard flag. Only the button is disabled.
- A timed-out attempt is submitted twice, not once.
- A failed save after a successful score hides the result and shows one generic error (`Submission.SaveFailureHidesResult`).
- `goToQuestion` accepts any index, so staying in range is proved only for the moves the grid can make (`Attempt.NavigationStaysInRange`).
- Answers can still be changed while a submission is in flight.

## Model

| member | source | states |
|---|---|---|
| Wrappers.ErrorText | src/pages/Login.tsx:45 | a failure's text is the response's own non-empty message, else the page's fallback |
| Attempt.Initial | src/pages/TestAttempt.tsx:24-31 | the page mounts loading, with no attempt, no answers, index 0, zero seconds and no result |
| Attempt.StartTest | src/pages/TestAttempt.tsx:34-57 | a missing user goes to login and changes nothing else; a loaded attempt is stored with `timerInMinutes * 60` seconds; a failure goes to the dashboard with the error notice "Failed to start test", and only a failure shows a notice; loading always ends and answers stay |
| Attempt.Select | src/pages/TestAttempt.tsx:82-87 | the chosen option is recorded for the question, the answered set grows by exactly that id, and every other answer and field is unchanged |
| Attempt.SelectIdempotent | src/pages/TestAttempt.tsx:82-87 | choosing the same option twice equals choosing it once |
| Attempt.SelectOverwrites | src/pages/TestAttempt.tsx:82-87 | a later choice for a question replaces the earlier one |
| Attempt.SelectCommutes | src/pages/TestAttempt.tsx:82-87 | choices for different questions commute |
| Attempt.SelectAllLastWins | src/pages/TestAttempt.tsx:82-87 | after any sequence of clicks, each question's answer is the last option clicked for it, and unclicked questions keep their answer |
| Attempt.SelectCurrent | src/pages/TestAttempt.tsx:310-317 | clicking an option of the shown question records it for that question and keeps the page invariant |
| Attempt.StartEstablishesValid | src/pages/TestAttempt.tsx:49-50 | a successful start with at least one question gives a state whose index is in range and whose answers belong to the attempt |
| Attempt.Next | src/pages/TestAttempt.tsx:199-203 | moves forward by one exactly when an attempt is loaded and the index is before the last question, and keeps the page invariant |
| Attempt.Prev | src/pages/TestAttempt.tsx:205-209 | moves back by one exactly when the index is above 0, and keeps the page invariant |
| Attempt.GoTo | src/pages/TestAttempt.tsx:195-197 | sets the index to the one given, with no range check, and changes nothing else |
| Attempt.PrevUndoesNext | src/pages/TestAttempt.tsx:199-209 | Previous after a Next that moved returns to the same state |
| Attempt.NextUndoesPrev | src/pages/TestAttempt.tsx:199-209 | Next after a Previous that moved returns to the same state |
| Attempt.NavigationStaysInRange | src/pages/TestAttempt.tsx:349-355 | any sequence of Next, Previous and grid clicks keeps the index on a question and changes nothing but the index |
| Attempt.SelectMarksExactly | src/pages/TestAttempt.tsx:284 | after a click on an option the grid marks a question answered iff it is the clicked question or was marked before |
| Attempt.MarkedCountIsIntersection | src/pages/TestAttempt.tsx:284 | the number of grid buttons for which `isAnswered` holds is the number of answered ids that are question ids of the attempt |
| Attempt.SummaryMatchesGrid | src/pages/TestAttempt.tsx:363-375 | "Answered" plus "Remaining" is the question count, neither is negative, and with distinct ids "Answered" is the number of marked grid buttons |
| Attempt.TimerEffect | src/pages/TestAttempt.tsx:64-73 | the effect schedules a tick iff time is left and nothing is submitting, and calls submit iff the clock reads 0 with an attempt loaded |
| Attempt.Tick | src/pages/TestAttempt.tsx:66-68 | a tick lowers the remaining seconds by one only while time is left and nothing is submitting, and never goes below 0 |
| Attempt.TimeTaken | src/pages/TestAttempt.tsx:165 | the time taken and the time remaining add up to the allowance, and it stays within the allowance |
| Clock.JsRem | src/pages/TestAttempt.tsx:78 | JavaScript's remainder: the sign follows the dividend, and it agrees with the mathematical remainder for non-negative operands |
| Clock.FloorDiv | src/pages/TestAttempt.tsx:76 | `Math.floor(a / b)`: the largest q with `q * b <= a` |
| Clock.ClockFields | src/pages/TestAttempt.tsx:75-78 | for a non-negative count: hours, minutes below 60 and seconds below 60 that recombine to the count |
| Clock.FormatTime | src/pages/TestAttempt.tsx:75-80 | the display has at least eight characters; for a non-negative count it is an all-digit hour field, a colon, exactly two minute digits, a colon and exactly two second digits |
| Clock.Join | src/pages/TestAttempt.tsx:79 | joining with colons puts two-character minute and second fields at fixed places from the end, so each field can be cut back out |
| Clock.PaddedFields | src/pages/TestAttempt.tsx:76-79 | for a non-negative count every padded field is all digits and the minute and second fields are two long |
| Clock.WarningInLastFiveMinutes | src/pages/TestAttempt.tsx:296 | for a non-negative count the timer is drawn in its warning style iff the display reads zero hours and fewer than five minutes |
| Clock.HourFieldRoundTrip | src/pages/TestAttempt.tsx:79 | the padded hour field is all digits and reads back as the hour count |
| Clock.ParseClockJoin | src/pages/TestAttempt.tsx:79 | a display joined from digit fields reads back as its fields' values |
| Clock.FormatTimeRoundTrip | src/pages/TestAttempt.tsx:75-80 | reading the display back gives the second count: the format loses nothing |
| Grading.BandOf | src/pages/TestAttempt.tsx:231-236 | Excellent iff the score is at least 80, Good iff from 60 up to 80, Keep Practicing iff below 60 |
| Grading.BandMonotone | src/pages/TestAttempt.tsx:231-236 | a higher score never gets a lower band |
| Grading.BandPresentationDistinct | src/pages/Scores.tsx:55 | each band has its own banner and its own style class |
| Submission.EntriesFor | src/pages/TestAttempt.tsx:160-163 | one entry per question, in question order, each with its recorded option or none |
| Submission.EntriesRecoverAnswers | src/pages/TestAttempt.tsx:160-163 | reading the answers back from the saved entries gives exactly the answers recorded for the attempt's questions |
| Submission.RecordOf | src/pages/TestAttempt.tsx:165-174 | the saved record has one entry per question, a time taken that adds up with the time left to the allowance, and the test type "PAID" or "FREE" by route |
| Submission.RecordFaithful | src/pages/TestAttempt.tsx:160-174 | with answers inside the attempt, the record recovers every answer, and its time taken is within the allowance |
| Submission.CountCorrect | src/pages/TestAttempt.tsx:128 | the correct count never exceeds the number of result rows |
| Submission.CountCorrectIsCardinality | src/pages/TestAttempt.tsx:128 | the correct count is the number of rows flagged correct |
| Submission.BuildResult | src/pages/TestAttempt.tsx:113-136 | the result keeps the backend's score, counts the rows flagged correct, uses the attempt's question count, and has one review row per result row, in order, carrying that row's question fields, correct option and flag, with its answer or the empty string when absent |
| Submission.RunSubmission | src/pages/TestAttempt.tsx:142-192 | the requests follow the order score, results, save attempt, save score; a failed score sends only the score request and a failed results request stops after it, both with "Failed to calculate score"; a failed save shows "Failed to submit test"; a result appears iff all four succeed, and then with the success notice; nothing is sent without an attempt or a user; the saved record is the attempt as it stands and the saved score is the backend's score for this test |
| Submission.SavesFollowScoring | src/pages/TestAttempt.tsx:153-182 | a save is sent only after both scoring requests succeeded; all four requests go out iff the first three succeed |
| Submission.SaveFailureHidesResult | src/pages/TestAttempt.tsx:167-190 | a failed save after a successful score shows no result and the generic submit error |
| Submission.Settle | src/pages/TestAttempt.tsx:189-191 | settling drops the submitting flag, shows the run's result when there is one, and changes nothing else |
| Session.BeginSubmit | src/pages/TestAttempt.tsx:142-148 | without an attempt nothing happens; with one and a stored user, a submission starts and the flag is raised, whether or not one is already in flight; with no stored user nothing is sent and the flag ends down |
| Session.React | src/pages/TestAttempt.tsx:64-73 | a run of the effect changes nothing but the flag, every submission it starts is counted in flight, and with no stored user it starts none |
| Session.ClickSubmit | src/pages/TestAttempt.tsx:377-383 | a click while submitting does nothing |
| Session.HandlerHasNoGuard | src/pages/TestAttempt.tsx:142-145 | with a stored user, the handler starts another submission even while one is in flight |
| Session.ButtonBlocksClicks | src/pages/TestAttempt.tsx:377-383 | the disabled button blocks a second click |
| Session.NothingSubmittedBeforeLoad | src/pages/TestAttempt.tsx:70 | before the attempt loads, neither the effect nor a tick starts a submission |
| Session.ZeroStartsTwoSubmissions | src/pages/TestAttempt.tsx:64-73 | at zero with an attempt, a stored user and the flag down, one effect run starts two submissions |
| Session.SettleAtZeroResubmits | src/pages/TestAttempt.tsx:189-191 | at zero with a stored user, a submission that settles starts two more, leaving one more in flight and the flag raised |
| Session.SubmissionsNeverStop | src/pages/TestAttempt.tsx:64-73 | at zero with a stored user, after any n submissions settle, 2n more have started and n more are in flight |
| Session.Countdown | src/pages/TestAttempt.tsx:64-69 | with a stored user, n ticks from n seconds reach 0, raise the flag and leave exactly two submissions in flight |
| Session.FullTimeoutRecordsWholeAllowance | src/pages/TestAttempt.tsx:165 | a start followed by the whole allowance of ticks saves a time taken equal to the whole allowance |
| Session.NoUserSubmitsNothing | src/pages/TestAttempt.tsx:145-148 | with no stored user an effect run sends nothing, and at zero it leaves the flag down so the effect stops |
| Session.CountdownWithoutUser | src/pages/TestAttempt.tsx:64-73 | with no stored user, n ticks from n seconds reach 0 with the flag down, nothing started and nothing in flight |
| Session.CountdownResumesAfterManualSubmit | src/pages/TestAttempt.tsx:64-68 | a manual submit stops the countdown, and it resumes once the submission settles |
| Review.ScoreColor | src/pages/MyAttempts.tsx:42-47 | green iff the percentage is at least 80, amber iff from 60 up to 80, red below; with a zero total, green iff the score is positive and never amber |
| Review.PercentageAtLeast | src/pages/MyAttempts.tsx:43 | comparing the percentage with a threshold is comparing the scaled score with the scaled total |
| Review.ScoreColorIsBandColor | src/pages/MyAttempts.tsx:42-47 | the card colour is the colour of the result screen's 80/60 band |
| Review.ScoreColorMonotone | src/pages/MyAttempts.tsx:42-47 | a better score never shows a worse colour |
| Review.TimeTakenParts | src/pages/MyAttempts.tsx:101 | non-negative times split into minutes and seconds below 60 that recombine; negative times follow JavaScript's truncating remainder |
| Review.NegativeRem | src/pages/MyAttempts.tsx:101 | for a negative time that is not a whole minute, JavaScript's remainder is the mathematical one minus 60 |
| Review.TimeTakenLabel | src/pages/MyAttempts.tsx:101 | a non-negative time renders as whole minutes, "m ", seconds, "s" |
| Review.Classify | src/pages/MyAttempts.tsx:156-160 | correct iff the backend says so; wrong iff not correct and an option was selected; unanswered otherwise |
| Review.CategoriesDistinct | src/pages/MyAttempts.tsx:156-160 | the three categories have distinct styles and icons |
| Review.CountOf | src/pages/MyAttempts.tsx:156 | a category's count never exceeds the number of answers |
| Review.CategoryCountsSum | src/pages/MyAttempts.tsx:155-160 | the three category counts add up to the number of answers reviewed |
| Review.OptionClass | src/pages/MyAttempts.tsx:171-174 | a tile is "correct-answer" iff it is the correct option, "selected" iff it is the selected option but not the correct one, and plain otherwise |
| Review.HighlightsUnique | src/pages/MyAttempts.tsx:168-175 | at most one of the four tiles is marked correct and at most one selected |
| Review.WrongAnswerHighlightsBoth | src/pages/MyAttempts.tsx:168-175 | a wrong selection among the four letters highlights both its tile and the correct tile |
| Review.YourAnswer | src/pages/MyAttempts.tsx:186 | the selection when it is non-empty, else "Not Answered" |
| Review.AnswerLineAgreesWithCategory | src/pages/MyAttempts.tsx:186 | an unanswered card reads "Not Answered"; a wrong card shows its non-empty selection |
| Review.LoadAttempts | src/pages/MyAttempts.tsx:19-30 | success replaces the list, failure keeps it and reports; loading always ends |
| Review.ViewDetails | src/pages/MyAttempts.tsx:32-40 | the modal opens with the attempt only when the details arrive; a failure only reports |
| Review.CloseDetails | src/pages/MyAttempts.tsx:120-124 | closing hides the modal and keeps the list and the selection |
| Review.ViewThenClose | src/pages/MyAttempts.tsx:119-124 | opening then closing shows then hides the modal and leaves the list as it was |
| StudentNav.FilterByRole | src/components/StudentNavbar.tsx:46-50 | the filtered menu is no longer than the table |
| StudentNav.FilterMembers | src/components/StudentNavbar.tsx:46-50 | an entry is in the filtered menu iff it is in the table and open to the role |
| StudentNav.FilterInOrder | src/components/StudentNavbar.tsx:46-50 | the filtered menu keeps the table order |
| StudentNav.VisibleItemsExactly | src/components/StudentNavbar.tsx:46-50 | the visible menu is exactly the table entries open to the role, in table order |
| StudentNav.FullCourseMenu | src/components/StudentNavbar.tsx:15-23 | the full course sees dashboard, meetings, tests, practice, scores and profile |
| StudentNav.MockTestMenu | src/components/StudentNavbar.tsx:15-23 | the mock-test plan sees dashboard, tests, scores and profile |
| StudentNav.FreeMenu | src/components/StudentNavbar.tsx:15-23 | the free plan sees dashboard, free tests, scores and profile |
| StudentNav.CommonItems | src/components/StudentNavbar.tsx:15-23 | dashboard, scores and profile are open to every student role |
| StudentNav.UnknownRoleSeesNothing | src/components/StudentNavbar.tsx:31 | any other role, including the empty role before the user is read, sees no entry |
| StudentNav.TestsExclusive | src/components/StudentNavbar.tsx:18-19 | no role sees both the paid and the free tests |
| StudentNav.Navigate | src/components/StudentNavbar.tsx:52-55 | navigation goes to the path and closes the mobile menu |
| StudentNav.ToggleMenu | src/components/StudentNavbar.tsx:94 | the menu button flips the menu and keeps the location |
| StudentNav.NavigateActivatesItem | src/components/StudentNavbar.tsx:73 | following an entry makes exactly that entry active |
| UserDashboard.AvailableTabs | src/pages/UserDashboard.tsx:75-96 | the overview first, scores and profile last, and the role's tabs between |
| UserDashboard.TabsPerRole | src/pages/UserDashboard.tsx:75-96 | the exact tab ids of each role, and of any other role |
| UserDashboard.TabIdsDistinct | src/pages/UserDashboard.tsx:75-96 | no role is offered the same tab twice |
| UserDashboard.RenderContent | src/pages/UserDashboard.tsx:275-286 | an unknown tab id shows the overview; the overview shows iff the id is "overview" or unknown |
| UserDashboard.TabsOpenDistinctViews | src/pages/UserDashboard.tsx:275-286 | every offered tab opens a view of its own |
| UserDashboard.CatalogueFor | src/pages/UserDashboard.tsx:49-64 | paid tests for the full course and mock-test plans, free tests for the free plan, none otherwise |
| UserDashboard.CatalogueMatchesTabs | src/pages/UserDashboard.tsx:49-64 | the catalogue loaded is the one the tabs offer |
| UserDashboard.LoadUserData | src/pages/UserDashboard.tsx:39-73 | scores, then the role's catalogue, then the profile, stopping at the first failure with the load error; the scores, the mock tests, the meetings, the daily problems and the profile each change only when their own request succeeded and keep their earlier value otherwise, so a failed profile request keeps the new catalogue; loading ends |
| UserDashboard.LoadRequestsFollowRole | src/pages/UserDashboard.tsx:39-73 | the scores are asked first, a catalogue only for its roles, and the profile last when all succeed |
| StudentDashboard.QuickActions | src/pages/StudentDashboard.tsx:68-98 | no actions without a user; otherwise the role's actions followed by the three common ones |
| StudentDashboard.Captions | src/pages/StudentDashboard.tsx:68-98 | one caption per action |
| StudentDashboard.ActionsPerRole | src/pages/StudentDashboard.tsx:68-98 | the exact actions of each role; every other role gets the free tests |
| StudentDashboard.ActionsWithinMenu | src/pages/StudentDashboard.tsx:68-98 | for the student roles, every quick action except "My Attempts" leads to a page of the role's navigation menu |
| StudentDashboard.Recent | src/pages/StudentDashboard.tsx:40 | `slice(0, 3)`: a prefix of the list, at most three long, as long as possible |
| StudentDashboard.CountsPaidTests | src/pages/StudentDashboard.tsx:54-60 | the count is taken from the paid list iff the role is a paid plan |
| StudentDashboard.LoadDashboard | src/pages/StudentDashboard.tsx:29-66 | without a user only loading ends; otherwise a failed score or attempt list is skipped silently, and only a failed test count reports |
| StudentDashboard.RecentListsArePrefixes | src/pages/StudentDashboard.tsx:37-50 | the recent lists are the first at most three entries of what was loaded |
| Login.RedirectFor | src/pages/Login.tsx:39 | "/admin" iff the role is "ADMIN", else "/dashboard" |
| Login.HandleLogin | src/pages/Login.tsx:21-50 | the credentials are sent; code 200 stores the user and schedules the redirect; any other code or a rejection shows the message or "Login failed"; loading ends |
| Login.OpenForgot | src/pages/Login.tsx:152 | the link opens the reset panel at its current step |
| Login.SendForgotPasswordOtp | src/pages/Login.tsx:52-68 | an empty email is refused without a request; the step moves to the OTP only on success |
| Login.ValidateReset | src/pages/Login.tsx:70-84 | the first failing check, in order: a missing field, a mismatch, a password under six characters; and all pass iff they do |
| Login.BackToLogin | src/pages/Login.tsx:236-243 | the panel closes at the email step with its fields emptied, and the sign-in fields stay |
| Login.VerifyOtpAndReset | src/pages/Login.tsx:70-102 | the reset request is sent iff all checks pass; success closes and empties the panel; failure keeps everything |
| Login.ResetMessagesDistinct | src/pages/Login.tsx:70-84 | each rejection has its own non-empty message |
| Login.PasswordStepUnreachable | src/pages/Login.tsx:13 | no sequence of user actions reaches the declared 'password' step |
| Login.ResetFlow | src/pages/Login.tsx:52-102 | requesting an OTP and then resetting with a valid password ends on the sign-in panel with the reset panel emptied |
| Signup.EmailExists | src/services/api.ts:79-89 | a successful lookup means taken, a 404 means free, and any other failure is passed on |
| Signup.SendOtp | src/pages/Signup.tsx:37-61 | an empty email is refused before any request; the OTP is sent iff the email is free; the step moves on iff it is sent successfully |
| Signup.HandleSubmit | src/pages/Signup.tsx:101-115 | mismatched, then short, passwords are refused without a request; a request is made iff they match, have six characters and an email is given |
| Signup.AccountOf | src/pages/Signup.tsx:83-91 | the account has the form's name, email, password and phone, as an active "USER" |
| Signup.CreateAccount | src/pages/Signup.tsx:81-99 | the account is sent, and the move to the sign-in page is scheduled iff the creation succeeded |
| Signup.VerifyOtp | src/pages/Signup.tsx:63-79 | an empty OTP is refused; the account is created iff the OTP is accepted, right after the validation |
| Signup.BackToForm | src/pages/Signup.tsx:242 | back to the form step, keeping the form and the OTP |
| Signup.TakenEmailRejected | src/pages/Signup.tsx:46-50 | a taken email sends only the lookup and stays on the form |
| Signup.RegistrationFlow | src/pages/Signup.tsx:37-115 | a valid form with a free email and an accepted OTP makes exactly the four requests in order and ends with the move to sign in |
| Meetings.CreatorName | src/pages/Meetings.tsx:34 | the stored name when it is non-empty, else "Admin"; never empty |
| Meetings.SelectDate | src/pages/Meetings.tsx:31-35 | a date change loads that date and fills in the creator |
| Meetings.LoadMeetingsByDate | src/pages/Meetings.tsx:37-54 | success replaces the list; a 404 empties it with no notice; any other failure reports and keeps it |
| Meetings.ResetForm | src/pages/Meetings.tsx:137-151 | the fields are emptied, the creator is filled in, nothing is edited, the time is unconfirmed and the form is hidden |
| Meetings.SaveRequest | src/pages/Meetings.tsx:70-76 | an update of the edited meeting, else a creation, with the form's fields |
| Meetings.HandleSubmit | src/pages/Meetings.tsx:65-85 | success resets the form and reloads the date; failure keeps the form and reports; saving ends |
| Meetings.HandleEdit | src/pages/Meetings.tsx:87-101 | every field is copied, an absent description becomes empty, and the time counts as confirmed |
| Meetings.HandleDelete | src/pages/Meetings.tsx:103-105 | the meeting becomes the pending deletion |
| Meetings.ConfirmDelete | src/pages/Meetings.tsx:107-119 | without a truthy pending id nothing happens; otherwise the meeting is deleted and the pending state cleared whatever the reply |
| Meetings.CancelDelete | src/pages/Meetings.tsx:121-123 | the pending deletion is cleared |
| Meetings.DeleteDialogAlwaysCloses | src/pages/Meetings.tsx:103-123 | a dialog opened on a meeting closes empty whether cancelled or confirmed, and confirming deletes that meeting |
| Meetings.DeletePastMeetings | src/pages/Meetings.tsx:125-135 | one request, a reload only on success, and the dialog closed either way |
| Meetings.HandleSetTime | src/pages/Meetings.tsx:153-160 | the time is confirmed iff both start and end are filled in (or it already was) |
| Meetings.EditStartTime | src/pages/Meetings.tsx:253-256 | a start-time edit withdraws the confirmation |
| Meetings.EditEndTime | src/pages/Meetings.tsx:266-269 | an end-time edit withdraws the confirmation |
| Meetings.TimeEditDisablesSubmit | src/pages/Meetings.tsx:308 | after any time edit the form cannot be submitted, and "Set Time" is offered iff both times are filled in |
| Meetings.SetTimeEnablesSubmit | src/pages/Meetings.tsx:308 | "Set Time" enables submission iff both times are filled in, and then hides itself |
| Meetings.ApplyKeepsTimes | src/pages/Meetings.tsx:153-160 | one user action keeps a confirmed time filled in and saves only filled-in times |
| Meetings.OnlyFilledTimesSaved | src/pages/Meetings.tsx:308 | whatever the user does, every meeting created or updated has both times |
| Questions.LoadQuestions | src/components/Questions.tsx:35-48 | success replaces the list; any failure empties it; only a failure other than 404 reports |
| Questions.ResetForm | src/components/Questions.tsx:111-123 | the number is one past the current list, the texts are empty, A is preselected and the form is hidden |
| Questions.SaveRequest | src/components/Questions.tsx:54-60 | an update of the edited question, else a new question of the test |
| Questions.HandleSubmit | src/components/Questions.tsx:50-67 | success resets the form and reloads; failure keeps the form and reports |
| Questions.FormOf | src/components/Questions.tsx:71-79 | all seven fields of the question are in the form |
| Questions.RecordOf | src/components/Questions.tsx:71-79 | a form with a numeric number gives a question whose form is that form |
| Questions.HandleEdit | src/components/Questions.tsx:69-81 | the question's seven fields are copied and the form shown |
| Questions.EditSaveRoundTrip | src/components/Questions.tsx:50-81 | opening a question and saving unchanged sends it back as it was |
| Questions.EditQuestionNo | src/components/Questions.tsx:147 | the number field holds `parseInt` of the text |
| Questions.TypedNumberStored | src/components/Questions.tsx:147 | typing a decimal number stores that number |
| Questions.Preview | src/components/Questions.tsx:87-89 | a question of at most 50 characters is shown whole, a longer one as its first 50 and "..."; never more than 53 characters |
| Questions.PreviewIdempotent | src/components/Questions.tsx:87-89 | previewing a preview changes nothing |
| Questions.PreviewUnchangedIff | src/components/Questions.tsx:87-89 | the preview is the question itself iff it is short, or is 50 characters followed by "..." |
| Questions.HandleDelete | src/components/Questions.tsx:83-91 | the question becomes the pending deletion, with its preview |
| Questions.ConfirmDelete | src/components/Questions.tsx:93-105 | without a truthy pending id nothing happens; otherwise the question is deleted and the pending state cleared whatever the reply |
| Questions.CancelDelete | src/components/Questions.tsx:107-109 | the pending deletion is cleared |
| Questions.DeleteDialogAlwaysCloses | src/components/Questions.tsx:93-109 | a dialog opened on a question closes empty whether cancelled or confirmed, and confirming deletes that question |
| Questions.NextNumberRepeatsAfterAdd | src/components/Questions.tsx:62-63 | after adding to a current list, the number suggested next is the one just used |
| DailyProblems.DifficultyColor | src/pages/DailyProblems.tsx:118-125 | green iff Easy, amber iff Medium, red iff Hard, grey for anything else |
| DailyProblems.DifficultyColorsDistinct | src/pages/DailyProblems.tsx:118-125 | the three difficulties get distinct colours |
| DailyProblems.SelectDate | src/pages/DailyProblems.tsx:27-29 | a date change loads that date |
| DailyProblems.LoadProblems | src/pages/DailyProblems.tsx:31-45 | success replaces the list; a 204 rejection empties it; any other failure reports and keeps it |
| DailyProblems.ResetForm | src/pages/DailyProblems.tsx:106-116 | an empty Medium problem by "Admin" for today; nothing is edited and the form is hidden |
| DailyProblems.SaveRequest | src/pages/DailyProblems.tsx:51-57 | an update of the edited problem, else a creation |
| DailyProblems.HandleSubmit | src/pages/DailyProblems.tsx:47-64 | success resets the form and reloads the date; failure keeps the form and reports |
| DailyProblems.FormOf | src/pages/DailyProblems.tsx:68-74 | every field is copied, an absent description becoming empty |
| DailyProblems.ProblemOf | src/pages/DailyProblems.tsx:68-74 | a form gives a problem whose form is that form |
| DailyProblems.HandleEdit | src/pages/DailyProblems.tsx:66-76 | the problem's fields are copied and the form shown |
| DailyProblems.EditSaveRoundTrip | src/pages/DailyProblems.tsx:47-76 | saving an opened problem unchanged sends it back, with an absent description sent as empty |
| DailyProblems.HandleDelete | src/pages/DailyProblems.tsx:78-80 | the problem becomes the pending deletion, with its whole question |
| DailyProblems.DeletePreview | src/pages/DailyProblems.tsx:279 | the first 100 characters followed by "...", whatever the length |
| DailyProblems.ShortQuestionMarkedCut | src/pages/DailyProblems.tsx:279 | a short question is shown whole but still followed by "...", so the preview differs from it |
| DailyProblems.ConfirmDelete | src/pages/DailyProblems.tsx:82-94 | without a truthy pending id nothing happens; otherwise the problem is deleted and the pending state cleared whatever the reply |
| DailyProblems.CancelDelete | src/pages/DailyProblems.tsx:283 | the pending deletion is cleared |
| DailyProblems.DeleteDialogAlwaysCloses | src/pages/DailyProblems.tsx:82-94 | a dialog opened on a problem closes empty whether cancelled or confirmed, and confirming deletes that problem |
| DailyProblems.HandleDeletePast | src/pages/DailyProblems.tsx:96-105 | one request with no confirmation; success shows the server's message and reloads |
| Users.LoadUsers | src/pages/Users.tsx:44-57 | success replaces the list; failure keeps it and reports the server's or the error's message |
| Users.SearchRequest | src/pages/Users.tsx:68-79 | an email search sends the value as typed; an id search sends the parsed id, and nothing when it is NaN |
| Users.HandleSearch | src/pages/Users.tsx:59-89 | a blank value is refused first; an unparsable id is refused and keeps the list; a lookup leaves exactly the user found, or an empty list |
| Users.WhiteSpaceSearchRefused | src/pages/Users.tsx:60-63 | a value of white space alone sends nothing and keeps the list |
| Users.NumericSearch | src/pages/Users.tsx:69-75 | a typed decimal id looks up exactly that id |
| Users.HandleClearSearch | src/pages/Users.tsx:91-94 | the value is emptied and the whole list reloaded |
| Users.ClearThenSearchRefused | src/pages/Users.tsx:91-94 | a search right after clearing sends nothing |
| Users.SaveRequest | src/pages/Users.tsx:100-110 | an update when editing; otherwise an administrator iff the role is "ADMIN", else an ordinary user |
| Users.ResetForm | src/pages/Users.tsx:146-170 | the fields are emptied with access "ACTIVE", nothing is edited and the form is hidden |
| Users.HandleSubmit | src/pages/Users.tsx:96-118 | success resets the form and reloads; failure keeps the form and reports |
| Users.OrEmpty | src/pages/Users.tsx:125 | `x \|\| ''` for an optional text |
| Users.FormOf | src/pages/Users.tsx:120-142 | the password is empty, absent texts become empty, and every other field is copied |
| Users.HandleEdit | src/pages/Users.tsx:120-144 | the user's fields are copied and the form shown |
| Users.RecordOf | src/pages/Users.tsx:120-142 | a form gives a user whose form is that form with an empty password |
| Users.EditSaveRoundTrip | src/pages/Users.tsx:96-142 | saving an opened user unchanged updates that user with an empty password and never creates one |
| Users.RoleColor | src/pages/Users.tsx:172-179 | red iff ADMIN, amber iff MOCKTEST, green iff FULL_COURSE, grey otherwise |
| Users.StatusColor | src/pages/Users.tsx:181-183 | green iff the status is "ACTIVE", else red |
| Users.RoleColorsDistinct | src/pages/Users.tsx:172-179 | the three named roles get distinct colours, and "USER" is grey |
| Text.PadStart2 | src/pages/TestAttempt.tsx:79 | `padStart(2, '0')`: at least two long, the input at the end, zeros before it |
| Text.NatToString | src/pages/TestAttempt.tsx:79 | `String(n)` for a count: decimal digits with no leading zero, a single digit iff below 10 |
| Text.TrimStart | src/pages/Users.tsx:60 | the removed prefix is all white space and the rest does not start with white space |
| Text.TrimEnd | src/pages/Users.tsx:60 | the removed suffix is all white space and the rest does not end with white space |
| Text.TrimEmptyIffAllSpace | src/pages/Users.tsx:60 | a string trims to nothing iff it is all white space |
| Text.Take | src/pages/DailyProblems.tsx:279 | `substring(0, n)`: the first n characters, or the whole of a shorter string |
| Text.ParseMagnitude | src/pages/Users.tsx:70 | NaN iff no digit follows the optional `0x`; otherwise the value of the longest run of hexadecimal digits after `0x`, or of decimal digits without it |
| Text.ParseInt | src/pages/Users.tsx:70 | `parseInt`: NaN iff no digit follows the white space, sign and prefix; otherwise the value of the leading digits, negated iff the sign is `-` |
| Text.ParseIntRoundTrip | src/pages/Users.tsx:70 | `parseInt` reads back every non-negative decimal rendering |
| Text.ParseIntOfNegativeDigits | src/pages/Users.tsx:70 | a string of a minus sign followed by decimal digits reads as the negated value of those digits |
| Text.ParseIntNegative | src/pages/Users.tsx:70 | `parseInt` reads back every negative decimal rendering |

## Left out

- HTTP and `src/services/api.ts` are abstracted as `Reply` values the handlers receive. Time-outs, retries and the interceptors are not part of this model.
- Browser plumbing is not modelled: `localStorage`, `JSON.parse`, react-router navigation, the rendering of JSX and CSS, and the `setTimeout` delays before a redirect. A stored user appears as a presence flag, a role or a name. A redirect appears as the path it schedules.
- Dates and locale are outside the model. "Today" and the selected date are opaque strings passed in.
- Floating point is not modelled. Scores and percentages are `real`, not IEEE doubles. `Math.round` and the progress bar of the student dashboard are omitted.
- The display-only files are not part of this model: `App.tsx`, `Navbar.tsx`, `Dashboard.tsx`, `Loader.tsx`, `Notification.tsx`, `useNotification.ts`, `StudentMeetings.tsx`, `StudentPractice.tsx`, `StudentTests.tsx`, `MockTests.tsx` and `Profile.tsx`. `Scores.tsx` is represented only by its 80/60 badge, the same `Grading.BandOf`.
- Meetings: `loadMeetings` (all meetings) is never called by the page and is left out.
- UserDashboard.LoadUserData: the full course's three catalogue requests, made together with `Promise.all`, are modelled as one step that succeeds only if all three do. The mount's token-and-user check is a presence flag.
- Session.BeginSubmit: whether a user is stored is fixed for a whole session. A user removed from storage in the middle of a test, for example by signing out in another tab, is not modelled.
- Session.React: the timer's `clearTimeout` cleanup is not modelled separately. A tick is fired only while one is scheduled, that is while time is left and nothing is submitting.
- Text.ParseInt: numbers are unbounded, so digits beyond 2^53 lose no precision as they would in JavaScript.
- Questions.Preview: lengths count characters, not UTF-16 code units, so a question with characters outside the Basic Multilingual Plane may be cut at a different place. The same applies to DailyProblems.DeletePreview, Signup.HandleSubmit and Login.ValidateReset (the six-character checks).
- DailyProblems.LoadProblems: a 204 answer resolves rather than rejects, so the 204 branch is modelled as written, as a rejection with that status.
- Review.ScoreColor: with a zero total, JavaScript gives `Infinity` for a positive score and `NaN` or `-Infinity` otherwise; the model writes these cases out as green and red.
- Attempt.GoTo: the grid only passes indices of its own buttons, so staying in range is stated only for grid moves.

=== FILE: attempt.dfy ===
/** The state of the timed test-attempt page and its synchronous transitions:
    starting the attempt, choosing an answer, moving between questions, and
    one tick of the countdown.

    The page keeps its state in separate React cells; here they form one
    immutable record, and every handler is a function from the old record to
    the new one. The submission protocol is in module Submission, and the way
    React re-runs the timer effect is in module Session.
 */
module Attempt {
  import opened Wrappers

  /** The four option letters the page offers as radio buttons. */
  datatype Choice = A | B | C | D {
    function Letter(): string {
      match this
      case A => "A"
      case B => "B"
      case C => "C"
      case D => "D"
    }
  }

  /** Whether the route asked for a paid or a free test; it selects which
      backend endpoints the page calls. */
  datatype TestKind = Paid | Free {
    function Name(): string {
      match this
      case Paid => "PAID"
      case Free => "FREE"
    }
  }

  /** One question as delivered to the client, without its correct option. */
  datatype Question = Question(
    questionId: int,
    questionNo: int,
    text: string,
    optionA: string,
    optionB: string,
    optionC: string,
    optionD: string)

  /** The backend's answer to "start this attempt". */
  datatype AttemptData = AttemptData(
    mockTestId: int,
    mockTestName: string,
    timerInMinutes: int,
    questions: seq<Question>)

  /** One row of the answer review on the result screen. */
  datatype ReviewItem = ReviewItem(
    question: Question,
    correctAnswer: string,
    userAnswer: string,
    isCorrect: bool)

  /** What the result screen shows once a submission succeeded. */
  datatype TestResult = TestResult(
    score: real,
    correctAnswers: nat,
    totalQuestions: nat,
    items: seq<ReviewItem>)

  /** The page state. `attempt` is `attemptData`, `index` is
      `currentQuestionIndex`, `remaining` is `timeRemaining`, and `result`
      stands for `testResult` together with `showResults`, which the page
      always sets together. */
  datatype State = State(
    kind: TestKind,
    loading: bool,
    attempt: Option<AttemptData>,
    index: int,
    answers: map<int, Choice>,
    remaining: int,
    submitting: bool,
    result: Option<TestResult>)

  /** The state the page mounts with. */
  function Initial(kind: TestKind): (s: State)
    ensures s.loading && s.attempt.None? && s.result.None? && !s.submitting
    ensures s.index == 0 && s.remaining == 0 && s.answers == map[]
  {
    State(kind, true, None, 0, map[], 0, false, None)
  }

  /** Where the page sends the browser after trying to start. */
  datatype Redirect = StayHere | ToLogin | ToDashboard

  /** `startTest`: with no stored user the page goes to the login screen;
      otherwise it asks the backend for the attempt. Success stores the
      attempt and sets the countdown to `timerInMinutes * 60` seconds; failure
      shows an error notice and goes back to the dashboard. Loading ends in
      every case. The result is the new state, the redirect and the notice. */
  function StartTest(s: State, userPresent: bool, reply: Reply<AttemptData>): (r: (State, Redirect, Option<Notice>))
    ensures !r.0.loading
    ensures r.0.answers == s.answers && r.0.index == s.index && r.0.kind == s.kind
    ensures r.0.submitting == s.submitting && r.0.result == s.result
    ensures userPresent && reply.Ok? ==>
      && r.0.attempt == Some(reply.value)
      && r.0.remaining == reply.value.timerInMinutes * 60
      && r.1 == StayHere
    ensures !userPresent ==> r.0.attempt == s.attempt && r.0.remaining == s.remaining && r.1 == ToLogin
    ensures userPresent && reply.Err? ==>
      r.0.attempt == s.attempt && r.0.remaining == s.remaining && r.1 == ToDashboard
    ensures r.2.Some? <==> userPresent && reply.Err?
    ensures userPresent && reply.Err? ==> r.2 == Some(Notice("Failed to start test", true))
  {
    if !userPresent then
      (s.(loading := false), ToLogin, None)
    else
      match reply
      case Ok(data) =>
        (s.(loading := false, attempt := Some(data), remaining := data.timerInMinutes * 60), StayHere, None)
      case Err(_, _) =>
        (s.(loading := false), ToDashboard, Some(Notice("Failed to start test", true)))
  }

  /** `handleAnswerSelect(questionId, option)`: records the option for the
      question, replacing any earlier one. */
  function Select(s: State, questionId: int, c: Choice): (r: State)
    ensures questionId in r.answers && r.answers[questionId] == c
    ensures r.answers.Keys == s.answers.Keys + {questionId}
    ensures forall q :: q in s.answers && q != questionId ==> r.answers[q] == s.answers[q]
    ensures r == s.(answers := r.answers)
  {
    s.(answers := s.answers[questionId := c])
  }

  /** Choosing the same option twice is the same as choosing it once. */
  lemma SelectIdempotent(s: State, q: int, c: Choice)
    ensures Select(Select(s, q, c), q, c) == Select(s, q, c)
  {
  }

  /** A later choice for the same question overwrites the earlier one. */
  lemma SelectOverwrites(s: State, q: int, c1: Choice, c2: Choice)
    ensures Select(Select(s, q, c1), q, c2) == Select(s, q, c2)
  {
  }

  /** Choices for different questions do not interfere. */
  lemma SelectCommutes(s: State, q1: int, c1: Choice, q2: int, c2: Choice)
    requires q1 != q2
    ensures Select(Select(s, q1, c1), q2, c2) == Select(Select(s, q2, c2), q1, c1)
  {
  }

  /** A sequence of clicks on answer options. */
  function SelectAll(s: State, clicks: seq<(int, Choice)>): State
    decreases |clicks|
  {
    if |clicks| == 0 then s else SelectAll(Select(s, clicks[0].0, clicks[0].1), clicks[1..])
  }

  /** The last choice made for `q` in a click sequence, if any. */
  function LastChoice(clicks: seq<(int, Choice)>, q: int): Option<Choice>
    decreases |clicks|
  {
    if |clicks| == 0 then None
    else if clicks[|clicks| - 1].0 == q then Some(clicks[|clicks| - 1].1)
    else LastChoice(clicks[..|clicks| - 1], q)
  }

  lemma {:induction false} SelectAllSnoc(s: State, clicks: seq<(int, Choice)>, last: (int, Choice))
    ensures SelectAll(s, clicks + [last]) == Select(SelectAll(s, clicks), last.0, last.1)
    decreases |clicks|
  {
    if |clicks| > 0 {
      assert (clicks + [last])[1..] == clicks[1..] + [last];
      SelectAllSnoc(Select(s, clicks[0].0, clicks[0].1), clicks[1..], last);
    }
  }

  /** After any sequence of clicks, each question's recorded answer is the
      last option clicked for it, and questions never clicked keep what they
      had. Nothing but the answers changes. */
  lemma {:induction false} SelectAllLastWins(s: State, clicks: seq<(int, Choice)>, q: int)
    ensures SelectAll(s, clicks) == s.(answers := SelectAll(s, clicks).answers)
    ensures LastChoice(clicks, q).Some? ==>
      q in SelectAll(s, clicks).answers && SelectAll(s, clicks).answers[q] == LastChoice(clicks, q).value
    ensures LastChoice(clicks, q).None? ==>
      (q in SelectAll(s, clicks).answers <==> q in s.answers)
      && (q in s.answers ==> SelectAll(s, clicks).answers[q] == s.answers[q])
    decreases |clicks|
  {
    if |clicks| > 0 {
      var init := clicks[..|clicks| - 1];
      var last := clicks[|clicks| - 1];
      assert clicks == init + [last];
      SelectAllSnoc(s, init, last);
      SelectAllLastWins(s, init, q);
    }
  }

  /** The set of question ids of an attempt. */
  function Ids(qs: seq<Question>): set<int> {
    set i | 0 <= i < |qs| :: qs[i].questionId
  }

  lemma IdsSnoc(qs: seq<Question>)
    requires |qs| > 0
    ensures Ids(qs) == Ids(qs[..|qs| - 1]) + {qs[|qs| - 1].questionId}
  {
    var init := qs[..|qs| - 1];
    forall id | id in Ids(qs)
      ensures id in Ids(init) + {qs[|qs| - 1].questionId}
    {
      var i :| 0 <= i < |qs| && qs[i].questionId == id;
      if i < |qs| - 1 {
        assert init[i] == qs[i];
      }
    }
    forall id | id in Ids(init)
      ensures id in Ids(qs)
    {
      var i :| 0 <= i < |init| && init[i].questionId == id;
      assert qs[i] == init[i];
    }
  }

  /** An attempt has no more distinct question ids than questions. */
  lemma {:induction false} IdsCard(qs: seq<Question>)
    ensures |Ids(qs)| <= |qs|
    decreases |qs|
  {
    if |qs| > 0 {
      IdsSnoc(qs);
      IdsCard(qs[..|qs| - 1]);
    }
  }

  lemma {:induction false} SubsetCard<T>(a: set<T>, b: set<T>)
    requires a <= b
    ensures |a| <= |b|
    decreases |a|
  {
    if a != {} {
      var x :| x in a;
      SubsetCard(a - {x}, b - {x});
    }
  }

  /** Question ids are pairwise distinct. */
  predicate DistinctIds(qs: seq<Question>) {
    forall i, j :: 0 <= i < j < |qs| ==> qs[i].questionId != qs[j].questionId
  }

  /** Every recorded answer belongs to a question of the loaded attempt. */
  predicate AnswersWithinAttempt(s: State) {
    s.attempt.Some? ==> s.answers.Keys <= Ids(s.attempt.value.questions)
  }

  /** The current index points at a question of the loaded attempt. */
  predicate IndexInRange(s: State) {
    s.attempt.Some? ==> 0 <= s.index < |s.attempt.value.questions|
  }

  /** The page's working invariant while an attempt is on screen. */
  predicate Valid(s: State) {
    AnswersWithinAttempt(s) && IndexInRange(s)
  }

  /** The question the panel shows. */
  function CurrentQuestion(s: State): Question
    requires s.attempt.Some? && IndexInRange(s)
  {
    s.attempt.value.questions[s.index]
  }

  /** The option buttons only exist for the current question: clicking one
      selects for that question. */
  function SelectCurrent(s: State, c: Choice): (r: State)
    requires s.attempt.Some? && IndexInRange(s)
    ensures Valid(s) ==> Valid(r)
    ensures CurrentQuestion(s).questionId in r.answers
    ensures r.answers[CurrentQuestion(s).questionId] == c
  {
    Select(s, CurrentQuestion(s).questionId, c)
  }

  /** A successful start from the mounted state, with at least one question,
      satisfies the invariant. */
  lemma StartEstablishesValid(kind: TestKind, reply: Reply<AttemptData>)
    requires reply.Ok? && |reply.value.questions| >= 1
    ensures Valid(StartTest(Initial(kind), true, reply).0)
  {
  }

  /** `nextQuestion`: forward one question unless on the last one. */
  function Next(s: State): (r: State)
    ensures r == s.(index := r.index)
    ensures r.index == s.index || r.index == s.index + 1
    ensures r.index == s.index + 1 <==>
      s.attempt.Some? && s.index < |s.attempt.value.questions| - 1
    ensures Valid(s) ==> Valid(r)
  {
    if s.attempt.Some? && s.index < |s.attempt.value.questions| - 1 then s.(index := s.index + 1) else s
  }

  /** `prevQuestion`: back one question unless on the first one. */
  function Prev(s: State): (r: State)
    ensures r == s.(index := r.index)
    ensures r.index == s.index || r.index == s.index - 1
    ensures r.index == s.index - 1 <==> s.index > 0
    ensures Valid(s) ==> Valid(r)
  {
    if s.index > 0 then s.(index := s.index - 1) else s
  }

  /** `goToQuestion(index)`: jumps to any index; the grid only offers the
      indices of its own buttons. */
  function GoTo(s: State, i: int): (r: State)
    ensures r == s.(index := i)
  {
    s.(index := i)
  }

  /** Previous undoes Next whenever Next moved. */
  lemma PrevUndoesNext(s: State)
    requires s.attempt.Some? && 0 <= s.index < |s.attempt.value.questions| - 1
    ensures Prev(Next(s)) == s
  {
  }

  /** Next undoes Previous whenever Previous moved inside the attempt. */
  lemma NextUndoesPrev(s: State)
    requires s.attempt.Some? && 0 < s.index < |s.attempt.value.questions|
    ensures Next(Prev(s)) == s
  {
  }

  /** The navigation gestures the page offers while a test is on screen. */
  datatype Move = NextMove | PrevMove | GridMove(i: int)

  /** A grid move is one the grid can produce: the index of one of its
      buttons. */
  predicate GridMoves(s: State, moves: seq<Move>) {
    s.attempt.Some? &&
    forall k :: 0 <= k < |moves| && moves[k].GridMove? ==>
      0 <= moves[k].i < |s.attempt.value.questions|
  }

  function Navigate(s: State, moves: seq<Move>): State
    decreases |moves|
  {
    if |moves| == 0 then s
    else
      var t := match moves[0]
        case NextMove => Next(s)
        case PrevMove => Prev(s)
        case GridMove(i) => GoTo(s, i);
      Navigate(t, moves[1..])
  }

  /** Starting at question 0 of a non-empty attempt, no sequence of
      navigation gestures leaves the question range, and navigation touches
      nothing but the index. */
  lemma {:induction false} NavigationStaysInRange(s: State, moves: seq<Move>)
    requires s.attempt.Some? && IndexInRange(s)
    requires GridMoves(s, moves)
    ensures IndexInRange(Navigate(s, moves))
    ensures Navigate(s, moves) == s.(index := Navigate(s, moves).index)
    decreases |moves|
  {
    if |moves| > 0 {
      var t := match moves[0]
        case NextMove => Next(s)
        case PrevMove => Prev(s)
        case GridMove(i) => GoTo(s, i);
      assert GridMoves(t, moves[1..]) by {
        forall k | 0 <= k < |moves[1..]| && moves[1..][k].GridMove?
          ensures 0 <= moves[1..][k].i < |t.attempt.value.questions|
        {
          assert moves[1..][k] == moves[k + 1];
        }
      }
      NavigationStaysInRange(t, moves[1..]);
    }
  }

  /** `isAnswered(questionId)`: the grid marks a question when an answer is
      recorded for it. */
  predicate IsAnswered(answers: map<int, Choice>, questionId: int) {
    questionId in answers
  }

  /** A click on an option marks the clicked question in the grid and
      changes no other question's mark. */
  lemma SelectMarksExactly(s: State, questionId: int, c: Choice, id: int)
    ensures IsAnswered(Select(s, questionId, c).answers, id) <==> id == questionId || IsAnswered(s.answers, id)
  {
  }

  /** The "Answered" figure of the summary: the number of recorded answers. */
  function AnsweredCount(s: State): nat {
    |s.answers.Keys|
  }

  /** The "Remaining" figure of the summary. */
  function RemainingCount(s: State): int
    requires s.attempt.Some?
  {
    |s.attempt.value.questions| - AnsweredCount(s)
  }

  /** How many grid buttons carry the answered mark: one per question for
      which `IsAnswered` holds. */
  function MarkedCount(qs: seq<Question>, answers: map<int, Choice>): nat
    decreases |qs|
  {
    if |qs| == 0 then 0
    else MarkedCount(qs[..|qs| - 1], answers) + (if IsAnswered(answers, qs[|qs| - 1].questionId) then 1 else 0)
  }

  /** Adding one fresh element to a set adds one to its intersection with
      `k` exactly when the element is in `k`. */
  lemma IntersectAddFresh(k: set<int>, a: set<int>, id: int)
    requires id !in a
    ensures |k * (a + {id})| == |k * a| + (if id in k then 1 else 0)
  {
    if id in k {
      assert k * (a + {id}) == (k * a) + {id};
    } else {
      assert k * (a + {id}) == k * a;
    }
  }

  lemma LastIdIsFresh(qs: seq<Question>)
    requires |qs| > 0 && DistinctIds(qs)
    ensures qs[|qs| - 1].questionId !in Ids(qs[..|qs| - 1])
    ensures DistinctIds(qs[..|qs| - 1])
  {
    var init := qs[..|qs| - 1];
    forall i | 0 <= i < |init|
      ensures init[i].questionId != qs[|qs| - 1].questionId
    {
      assert init[i] == qs[i];
    }
  }

  lemma {:induction false} MarkedCountIsIntersection(qs: seq<Question>, answers: map<int, Choice>)
    requires DistinctIds(qs)
    ensures MarkedCount(qs, answers) == |answers.Keys * Ids(qs)|
    decreases |qs|
  {
    if |qs| > 0 {
      var init := qs[..|qs| - 1];
      var id := qs[|qs| - 1].questionId;
      LastIdIsFresh(qs);
      MarkedCountIsIntersection(init, answers);
      IdsSnoc(qs);
      IntersectAddFresh(answers.Keys, Ids(init), id);
    }
  }

  /** The summary figures agree with the grid. Answers stay within the
      attempt, so the "Answered" figure never exceeds the question count and
      "Answered" plus "Remaining" is the total; with distinct question ids the
      "Answered" figure is exactly the number of marked grid buttons. */
  lemma SummaryMatchesGrid(s: State)
    requires s.attempt.Some? && AnswersWithinAttempt(s)
    ensures 0 <= AnsweredCount(s) <= |s.attempt.value.questions|
    ensures AnsweredCount(s) + RemainingCount(s) == |s.attempt.value.questions|
    ensures RemainingCount(s) >= 0
    ensures DistinctIds(s.attempt.value.questions) ==>
      AnsweredCount(s) == MarkedCount(s.attempt.value.questions, s.answers)
  {
    var qs := s.attempt.value.questions;
    SubsetCard(s.answers.Keys, Ids(qs));
    IdsCard(qs);
    if DistinctIds(qs) {
      MarkedCountIsIntersection(qs, s.answers);
      assert s.answers.Keys * Ids(qs) == s.answers.Keys;
    }
  }

  /** What the timer effect does on a run: schedule the next tick, call the
      submit handler, or nothing. */
  datatype EffectAction = ScheduleTick | CallSubmit | Idle

  /** The timer effect. It schedules a tick while time is left and nothing is
      being submitted; at zero with an attempt loaded it calls the submit
      handler, and that branch does not look at `submitting`. */
  function TimerEffect(s: State): (a: EffectAction)
    ensures a == ScheduleTick <==> s.remaining > 0 && !s.submitting
    ensures a == CallSubmit <==> s.remaining == 0 && s.attempt.Some?
  {
    if s.remaining > 0 && !s.submitting then ScheduleTick
    else if s.remaining == 0 && s.attempt.Some? then CallSubmit
    else Idle
  }

  /** One firing of the scheduled timeout. A timeout exists only while the
      effect scheduled one and its dependencies have not changed since, so a
      tick in any other state does nothing. A tick lowers the count by one. */
  function Tick(s: State): (r: State)
    ensures r == s.(remaining := r.remaining)
    ensures r.remaining == s.remaining - 1 <==> s.remaining > 0 && !s.submitting
    ensures r.remaining == s.remaining || r.remaining == s.remaining - 1
    ensures s.remaining >= 0 ==> r.remaining >= 0
  {
    if TimerEffect(s) == ScheduleTick then s.(remaining := s.remaining - 1) else s
  }

  /** The seconds spent so far: the full allowance minus what is left. */
  function TimeTaken(data: AttemptData, remaining: int): (t: int)
    ensures 0 <= remaining <= data.timerInMinutes * 60 ==> 0 <= t <= data.timerInMinutes * 60
    ensures remaining + t == data.timerInMinutes * 60
  {
    data.timerInMinutes * 60 - remaining
  }
}

=== FILE: clock.dfy ===
/** The countdown display of the test-attempt page: `formatTime` renders the
    remaining seconds as `HH:MM:SS`, and the timer turns to its warning look
    under five minutes.

    The page computes the fields with `Math.floor` and JavaScript's `%`, which
    truncates toward zero; both are written out so that the model also says
    what a negative count would display.
 */
module Clock {
  import opened Wrappers
  import opened Text

  /** JavaScript's `a % b` for a positive divisor: the remainder takes the
      sign of the dividend. */
  function JsRem(a: int, b: int): (r: int)
    requires b > 0
    ensures a >= 0 ==> 0 <= r < b
    ensures a < 0 ==> -b < r <= 0
    ensures a >= 0 ==> r == a % b
  {
    if a >= 0 then a % b else -((-a) % b)
  }

  /** `Math.floor(a / b)` for a positive divisor. */
  function FloorDiv(a: int, b: int): (q: int)
    requires b > 0
    ensures q * b <= a < q * b + b
  {
    a / b
  }

  datatype Fields = Fields(hours: int, minutes: int, secs: int)

  /** The three numbers `formatTime` prints. */
  function ClockFields(seconds: int): (f: Fields)
    ensures seconds >= 0 ==>
      && f.hours >= 0
      && 0 <= f.minutes < 60
      && 0 <= f.secs < 60
      && f.hours * 3600 + f.minutes * 60 + f.secs == seconds
  {
    Fields(FloorDiv(seconds, 3600), FloorDiv(JsRem(seconds, 3600), 60), JsRem(seconds, 60))
  }

  /** `formatTime(seconds)`: each field rendered and padded to two characters,
      joined by colons. For a non-negative count the display is an hour field
      of at least two digits, then exactly two minute digits and two second
      digits. */
  function FormatTime(seconds: int): (r: string)
    ensures |r| >= 8
    ensures seconds >= 0 ==>
      && r[|r| - 3] == ':' && r[|r| - 6] == ':'
      && AllDigits(r[..|r| - 6])
      && AllDigits(r[|r| - 5..|r| - 3])
      && AllDigits(r[|r| - 2..])
  {
    var f := ClockFields(seconds);
    if seconds >= 0 then PaddedFields(seconds); Join(PadStart2(IntToString(f.hours)), PadStart2(IntToString(f.minutes)), PadStart2(IntToString(f.secs)))
    else Join(PadStart2(IntToString(f.hours)), PadStart2(IntToString(f.minutes)), PadStart2(IntToString(f.secs)))
  }

  /** For a non-negative count each padded field is made of digits, and the
      minute and second fields are two long. */
  lemma PaddedFields(seconds: int)
    requires seconds >= 0
    ensures var f := ClockFields(seconds);
      && AllDigits(PadStart2(IntToString(f.hours)))
      && |PadStart2(IntToString(f.minutes))| == 2 && AllDigits(PadStart2(IntToString(f.minutes)))
      && |PadStart2(IntToString(f.secs))| == 2 && AllDigits(PadStart2(IntToString(f.secs)))
  {
    var f := ClockFields(seconds);
    HourFieldRoundTrip(f.hours);
    TwoDigitRoundTrip(f.minutes);
    TwoDigitRoundTrip(f.secs);
  }

  /** Three fields joined by colons; two-character minute and second fields
      sit at fixed places from the end. */
  function Join(h: string, m: string, s: string): (r: string)
    ensures |r| == |h| + |m| + |s| + 2
    ensures |m| == 2 && |s| == 2 ==>
      && r[|r| - 3] == ':' && r[|r| - 6] == ':'
      && r[..|r| - 6] == h && r[|r| - 5..|r| - 3] == m && r[|r| - 2..] == s
  {
    var r := h + ":" + m + ":" + s;
    assert |m| == 2 && |s| == 2 ==> r[..|r| - 6] == h && r[|r| - 5..|r| - 3] == m && r[|r| - 2..] == s;
    r
  }

  /** Under five minutes left, the timer is drawn in its warning style. */
  predicate TimerWarning(remaining: int) {
    remaining < 300
  }

  /** For a non-negative count the warning style is on exactly when the
      display reads no hours and fewer than five minutes. */
  lemma WarningInLastFiveMinutes(seconds: int)
    requires seconds >= 0
    ensures var f := ClockFields(seconds);
      TimerWarning(seconds) <==> f.hours == 0 && f.minutes < 5
  {
  }

  /** Reads an `H:MM:SS` display back into seconds; the hour field may have
      any number of digits, the other two have exactly two. */
  function ParseClock(r: string): Option<nat> {
    if |r| >= 7 && r[|r| - 3] == ':' && r[|r| - 6] == ':' then
      var h := r[..|r| - 6];
      var m := r[|r| - 5..|r| - 3];
      var s := r[|r| - 2..];
      if |h| > 0 && AllDigits(h) && AllDigits(m) && AllDigits(s) then
        Some(ClockValue(DecimalValue(h), DecimalValue(m), DecimalValue(s)))
      else None
    else None
  }

  function ClockValue(hours: nat, minutes: nat, secs: nat): nat {
    hours * 3600 + minutes * 60 + secs
  }

  /** Hours read back from the padded hour field. */
  lemma HourFieldRoundTrip(n: nat)
    ensures |PadStart2(NatToString(n))| >= 2
    ensures AllDigits(PadStart2(NatToString(n)))
    ensures DecimalValue(PadStart2(NatToString(n))) == n
  {
    DecimalRoundTrip(n);
    if n < 10 {
      LeadingZeroValue(NatToString(n));
    }
  }

  /** Reading back a display assembled from digit fields. */
  lemma ParseClockJoin(h: string, m: string, s: string)
    requires |h| > 0 && AllDigits(h)
    requires |m| == 2 && AllDigits(m)
    requires |s| == 2 && AllDigits(s)
    ensures ParseClock(Join(h, m, s))
      == Some(ClockValue(DecimalValue(h), DecimalValue(m), DecimalValue(s)))
  {
  }

  /** For a non-negative count the display loses nothing: reading it back
      gives the count, and minutes and seconds take two characters each. */
  lemma FormatTimeRoundTrip(seconds: nat)
    ensures ParseClock(FormatTime(seconds)) == Some(seconds)
  {
    var f := ClockFields(seconds);
    assert ClockValue(f.hours, f.minutes, f.secs) == seconds;
    var h := PadStart2(IntToString(f.hours));
    var m := PadStart2(IntToString(f.minutes));
    var s := PadStart2(IntToString(f.secs));
    assert FormatTime(seconds) == Join(h, m, s);
    HourFieldRoundTrip(f.hours);
    TwoDigitRoundTrip(f.minutes);
    TwoDigitRoundTrip(f.secs);
    ParseClockJoin(h, m, s);
  }
}

=== FILE: daily_problems.dfy ===
/** The daily practice problems administration page.

    Problems are listed by date, created and edited through one form, and
    deleted after a confirmation that previews the question. Past problems
    can be removed in one request.
 */
module DailyProblems {
  import opened Wrappers
  import opened Text
  import opened Palette

  /** `DPPRequest`. */
  datatype ProblemForm = ProblemForm(question: string, description: string, difficulty: string, createdBy: string, date: string)

  /** `DPPResponse`; the description may be absent. */
  datatype Problem = Problem(id: int, question: string, description: Option<string>, difficulty: string, createdBy: string, date: string)

  datatype DeleteConfirm = DeleteConfirm(show: bool, problemId: Option<int>, question: string)

  const NoDelete := DeleteConfirm(false, None, "")

  datatype Request =
    | GetByDate(date: string)
    | Create(form: ProblemForm)
    | Update(id: int, form: ProblemForm)
    | Delete(id: int)
    | DeletePast

  datatype Page = Page(
    problems: seq<Problem>,
    loading: bool,
    showForm: bool,
    editing: Option<Problem>,
    selectedDate: string,
    deleteConfirm: DeleteConfirm,
    form: ProblemForm,
    notice: Option<Notice>)

  /** A handler's outcome: the page and the requests made, in order. */
  datatype Outcome = Outcome(page: Page, sent: seq<Request>)

  /** `getDifficultyColor`. */
  function DifficultyColor(difficulty: string): (c: string)
    ensures c == Green <==> difficulty == "Easy"
    ensures c == Amber <==> difficulty == "Medium"
    ensures c == Red <==> difficulty == "Hard"
    ensures c == Grey <==> difficulty !in {"Easy", "Medium", "Hard"}
  {
    match difficulty
    case "Easy" => Green
    case "Medium" => Amber
    case "Hard" => Red
    case _ => Grey
  }

  /** The three difficulties the form offers get three different colours,
      none of them the colour of an unknown difficulty. */
  lemma DifficultyColorsDistinct(d1: string, d2: string)
    requires d1 in {"Easy", "Medium", "Hard"} && d1 != d2
    ensures DifficultyColor(d1) != DifficultyColor(d2)
  {
  }

  /** The date effect: a newly selected date (or the first render) starts a
      load for it. */
  function SelectDate(p: Page, date: string): (o: Outcome)
    ensures o.sent == [GetByDate(date)] && o.page.selectedDate == date && o.page.loading
    ensures o.page.problems == p.problems && o.page.form == p.form
  {
    Outcome(p.(selectedDate := date, loading := true), [GetByDate(date)])
  }

  const LoadFailed := Notice("Failed to load daily problems", true)

  /** `loadProblems` once its request settles: a rejection with status 204
      empties the list; any other rejection is reported and keeps it. */
  function LoadProblems(p: Page, reply: Reply<seq<Problem>>): (q: Page)
    ensures !q.loading
    ensures reply.Ok? ==> q.problems == reply.value && q.notice == p.notice
    ensures HasStatus(reply, 204) ==> q.problems == [] && q.notice == p.notice
    ensures reply.Err? && !HasStatus(reply, 204) ==> q.problems == p.problems && q.notice == Some(LoadFailed)
    ensures q.form == p.form && q.deleteConfirm == p.deleteConfirm
  {
    match reply
    case Ok(list) => p.(problems := list, loading := false)
    case Err(status, _) =>
      if status == Some(204) then p.(problems := [], loading := false)
      else p.(notice := Some(LoadFailed), loading := false)
  }

  /** `resetForm`: an empty medium problem by "Admin" for `today`; nothing
      is being edited and the form is hidden. */
  function ResetForm(p: Page, today: string): (q: Page)
    ensures q.form.question == "" && q.form.description == ""
    ensures q.form.difficulty == "Medium" && q.form.createdBy == "Admin" && q.form.date == today
    ensures q.editing.None? && !q.showForm
    ensures q.problems == p.problems && q.deleteConfirm == p.deleteConfirm
  {
    p.(form := ProblemForm("", "", "Medium", "Admin", today), editing := None, showForm := false)
  }

  /** The request `handleSubmit` makes. */
  function SaveRequest(p: Page): (r: Request)
    ensures r.Create? || r.Update?
    ensures r.form == p.form
    ensures r.Update? <==> p.editing.Some?
    ensures r.Update? ==> r.id == p.editing.value.id
  {
    if p.editing.Some? then Update(p.editing.value.id, p.form) else Create(p.form)
  }

  /** `handleSubmit`: success resets the form and reloads the selected date;
      failure keeps the form. */
  function HandleSubmit(p: Page, reply: Reply<()>, today: string): (o: Outcome)
    ensures |o.sent| >= 1 && o.sent[0] == SaveRequest(p)
    ensures reply.Ok? ==>
      && o.sent == [SaveRequest(p), GetByDate(p.selectedDate)]
      && o.page.form == ProblemForm("", "", "Medium", "Admin", today)
      && o.page.editing.None? && !o.page.showForm && o.page.loading
      && o.page.notice == Some(Notice(if p.editing.Some? then "Problem updated successfully" else "Problem created successfully", false))
    ensures reply.Err? ==>
      && o.sent == [SaveRequest(p)]
      && o.page == p.(notice := Some(Notice(ErrorText(reply, "Operation failed"), true)))
  {
    var save := SaveRequest(p);
    match reply
    case Ok(_) =>
      var message := if p.editing.Some? then "Problem updated successfully" else "Problem created successfully";
      Outcome(ResetForm(p, today).(notice := Some(Notice(message, false)), loading := true), [save, GetByDate(p.selectedDate)])
    case Err(_, _) =>
      Outcome(p.(notice := Some(Notice(ErrorText(reply, "Operation failed"), true))), [save])
  }

  /** The form holding a problem's fields, an absent description becoming
      the empty string. */
  function FormOf(pr: Problem): (f: ProblemForm)
    ensures f.question == pr.question && f.difficulty == pr.difficulty
    ensures f.createdBy == pr.createdBy && f.date == pr.date
    ensures f.description == if pr.description.Some? then pr.description.value else ""
  {
    ProblemForm(pr.question, pr.description.GetOr(""), pr.difficulty, pr.createdBy, pr.date)
  }

  /** The problem a saved form describes. */
  function ProblemOf(id: int, f: ProblemForm): (pr: Problem)
    ensures pr.id == id && FormOf(pr) == f
  {
    Problem(id, f.question, Some(f.description), f.difficulty, f.createdBy, f.date)
  }

  /** `handleEdit`. */
  function HandleEdit(p: Page, pr: Problem): (q: Page)
    ensures q.form == FormOf(pr) && q.editing == Some(pr) && q.showForm
    ensures q.problems == p.problems
  {
    p.(editing := Some(pr), form := FormOf(pr), showForm := true)
  }

  /** Opening a problem and saving it unchanged sends it back as it was,
      except that an absent description is sent as the empty string. */
  lemma EditSaveRoundTrip(p: Page, pr: Problem, reply: Reply<()>, today: string)
    ensures var o := HandleSubmit(HandleEdit(p, pr), reply, today);
      && o.sent[0] == Update(pr.id, FormOf(pr))
      && ProblemOf(pr.id, o.sent[0].form) == pr.(description := Some(pr.description.GetOr("")))
      && (pr.description.Some? ==> ProblemOf(pr.id, o.sent[0].form) == pr)
  {
  }

  /** `handleDelete`: the problem becomes the pending one; its whole
      question is kept. */
  function HandleDelete(p: Page, pr: Problem): (q: Page)
    ensures q.deleteConfirm == DeleteConfirm(true, Some(pr.id), pr.question)
    ensures q.problems == p.problems && q.form == p.form
  {
    p.(deleteConfirm := DeleteConfirm(true, Some(pr.id), pr.question))
  }

  const PreviewLimit := 100

  /** The preview in the delete dialog: the first 100 characters, with
      "..." appended whatever the length. */
  function DeletePreview(question: string): (s: string)
    ensures 3 <= |s| <= PreviewLimit + 3
    ensures s[|s| - 3..] == "..."
    ensures |question| <= PreviewLimit ==> s == question + "..."
    ensures |question| > PreviewLimit ==> s == question[..PreviewLimit] + "..."
  {
    Take(question, PreviewLimit) + "..."
  }

  /** A short question is shown whole but still marked as cut. */
  lemma ShortQuestionMarkedCut(question: string)
    requires |question| <= PreviewLimit
    ensures DeletePreview(question) != question
    ensures DeletePreview(question)[..|question|] == question
  {
  }

  /** `deleteConfirm.problemId` is truthy: present and not zero. */
  predicate HasPendingId(d: DeleteConfirm) {
    d.problemId.Some? && d.problemId.value != 0
  }

  /** `confirmDelete`: without a truthy pending id nothing happens at all;
      otherwise the problem is deleted (the date reloaded on success) and
      the confirmation state is cleared whatever the outcome. */
  function ConfirmDelete(p: Page, reply: Reply<()>): (o: Outcome)
    ensures o.sent == [] <==> !HasPendingId(p.deleteConfirm)
    ensures !HasPendingId(p.deleteConfirm) ==> o.page == p
    ensures HasPendingId(p.deleteConfirm) ==>
      && o.page.deleteConfirm == NoDelete
      && o.sent == (if reply.Ok? then [Delete(p.deleteConfirm.problemId.value), GetByDate(p.selectedDate)]
                    else [Delete(p.deleteConfirm.problemId.value)])
      && o.page.notice
         == if reply.Ok? then Some(Notice("Problem deleted successfully", false))
            else Some(Notice("Failed to delete problem", true))
  {
    if !HasPendingId(p.deleteConfirm) then Outcome(p, [])
    else
      var id := p.deleteConfirm.problemId.value;
      match reply
      case Ok(_) =>
        Outcome(p.(notice := Some(Notice("Problem deleted successfully", false)), loading := true, deleteConfirm := NoDelete),
                [Delete(id), GetByDate(p.selectedDate)])
      case Err(_, _) =>
        Outcome(p.(notice := Some(Notice("Failed to delete problem", true)), deleteConfirm := NoDelete), [Delete(id)])
  }

  /** The dialog's cancel button. */
  function CancelDelete(p: Page): (q: Page)
    ensures q.deleteConfirm == NoDelete && q.problems == p.problems
  {
    p.(deleteConfirm := NoDelete)
  }

  /** A dialog opened on a problem closes empty whether it is cancelled or
      confirmed, and confirming deletes exactly that problem. */
  lemma DeleteDialogAlwaysCloses(p: Page, pr: Problem, reply: Reply<()>)
    requires pr.id != 0
    ensures CancelDelete(HandleDelete(p, pr)).deleteConfirm == NoDelete
    ensures ConfirmDelete(HandleDelete(p, pr), reply).page.deleteConfirm == NoDelete
    ensures ConfirmDelete(HandleDelete(p, pr), reply).sent[0] == Delete(pr.id)
  {
  }

  /** `handleDeletePast`: no confirmation is asked; success shows the
      server's message and reloads. */
  function HandleDeletePast(p: Page, reply: Reply<string>): (o: Outcome)
    ensures o.sent == if reply.Ok? then [DeletePast, GetByDate(p.selectedDate)] else [DeletePast]
    ensures o.page.notice
      == if reply.Ok? then Some(Notice(reply.value, false)) else Some(Notice("Failed to delete past problems", true))
    ensures o.page.form == p.form && o.page.deleteConfirm == p.deleteConfirm
  {
    match reply
    case Ok(message) => Outcome(p.(notice := Some(Notice(message, false)), loading := true), [DeletePast, GetByDate(p.selectedDate)])
    case Err(_, _) => Outcome(p.(notice := Some(Notice("Failed to delete past problems", true))), [DeletePast])
  }
}

=== FILE: dashboards.dfy ===
/** The two student landing pages.

    `UserDashboard` is the tabbed dashboard: the tabs depend on the role, an
    unknown active tab shows the overview, and the data loaded depends on the
    role. `StudentDashboard` is the summary page: role-dependent quick
    actions, the three most recent scores and attempts, and a count of the
    tests on offer.

    The lists the pages fetch are modelled as sequences of `Item`s: the pages
    only store, count and slice them.
 */
module UserDashboard {
  import opened Wrappers

  datatype Tab = Tab(id: string, caption: string, icon: string)

  const OverviewTab := Tab("overview", "📊 Overview", "📊")
  const MeetingsTab := Tab("meetings", "🎥 Meetings", "🎥")
  const PaidTab := Tab("paid-tests", "📝 Paid Tests", "📝")
  const DailyTab := Tab("daily-problems", "📚 Daily Problems", "📚")
  const FreeTab := Tab("free-tests", "🆓 Free Tests", "🆓")
  const ScoresTab := Tab("scores", "🏆 My Scores", "🏆")
  const ProfileTab := Tab("profile", "👤 Profile", "👤")

  /** The tabs between the overview and the fixed last two, chosen by
      `userData?.role`; `None` is a page without user data. */
  function RoleTabs(role: Option<string>): seq<Tab> {
    if role == Some("FULL_COURSE") then [MeetingsTab, PaidTab, DailyTab]
    else if role == Some("MOCKTEST") then [PaidTab]
    else if role == Some("USER") then [FreeTab]
    else []
  }

  /** `getAvailableTabs()`. */
  function AvailableTabs(role: Option<string>): (tabs: seq<Tab>)
    ensures |tabs| >= 3 && tabs[0].id == "overview"
    ensures tabs[|tabs| - 2].id == "scores" && tabs[|tabs| - 1].id == "profile"
    ensures tabs[1..|tabs| - 2] == RoleTabs(role)
  {
    [OverviewTab] + RoleTabs(role) + [ScoresTab, ProfileTab]
  }

  function TabIds(tabs: seq<Tab>): (ids: seq<string>)
    ensures |ids| == |tabs|
  {
    seq(|tabs|, i requires 0 <= i < |tabs| => tabs[i].id)
  }

  /** The tab list of each role: the full course adds meetings, paid tests
      and daily problems in that order, the mock-test plan only paid tests,
      the free plan only free tests, and any other role nothing. */
  lemma TabsPerRole(role: Option<string>)
    ensures role == Some("FULL_COURSE") ==>
      TabIds(AvailableTabs(role)) == ["overview", "meetings", "paid-tests", "daily-problems", "scores", "profile"]
    ensures role == Some("MOCKTEST") ==>
      TabIds(AvailableTabs(role)) == ["overview", "paid-tests", "scores", "profile"]
    ensures role == Some("USER") ==>
      TabIds(AvailableTabs(role)) == ["overview", "free-tests", "scores", "profile"]
    ensures role !in {Some("FULL_COURSE"), Some("MOCKTEST"), Some("USER")} ==>
      TabIds(AvailableTabs(role)) == ["overview", "scores", "profile"]
  {
  }

  /** No role sees the same tab twice. */
  lemma TabIdsDistinct(role: Option<string>, i: nat, j: nat)
    requires i < j < |AvailableTabs(role)|
    ensures AvailableTabs(role)[i].id != AvailableTabs(role)[j].id
  {
    TabsPerRole(role);
    var ids := TabIds(AvailableTabs(role));
    assert ids[i] == AvailableTabs(role)[i].id && ids[j] == AvailableTabs(role)[j].id;
  }

  datatype View = OverviewView | PaidTestsView | FreeTestsView | ScoresView | MeetingsView | DailyProblemsView | ProfileView

  const KnownTabIds: set<string> := {"overview", "paid-tests", "free-tests", "scores", "meetings", "daily-problems", "profile"}

  /** `renderContent()`: the view of the active tab, the overview for an id
      it does not know. */
  function RenderContent(activeTab: string): (v: View)
    ensures activeTab !in KnownTabIds ==> v == OverviewView
    ensures v == OverviewView <==> activeTab == "overview" || activeTab !in KnownTabIds
  {
    match activeTab
    case "overview" => OverviewView
    case "paid-tests" => PaidTestsView
    case "free-tests" => FreeTestsView
    case "scores" => ScoresView
    case "meetings" => MeetingsView
    case "daily-problems" => DailyProblemsView
    case "profile" => ProfileView
    case _ => OverviewView
  }

  /** Every tab a role is offered opens a view of its own. */
  lemma TabsOpenDistinctViews(role: Option<string>, i: nat, j: nat)
    requires i < j < |AvailableTabs(role)|
    ensures RenderContent(AvailableTabs(role)[i].id) != RenderContent(AvailableTabs(role)[j].id)
  {
    TabsPerRole(role);
    var ids := TabIds(AvailableTabs(role));
    assert ids[i] == AvailableTabs(role)[i].id && ids[j] == AvailableTabs(role)[j].id;
  }

  datatype Catalogue = PaidCatalogue | FreeCatalogue | NoCatalogue

  /** Which list of mock tests `loadUserData` fetches. */
  function CatalogueFor(role: string): (c: Catalogue)
    ensures c == PaidCatalogue <==> role == "FULL_COURSE" || role == "MOCKTEST"
    ensures c == FreeCatalogue <==> role == "USER"
  {
    if role == "FULL_COURSE" || role == "MOCKTEST" then PaidCatalogue
    else if role == "USER" then FreeCatalogue
    else NoCatalogue
  }

  /** The catalogue loaded is the one the tabs offer: paid tests are fetched
      exactly when there is a paid-tests tab, free tests exactly when there
      is a free-tests tab. */
  lemma CatalogueMatchesTabs(role: string)
    ensures CatalogueFor(role) == PaidCatalogue <==> PaidTab in AvailableTabs(Some(role))
    ensures CatalogueFor(role) == FreeCatalogue <==> FreeTab in AvailableTabs(Some(role))
  {
    var tabs := AvailableTabs(Some(role));
    assert tabs == [OverviewTab] + RoleTabs(Some(role)) + [ScoresTab, ProfileTab];
  }

  datatype Item = Item(id: int, title: string)

  datatype Request = GetScores | GetPaidTests | GetMeetings | GetTodayProblems | GetFreeTests | GetProfile

  /** How the backend answers each request `loadUserData` may make. */
  datatype Backend = Backend(
    scores: Reply<seq<Item>>,
    paidTests: Reply<seq<Item>>,
    freeTests: Reply<seq<Item>>,
    meetings: Reply<seq<Item>>,
    todayProblems: Reply<seq<Item>>,
    profile: Reply<Item>)

  datatype Dash = Dash(
    loading: bool,
    scores: seq<Item>,
    mockTests: seq<Item>,
    meetings: seq<Item>,
    dailyProblems: seq<Item>,
    profile: Option<Item>,
    notice: Option<Notice>,
    requests: seq<Request>)

  const LoadFailed := Notice("Failed to load user data", true)

  /** The catalogue requests of a role; the full course's three go out
      together (`Promise.all`). */
  function CatalogueRequests(role: string): seq<Request> {
    if role == "FULL_COURSE" then [GetPaidTests, GetMeetings, GetTodayProblems]
    else if role == "MOCKTEST" then [GetPaidTests]
    else if role == "USER" then [GetFreeTests]
    else []
  }

  /** The catalogue requests all succeeded. */
  predicate CatalogueOk(role: string, b: Backend) {
    if role == "FULL_COURSE" then b.paidTests.Ok? && b.meetings.Ok? && b.todayProblems.Ok?
    else if role == "MOCKTEST" then b.paidTests.Ok?
    else if role == "USER" then b.freeTests.Ok?
    else true
  }

  /** Every request the role needs succeeded. */
  predicate AllOk(role: string, b: Backend) {
    b.scores.Ok? && CatalogueOk(role, b) && b.profile.Ok?
  }

  function Fail(d: Dash): Dash {
    d.(loading := false, notice := Some(LoadFailed))
  }

  /** The catalogue step, applied once the requests have succeeded. */
  function StoreCatalogue(d: Dash, role: string, b: Backend): Dash
    requires CatalogueOk(role, b)
  {
    if role == "FULL_COURSE" then
      d.(mockTests := b.paidTests.value, meetings := b.meetings.value, dailyProblems := b.todayProblems.value)
    else if role == "MOCKTEST" then d.(mockTests := b.paidTests.value)
    else if role == "USER" then d.(mockTests := b.freeTests.value)
    else d
  }

  /** The requests a load makes: it stops at the first failure. */
  function Issued(role: string, b: Backend): seq<Request> {
    if b.scores.Err? then [GetScores]
    else if !CatalogueOk(role, b) then [GetScores] + CatalogueRequests(role)
    else [GetScores] + CatalogueRequests(role) + [GetProfile]
  }

  /** `loadUserData(user)`: scores first, then the role's catalogue, then the
      profile; the first failure ends the load with one notification, and
      whatever was stored before it stays. */
  function LoadUserData(d: Dash, role: string, b: Backend): (r: Dash)
    ensures !r.loading
    ensures r.notice == (if AllOk(role, b) then d.notice else Some(LoadFailed))
    ensures r.requests == d.requests + Issued(role, b)
    ensures r.scores == if b.scores.Ok? then b.scores.value else d.scores
    ensures r.profile == if AllOk(role, b) then Some(b.profile.value) else d.profile
    ensures b.scores.Err? || !CatalogueOk(role, b) ==>
      r.mockTests == d.mockTests && r.meetings == d.meetings && r.dailyProblems == d.dailyProblems
    ensures b.scores.Ok? && CatalogueOk(role, b) ==>
      && r.mockTests == (match CatalogueFor(role)
                         case PaidCatalogue => b.paidTests.value
                         case FreeCatalogue => b.freeTests.value
                         case NoCatalogue => d.mockTests)
      && r.meetings == (if role == "FULL_COURSE" then b.meetings.value else d.meetings)
      && r.dailyProblems == (if role == "FULL_COURSE" then b.todayProblems.value else d.dailyProblems)
  {
    var d1 := d.(requests := d.requests + [GetScores]);
    if b.scores.Err? then Fail(d1)
    else
      var d2 := d1.(scores := b.scores.value, requests := d1.requests + CatalogueRequests(role));
      if !CatalogueOk(role, b) then Fail(d2)
      else
        var d3 := StoreCatalogue(d2, role, b);
        var d4 := d3.(requests := d3.requests + [GetProfile]);
        if b.profile.Err? then Fail(d4)
        else d4.(profile := Some(b.profile.value), loading := false)
  }

  /** A load always asks for the scores first, and asks for a catalogue only
      when it is the role's: a free student never requests the paid tests,
      and a role outside the plans requests no tests at all. */
  lemma LoadRequestsFollowRole(role: string, b: Backend)
    ensures Issued(role, b)[0] == GetScores
    ensures GetPaidTests in Issued(role, b) ==> CatalogueFor(role) == PaidCatalogue
    ensures GetFreeTests in Issued(role, b) ==> CatalogueFor(role) == FreeCatalogue
    ensures AllOk(role, b) ==> Issued(role, b)[|Issued(role, b)| - 1] == GetProfile
  {
  }
}

module StudentDashboard {
  import opened Wrappers
  import StudentNav

  datatype QuickAction = QuickAction(caption: string, icon: string, path: string, color: string)

  const JoinLiveClass := QuickAction("Join Live Class", "🎥", "/student/meetings", "#10b981")
  const TakeMockTest := QuickAction("Take Mock Test", "📝", "/student/tests", "#3b82f6")
  const DailyPractice := QuickAction("Daily Practice", "📚", "/student/practice", "#f59e0b")
  const FreeMockTests := QuickAction("Free Mock Tests", "🆓", "/student/free-tests", "#8b5cf6")
  const MyAttempts := QuickAction("My Attempts", "📊", "/my-attempts", "#8b5cf6")
  const ViewScores := QuickAction("View Scores", "🏆", "/scores", "#ef4444")
  const MyProfile := QuickAction("My Profile", "👤", "/profile", "#6b7280")

  /** The actions every signed-in student gets, last and in this order. */
  const CommonActions := [MyAttempts, ViewScores, MyProfile]

  /** The role-specific actions; every role other than the two paid plans
      falls to the free one. */
  function RoleActions(role: string): seq<QuickAction> {
    if role == "FULL_COURSE" then [JoinLiveClass, TakeMockTest, DailyPractice]
    else if role == "MOCKTEST" then [TakeMockTest]
    else [FreeMockTests]
  }

  /** `getQuickActions()`, given the role of the stored user if there is
      one. */
  function QuickActions(role: Option<string>): (r: seq<QuickAction>)
    ensures role.None? ==> r == []
    ensures role.Some? ==> |r| >= 4 && r[|r| - 3..] == CommonActions
    ensures role.Some? ==> r[..|r| - 3] == RoleActions(role.value)
  {
    if role.None? then [] else RoleActions(role.value) + CommonActions
  }

  function Captions(actions: seq<QuickAction>): (cs: seq<string>)
    ensures |cs| == |actions|
  {
    seq(|actions|, i requires 0 <= i < |actions| => actions[i].caption)
  }

  /** The full course gets three role actions, the mock-test plan one, and
      every other role, known or not, the free tests. */
  lemma ActionsPerRole(role: string)
    ensures role == "FULL_COURSE" ==>
      Captions(QuickActions(Some(role)))
        == ["Join Live Class", "Take Mock Test", "Daily Practice", "My Attempts", "View Scores", "My Profile"]
    ensures role == "MOCKTEST" ==>
      Captions(QuickActions(Some(role))) == ["Take Mock Test", "My Attempts", "View Scores", "My Profile"]
    ensures role != "FULL_COURSE" && role != "MOCKTEST" ==>
      Captions(QuickActions(Some(role))) == ["Free Mock Tests", "My Attempts", "View Scores", "My Profile"]
  {
  }

  /** For the three student roles, every quick action except "My Attempts"
      leads to a page the navigation bar also offers that role. */
  lemma ActionsWithinMenu(role: string, a: QuickAction)
    requires role in StudentNav.AllStudents
    requires a in QuickActions(Some(role)) && a != MyAttempts
    ensures exists item :: item in StudentNav.VisibleItems(role) && item.path == a.path
  {
    var t := StudentNav.NavItems;
    if role == "FULL_COURSE" {
      StudentNav.FullCourseMenu();
      assert a in [JoinLiveClass, TakeMockTest, DailyPractice, ViewScores, MyProfile];
      if a == JoinLiveClass { assert t[1] in StudentNav.VisibleItems(role); }
      else if a == TakeMockTest { assert t[2] in StudentNav.VisibleItems(role); }
      else if a == DailyPractice { assert t[4] in StudentNav.VisibleItems(role); }
      else if a == ViewScores { assert t[5] in StudentNav.VisibleItems(role); }
      else { assert t[6] in StudentNav.VisibleItems(role); }
    } else if role == "MOCKTEST" {
      StudentNav.MockTestMenu();
      assert a in [TakeMockTest, ViewScores, MyProfile];
      if a == TakeMockTest { assert t[2] in StudentNav.VisibleItems(role); }
      else if a == ViewScores { assert t[5] in StudentNav.VisibleItems(role); }
      else { assert t[6] in StudentNav.VisibleItems(role); }
    } else {
      StudentNav.FreeMenu();
      assert a in [FreeMockTests, ViewScores, MyProfile];
      if a == FreeMockTests { assert t[3] in StudentNav.VisibleItems(role); }
      else if a == ViewScores { assert t[5] in StudentNav.VisibleItems(role); }
      else { assert t[6] in StudentNav.VisibleItems(role); }
    }
  }

  const RecentLimit := 3

  /** `list.slice(0, 3)`. */
  function Recent<T>(list: seq<T>): (r: seq<T>)
    ensures |r| <= RecentLimit && |r| <= |list| && r == list[..|r|]
    ensures |r| == if |list| < RecentLimit then |list| else RecentLimit
  {
    if |list| <= RecentLimit then list else list[..RecentLimit]
  }

  datatype Item = Item(id: int, title: string)

  /** Which catalogue the test count is taken from. */
  function CountsPaidTests(role: string): (paid: bool)
    ensures paid <==> role == "FULL_COURSE" || role == "MOCKTEST"
  {
    role == "FULL_COURSE" || role == "MOCKTEST"
  }

  datatype Backend = Backend(
    scores: Reply<seq<Item>>,
    attempts: Reply<seq<Item>>,
    paidTests: Reply<seq<Item>>,
    freeTests: Reply<seq<Item>>)

  datatype Summary = Summary(
    loading: bool,
    role: Option<string>,
    recentScores: seq<Item>,
    recentAttempts: seq<Item>,
    testCount: nat,
    notice: Option<Notice>)

  const InitialSummary := Summary(true, None, [], [], 0, None)

  const LoadFailed := Notice("Failed to load dashboard data", true)

  /** `loadDashboardData()`, given the role of the stored user if there is
      one. A failed score or attempt request is only logged; a failed
      catalogue request shows the notification. */
  function LoadDashboard(s: Summary, role: Option<string>, b: Backend): (r: Summary)
    ensures !r.loading
    ensures role.None? ==> r == s.(loading := false)
    ensures role.Some? ==>
      && r.role == role
      && r.recentScores == (if b.scores.Ok? then Recent(b.scores.value) else s.recentScores)
      && r.recentAttempts == (if b.attempts.Ok? then Recent(b.attempts.value) else s.recentAttempts)
    ensures role.Some? ==>
      var catalogue := if CountsPaidTests(role.value) then b.paidTests else b.freeTests;
      && (catalogue.Ok? ==> r.testCount == |catalogue.value| && r.notice == s.notice)
      && (catalogue.Err? ==> r.testCount == s.testCount && r.notice == Some(LoadFailed))
  {
    if role.None? then s.(loading := false)
    else
      var s1 := s.(role := role);
      var s2 := if b.scores.Ok? then s1.(recentScores := Recent(b.scores.value)) else s1;
      var s3 := if b.attempts.Ok? then s2.(recentAttempts := Recent(b.attempts.value)) else s2;
      var catalogue := if CountsPaidTests(role.value) then b.paidTests else b.freeTests;
      match catalogue
      case Ok(tests) => s3.(testCount := |tests|, loading := false)
      case Err(_, _) => s3.(loading := false, notice := Some(LoadFailed))
  }

  /** The recent lists on the page are the first entries of what was
      fetched, never more than three. */
  lemma RecentListsArePrefixes(s: Summary, role: string, b: Backend)
    requires b.scores.Ok? && b.attempts.Ok?
    ensures var r := LoadDashboard(s, Some(role), b);
      && |r.recentScores| <= 3 && r.recentScores == b.scores.value[..|r.recentScores|]
      && |r.recentAttempts| <= 3 && r.recentAttempts == b.attempts.value[..|r.recentAttempts|]
  {
  }
}

=== FILE: grading.dfy ===
/** The qualitative band shown next to a percentage score: on the result
    screen of a finished attempt and on every card of the scores page. */
module Grading {

  datatype Band = Excellent | Good | KeepPracticing {

    /** The banner text of the result screen. */
    function Label(): string {
      match this
      case Excellent => "Excellent!"
      case Good => "Good Job!"
      case KeepPracticing => "Keep Practicing!"
    }

    /** The style class of both the banner and the scores-page badge. */
    function CssClass(): string {
      match this
      case Excellent => "excellent"
      case Good => "good"
      case KeepPracticing => "needs-improvement"
    }

    /** Position of the band, higher is better. */
    function Rank(): nat {
      match this
      case Excellent => 2
      case Good => 1
      case KeepPracticing => 0
    }
  }

  /** The band of a percentage score: 80 and above, 60 and above, or below. */
  function BandOf(score: real): (b: Band)
    ensures b == Excellent <==> score >= 80.0
    ensures b == Good <==> 60.0 <= score < 80.0
    ensures b == KeepPracticing <==> score < 60.0
  {
    if score >= 80.0 then Excellent else if score >= 60.0 then Good else KeepPracticing
  }

  /** A higher score never earns a lower band. */
  lemma BandMonotone(lo: real, hi: real)
    requires lo <= hi
    ensures BandOf(lo).Rank() <= BandOf(hi).Rank()
  {
  }

  /** Every band has its own banner and its own style class. */
  lemma BandPresentationDistinct(b1: Band, b2: Band)
    requires b1 != b2
    ensures b1.Label() != b2.Label()
    ensures b1.CssClass() != b2.CssClass()
  {
  }
}

=== FILE: login.dfy ===
/** The sign-in page and its forgot-password panel.

    Sign-in stores the session and schedules a redirect by role when the
    response code is 200. The panel is a two-step flow: request an OTP for an
    email, then submit the OTP with a new password, which is validated on
    the page before the reset request is made.
 */
module Login {
  import opened Wrappers

  /** The panel's step. `PasswordStep` is declared by the page but no
      handler ever moves to it. */
  datatype ForgotStep = EmailStep | OtpStep | PasswordStep

  datatype LoginData = LoginData(userid: int, name: string, email: string, role: string, token: string)

  /** The body of a resolved sign-in request. */
  datatype LoginResponse = LoginResponse(code: int, message: string, data: LoginData)

  /** What the page sent to the backend. */
  datatype Request =
    | SignIn(emailid: string, password: string)
    | SendForgotOtp(email: string)
    | ResetPassword(email: string, otp: string, newPassword: string)

  datatype Form = Form(
    email: string,
    password: string,
    loading: bool,
    showForgot: bool,
    step: ForgotStep,
    forgotEmail: string,
    otp: string,
    newPassword: string,
    confirmPassword: string,
    notice: Option<Notice>,
    stored: Option<LoginData>,
    redirect: Option<string>)

  const InitialForm := Form("", "", false, false, EmailStep, "", "", "", "", None, None, None)

  /** A handler's outcome: the new form and the request it made, if any. */
  datatype Outcome = Outcome(form: Form, sent: Option<Request>)

  /** Where a signed-in user is sent: administrators to the admin area,
      everyone else to the student dashboard. */
  function RedirectFor(role: string): (path: string)
    ensures path == "/admin" <==> role == "ADMIN"
    ensures path == "/admin" || path == "/dashboard"
  {
    if role == "ADMIN" then "/admin" else "/dashboard"
  }

  const LoginOk := Notice("Login successful!", false)

  /** `handleLogin`: a resolved response with code 200 stores the user and
      schedules the redirect; any other code, or a rejected request, shows
      the server's message or "Login failed". */
  function HandleLogin(f: Form, reply: Reply<LoginResponse>): (o: Outcome)
    ensures o.sent == Some(SignIn(f.email, f.password))
    ensures !o.form.loading
    ensures o.form.redirect
      == if reply.Ok? && reply.value.code == 200 then Some(RedirectFor(reply.value.data.role)) else f.redirect
    ensures reply.Ok? && reply.value.code == 200 ==>
      && o.form.stored == Some(reply.value.data)
      && o.form.notice == Some(LoginOk)
    ensures reply.Ok? && reply.value.code != 200 ==>
      o.form == f.(loading := false, notice := Some(Notice(if reply.value.message != "" then reply.value.message else "Login failed", true)))
    ensures reply.Err? ==>
      o.form == f.(loading := false, notice := Some(Notice(ErrorText(reply, "Login failed"), true)))
  {
    var sent := Some(SignIn(f.email, f.password));
    match reply
    case Ok(resp) =>
      if resp.code == 200 then
        Outcome(f.(loading := false, stored := Some(resp.data), notice := Some(LoginOk),
                   redirect := Some(RedirectFor(resp.data.role))), sent)
      else
        Outcome(f.(loading := false, notice := Some(Notice(if resp.message != "" then resp.message else "Login failed", true))), sent)
    case Err(_, _) =>
      Outcome(f.(loading := false, notice := Some(Notice(ErrorText(reply, "Login failed"), true))), sent)
  }

  /** The "Forgot Password?" link. */
  function OpenForgot(f: Form): (g: Form)
    ensures g.showForgot && g.step == f.step
  {
    f.(showForgot := true)
  }

  const EmailMissing := Notice("Please enter email address", true)
  const OtpSent := Notice("OTP sent to your email", false)

  /** `sendForgotPasswordOtp`: an empty email is refused without a request;
      otherwise the OTP is requested, and only success moves to the OTP
      step. */
  function SendForgotPasswordOtp(f: Form, reply: Reply<()>): (o: Outcome)
    ensures f.forgotEmail == "" ==> o == Outcome(f.(notice := Some(EmailMissing)), None)
    ensures f.forgotEmail != "" ==> o.sent == Some(SendForgotOtp(f.forgotEmail)) && !o.form.loading
    ensures o.form.step == (if f.forgotEmail != "" && reply.Ok? then OtpStep else f.step)
    ensures f.forgotEmail != "" && reply.Err? ==>
      o.form.notice == Some(Notice(ErrorText(reply, "Failed to send OTP"), true))
  {
    if f.forgotEmail == "" then Outcome(f.(notice := Some(EmailMissing)), None)
    else
      var sent := Some(SendForgotOtp(f.forgotEmail));
      match reply
      case Ok(_) => Outcome(f.(step := OtpStep, notice := Some(OtpSent), loading := false), sent)
      case Err(_, _) => Outcome(f.(notice := Some(Notice(ErrorText(reply, "Failed to send OTP"), true)), loading := false), sent)
  }

  datatype ResetCheck = MissingField | Mismatch | TooShort | ResetOk {
    function Message(): string {
      match this
      case MissingField => "Please fill all fields"
      case Mismatch => "Passwords do not match"
      case TooShort => "Password must be at least 6 characters"
      case ResetOk => ""
    }
  }

  /** The three checks of `verifyOtpAndReset`, in order; the first that
      fails decides the message. */
  function ValidateReset(otp: string, newPassword: string, confirmPassword: string): (c: ResetCheck)
    ensures c == MissingField <==> otp == "" || newPassword == "" || confirmPassword == ""
    ensures c == Mismatch <==>
      otp != "" && newPassword != "" && confirmPassword != "" && newPassword != confirmPassword
    ensures c == TooShort <==>
      otp != "" && newPassword != "" && newPassword == confirmPassword && |newPassword| < 6
    ensures c == ResetOk <==> otp != "" && newPassword == confirmPassword && |newPassword| >= 6
  {
    if otp == "" || newPassword == "" || confirmPassword == "" then MissingField
    else if newPassword != confirmPassword then Mismatch
    else if |newPassword| < 6 then TooShort
    else ResetOk
  }

  /** The panel closed and emptied, as "Back to Login" and a successful
      reset leave it. */
  function ClearForgot(f: Form): Form {
    f.(showForgot := false, step := EmailStep, forgotEmail := "", otp := "", newPassword := "", confirmPassword := "")
  }

  /** "Back to Login". */
  function BackToLogin(f: Form): (g: Form)
    ensures !g.showForgot && g.step == EmailStep
    ensures g.forgotEmail == "" && g.otp == "" && g.newPassword == "" && g.confirmPassword == ""
    ensures g.email == f.email && g.password == f.password && g.notice == f.notice
  {
    ClearForgot(f)
  }

  const ResetDone := Notice("Password reset successful! Please login.", false)

  /** `verifyOtpAndReset`: the reset request is made only when all three
      checks pass; success closes and empties the panel, failure keeps
      everything for another try. */
  function VerifyOtpAndReset(f: Form, reply: Reply<()>): (o: Outcome)
    ensures o.sent.Some? <==> ValidateReset(f.otp, f.newPassword, f.confirmPassword) == ResetOk
    ensures o.sent.Some? ==> o.sent.value == ResetPassword(f.forgotEmail, f.otp, f.newPassword)
    ensures o.sent.None? ==>
      o.form == f.(notice := Some(Notice(ValidateReset(f.otp, f.newPassword, f.confirmPassword).Message(), true)))
    ensures o.sent.Some? && reply.Ok? ==> o.form == BackToLogin(f).(loading := false, notice := Some(ResetDone))
    ensures o.sent.Some? && reply.Err? ==>
      o.form == f.(loading := false, notice := Some(Notice(ErrorText(reply, "Failed to reset password"), true)))
  {
    var check := ValidateReset(f.otp, f.newPassword, f.confirmPassword);
    if check != ResetOk then Outcome(f.(notice := Some(Notice(check.Message(), true))), None)
    else
      var sent := Some(ResetPassword(f.forgotEmail, f.otp, f.newPassword));
      match reply
      case Ok(_) => Outcome(ClearForgot(f).(loading := false, notice := Some(ResetDone)), sent)
      case Err(_, _) => Outcome(f.(loading := false, notice := Some(Notice(ErrorText(reply, "Failed to reset password"), true))), sent)
  }

  /** The rejections name different problems, and none of them is empty. */
  lemma ResetMessagesDistinct(c1: ResetCheck, c2: ResetCheck)
    requires c1 != c2 && c1 != ResetOk && c2 != ResetOk
    ensures c1.Message() != c2.Message() && c1.Message() != ""
  {
  }

  datatype Panel = SignInPanel | EmailPanel | ResetPanel

  /** What the card shows. */
  function PanelOf(f: Form): Panel {
    if !f.showForgot then SignInPanel else if f.step == EmailStep then EmailPanel else ResetPanel
  }

  /** The user's actions on the page; field edits are folded into them. */
  datatype Action =
    | Login(email: string, password: string, loginReply: Reply<LoginResponse>)
    | Forgot
    | SendOtp(forgotEmail: string, reply: Reply<()>)
    | Reset(otp: string, newPassword: string, confirmPassword: string, reply: Reply<()>)
    | Back

  function Apply(f: Form, a: Action): Form {
    match a
    case Login(e, p, reply) => HandleLogin(f.(email := e, password := p, loading := true), reply).form
    case Forgot => OpenForgot(f)
    case SendOtp(e, reply) => SendForgotPasswordOtp(f.(forgotEmail := e), reply).form
    case Reset(o, n, c, reply) => VerifyOtpAndReset(f.(otp := o, newPassword := n, confirmPassword := c), reply).form
    case Back => BackToLogin(f)
  }

  function Run(f: Form, actions: seq<Action>): Form
    decreases |actions|
  {
    if |actions| == 0 then f else Run(Apply(f, actions[0]), actions[1..])
  }

  /** No sequence of actions reaches the declared 'password' step. */
  lemma {:induction false} PasswordStepUnreachable(f: Form, actions: seq<Action>)
    requires f.step != PasswordStep
    ensures Run(f, actions).step != PasswordStep
    decreases |actions|
  {
    if |actions| > 0 {
      var g := Apply(f, actions[0]);
      assert g.step != PasswordStep;
      PasswordStepUnreachable(g, actions[1..]);
    }
  }

  /** The whole reset flow: an OTP requested for an email, then a valid
      new password, ends back on the sign-in panel with the panel emptied. */
  lemma ResetFlow(f: Form, email: string, otp: string, pw: string)
    requires email != "" && otp != "" && |pw| >= 6
    ensures var g := Run(OpenForgot(f), [SendOtp(email, Ok(())), Reset(otp, pw, pw, Ok(()))]);
      && PanelOf(g) == SignInPanel && g.step == EmailStep
      && g.forgotEmail == "" && g.otp == "" && g.newPassword == "" && g.confirmPassword == ""
      && g.notice == Some(ResetDone)
  {
    var f1 := OpenForgot(f);
    var f2 := Apply(f1, SendOtp(email, Ok(())));
    assert f2.step == OtpStep && f2.forgotEmail == email;
    assert PanelOf(f2) == ResetPanel;
    var f3 := Apply(f2, Reset(otp, pw, pw, Ok(())));
    assert Run(f1, [SendOtp(email, Ok(())), Reset(otp, pw, pw, Ok(()))]) == Run(f2, [Reset(otp, pw, pw, Ok(()))]);
    assert Run(f2, [Reset(otp, pw, pw, Ok(()))]) == Run(f3, []);
  }
}

=== FILE: meetings.dfy ===
/** The meetings administration page.

    Meetings are listed by date. The form creates or updates one meeting; its
    submit button stays disabled until the start and end times have been
    confirmed with "Set Time", and editing either time withdraws that
    confirmation. Deletion goes through a confirmation state holding the
    pending meeting id.
 */
module Meetings {
  import opened Wrappers

  /** `MeetingRequest`: the form's fields. */
  datatype MeetingForm = MeetingForm(
    courseCode: string,
    courseName: string,
    meetingUrl: string,
    meetingDate: string,
    startTime: string,
    endTime: string,
    description: string,
    createdBy: string)

  /** `MeetingResponse`; the description may be absent. */
  datatype Meeting = Meeting(
    id: int,
    courseCode: string,
    courseName: string,
    meetingUrl: string,
    meetingDate: string,
    startTime: string,
    endTime: string,
    description: Option<string>,
    createdBy: string)

  datatype DeleteConfirm = DeleteConfirm(show: bool, meetingId: Option<int>)

  const NoDelete := DeleteConfirm(false, None)

  datatype Request =
    | GetByDate(date: string)
    | Create(form: MeetingForm)
    | Update(id: int, form: MeetingForm)
    | Delete(id: int)
    | DeletePast

  datatype Page = Page(
    meetings: seq<Meeting>,
    showForm: bool,
    editing: Option<Meeting>,
    loading: bool,
    pageLoading: bool,
    selectedDate: string,
    deleteConfirm: DeleteConfirm,
    deleteAllConfirm: bool,
    form: MeetingForm,
    timeConfirmed: bool,
    notice: Option<Notice>)

  /** A handler's outcome: the page and the requests made, in order. */
  datatype Outcome = Outcome(page: Page, sent: seq<Request>)

  function Error(message: string): Option<Notice> {
    Some(Notice(message, true))
  }

  function Success(message: string): Option<Notice> {
    Some(Notice(message, false))
  }

  /** `user.name || 'Admin'`, where `stored` is the stored user's name. */
  function CreatorName(stored: Option<string>): (n: string)
    ensures n != ""
    ensures stored.Some? && stored.value != "" ==> n == stored.value
    ensures stored.None? || stored.value == "" ==> n == "Admin"
  {
    match stored
    case Some(name) => if name != "" then name else "Admin"
    case None => "Admin"
  }

  /** The date effect: a newly selected date (or the first render) starts a
      load for that date and fills in the creator. */
  function SelectDate(p: Page, date: string, stored: Option<string>): (o: Outcome)
    ensures o.sent == [GetByDate(date)]
    ensures o.page.selectedDate == date && o.page.pageLoading
    ensures o.page.form == p.form.(createdBy := CreatorName(stored))
    ensures o.page.timeConfirmed == p.timeConfirmed && o.page.meetings == p.meetings
  {
    Outcome(p.(selectedDate := date, pageLoading := true, form := p.form.(createdBy := CreatorName(stored))), [GetByDate(date)])
  }

  /** `loadMeetingsByDate` once its request settles. A 404 means there are no
      meetings that day; any other failure is reported with the server's
      message or, failing that, the error's own `message`. */
  function LoadMeetingsByDate(p: Page, reply: Reply<seq<Meeting>>, errorMessage: string): (q: Page)
    ensures !q.pageLoading
    ensures reply.Ok? ==> q.meetings == reply.value && q.notice == p.notice
    ensures HasStatus(reply, 404) ==> q.meetings == [] && q.notice == p.notice
    ensures reply.Err? && !HasStatus(reply, 404) ==>
      && q.meetings == p.meetings
      && q.notice == Error("Failed to load meetings: " + ErrorText(reply, errorMessage))
    ensures q.form == p.form && q.timeConfirmed == p.timeConfirmed && q.deleteConfirm == p.deleteConfirm
  {
    match reply
    case Ok(list) => p.(meetings := list, pageLoading := false)
    case Err(status, _) =>
      if status == Some(404) then p.(meetings := [], pageLoading := false)
      else p.(pageLoading := false, notice := Error("Failed to load meetings: " + ErrorText(reply, errorMessage)))
  }

  /** The form's fields all empty, with the creator filled in. */
  function EmptyForm(creator: string): MeetingForm {
    MeetingForm("", "", "", "", "", "", "", creator)
  }

  /** `resetForm`: the fields are emptied, nothing is being edited, the time
      is no longer confirmed and the form is hidden. */
  function ResetForm(p: Page, stored: Option<string>): (q: Page)
    ensures !q.showForm && q.editing.None? && !q.timeConfirmed
    ensures q.form.courseCode == "" && q.form.courseName == "" && q.form.meetingUrl == "" && q.form.meetingDate == ""
    ensures q.form.startTime == "" && q.form.endTime == "" && q.form.description == ""
    ensures q.form.createdBy == CreatorName(stored)
    ensures q.meetings == p.meetings && q.deleteConfirm == p.deleteConfirm && q.loading == p.loading
  {
    p.(form := EmptyForm(CreatorName(stored)), editing := None, showForm := false, timeConfirmed := false)
  }

  /** The request `handleSubmit` makes: an update of the meeting being
      edited, else a creation. */
  function SaveRequest(p: Page): (r: Request)
    ensures r.Create? || r.Update?
    ensures r.form == p.form
    ensures r.Update? <==> p.editing.Some?
    ensures r.Update? ==> r.id == p.editing.value.id
  {
    if p.editing.Some? then Update(p.editing.value.id, p.form) else Create(p.form)
  }

  /** `handleSubmit`: success resets the form and reloads the selected date;
      failure keeps the form as it was for another try. */
  function HandleSubmit(p: Page, reply: Reply<()>, stored: Option<string>): (o: Outcome)
    ensures |o.sent| >= 1 && o.sent[0] == SaveRequest(p)
    ensures !o.page.loading
    ensures reply.Ok? ==>
      && o.sent == [SaveRequest(p), GetByDate(p.selectedDate)]
      && !o.page.showForm && o.page.editing.None? && !o.page.timeConfirmed && o.page.pageLoading
      && o.page.form == EmptyForm(CreatorName(stored))
      && o.page.notice == Success(if p.editing.Some? then "Meeting updated successfully" else "Meeting created successfully")
    ensures reply.Err? ==>
      && o.sent == [SaveRequest(p)]
      && o.page == p.(loading := false, notice := Error(ErrorText(reply, "Operation failed")))
  {
    var save := SaveRequest(p);
    match reply
    case Ok(_) =>
      var message := if p.editing.Some? then "Meeting updated successfully" else "Meeting created successfully";
      var q := ResetForm(p.(notice := Success(message)), stored);
      Outcome(q.(pageLoading := true, loading := false), [save, GetByDate(p.selectedDate)])
    case Err(_, _) =>
      Outcome(p.(loading := false, notice := Error(ErrorText(reply, "Operation failed"))), [save])
  }

  /** `handleEdit`: the meeting's fields are copied into the form, an absent
      description becoming the empty string, and its time counts as
      confirmed. */
  function HandleEdit(p: Page, m: Meeting): (q: Page)
    ensures q.editing == Some(m) && q.showForm && q.timeConfirmed
    ensures q.form.courseCode == m.courseCode && q.form.courseName == m.courseName
    ensures q.form.meetingUrl == m.meetingUrl && q.form.meetingDate == m.meetingDate
    ensures q.form.startTime == m.startTime && q.form.endTime == m.endTime
    ensures q.form.description == (if m.description.Some? then m.description.value else "")
    ensures q.form.createdBy == m.createdBy
  {
    var form := MeetingForm(m.courseCode, m.courseName, m.meetingUrl, m.meetingDate,
                            m.startTime, m.endTime, m.description.GetOr(""), m.createdBy);
    p.(editing := Some(m), form := form, timeConfirmed := true, showForm := true)
  }

  /** The delete button of a card: the meeting becomes the pending one. */
  function HandleDelete(p: Page, id: int): (q: Page)
    ensures q.deleteConfirm == DeleteConfirm(true, Some(id))
    ensures q.meetings == p.meetings && q.form == p.form
  {
    p.(deleteConfirm := DeleteConfirm(true, Some(id)))
  }

  /** `deleteConfirm.meetingId` is truthy: present and not zero. */
  predicate HasPendingId(d: DeleteConfirm) {
    d.meetingId.Some? && d.meetingId.value != 0
  }

  /** `confirmDelete`: without a truthy pending id it returns before doing
      anything, leaving even the confirmation state as it is; otherwise the
      meeting is deleted (and the date reloaded on success) and the
      confirmation state is cleared whatever the outcome. */
  function ConfirmDelete(p: Page, reply: Reply<()>): (o: Outcome)
    ensures o.sent == [] <==> !HasPendingId(p.deleteConfirm)
    ensures !HasPendingId(p.deleteConfirm) ==> o.page == p
    ensures HasPendingId(p.deleteConfirm) ==>
      && o.page.deleteConfirm == NoDelete
      && o.sent[0] == Delete(p.deleteConfirm.meetingId.value)
      && (reply.Ok? ==> o.sent == [Delete(p.deleteConfirm.meetingId.value), GetByDate(p.selectedDate)]
                        && o.page.notice == Success("Meeting deleted successfully"))
      && (reply.Err? ==> o.sent == [Delete(p.deleteConfirm.meetingId.value)]
                         && o.page.notice == Error("Failed to delete meeting"))
  {
    if !HasPendingId(p.deleteConfirm) then Outcome(p, [])
    else
      var id := p.deleteConfirm.meetingId.value;
      match reply
      case Ok(_) =>
        Outcome(p.(notice := Success("Meeting deleted successfully"), pageLoading := true, deleteConfirm := NoDelete),
                [Delete(id), GetByDate(p.selectedDate)])
      case Err(_, _) =>
        Outcome(p.(notice := Error("Failed to delete meeting"), deleteConfirm := NoDelete), [Delete(id)])
  }

  /** `cancelDelete`. */
  function CancelDelete(p: Page): (q: Page)
    ensures q.deleteConfirm == NoDelete && q.meetings == p.meetings
  {
    p.(deleteConfirm := NoDelete)
  }

  /** The confirmation dialog opened on a meeting closes empty whether it is
      cancelled or confirmed, and confirming deletes that meeting. */
  lemma DeleteDialogAlwaysCloses(p: Page, id: int, reply: Reply<()>)
    requires id != 0
    ensures CancelDelete(HandleDelete(p, id)).deleteConfirm == NoDelete
    ensures ConfirmDelete(HandleDelete(p, id), reply).page.deleteConfirm == NoDelete
    ensures ConfirmDelete(HandleDelete(p, id), reply).sent[0] == Delete(id)
  {
  }

  /** `deletePastMeetings`: one request, a reload on success, and the
      confirmation dialog closed either way. */
  function DeletePastMeetings(p: Page, reply: Reply<()>): (o: Outcome)
    ensures !o.page.deleteAllConfirm
    ensures o.sent == if reply.Ok? then [DeletePast, GetByDate(p.selectedDate)] else [DeletePast]
    ensures o.page.notice
      == if reply.Ok? then Success("Past meetings deleted successfully") else Error("Failed to delete past meetings")
  {
    match reply
    case Ok(_) =>
      Outcome(p.(notice := Success("Past meetings deleted successfully"), pageLoading := true, deleteAllConfirm := false),
              [DeletePast, GetByDate(p.selectedDate)])
    case Err(_, _) =>
      Outcome(p.(notice := Error("Failed to delete past meetings"), deleteAllConfirm := false), [DeletePast])
  }

  /** `handleSetTime`: the time is confirmed only when both the start and
      the end are filled in; otherwise the user is told to fill them. */
  function HandleSetTime(p: Page): (q: Page)
    ensures q.timeConfirmed <==> p.timeConfirmed || (p.form.startTime != "" && p.form.endTime != "")
    ensures q.notice
      == if p.form.startTime != "" && p.form.endTime != "" then Success("Time set successfully!")
         else Error("Please select both start and end times")
    ensures q.form == p.form && q.loading == p.loading
  {
    if p.form.startTime != "" && p.form.endTime != "" then
      p.(timeConfirmed := true, notice := Success("Time set successfully!"))
    else
      p.(notice := Error("Please select both start and end times"))
  }

  /** Typing a start time withdraws the confirmation. */
  function EditStartTime(p: Page, v: string): (q: Page)
    ensures q.form == p.form.(startTime := v) && !q.timeConfirmed
  {
    p.(form := p.form.(startTime := v), timeConfirmed := false)
  }

  /** Typing an end time withdraws the confirmation. */
  function EditEndTime(p: Page, v: string): (q: Page)
    ensures q.form == p.form.(endTime := v) && !q.timeConfirmed
  {
    p.(form := p.form.(endTime := v), timeConfirmed := false)
  }

  /** The submit button is enabled: nothing is saving and the time is
      confirmed. */
  predicate SubmitEnabled(p: Page) {
    !p.loading && p.timeConfirmed
  }

  /** The "Set Time" button is shown: both times filled in, not yet
      confirmed. */
  predicate SetTimeShown(p: Page) {
    p.form.startTime != "" && p.form.endTime != "" && !p.timeConfirmed
  }

  /** After any time edit the form cannot be submitted, and "Set Time" is
      offered exactly when both times are filled in. */
  lemma TimeEditDisablesSubmit(p: Page, v: string)
    ensures !SubmitEnabled(EditStartTime(p, v)) && !SubmitEnabled(EditEndTime(p, v))
    ensures SetTimeShown(EditStartTime(p, v)) <==> v != "" && p.form.endTime != ""
    ensures SetTimeShown(EditEndTime(p, v)) <==> v != "" && p.form.startTime != ""
  {
  }

  /** "Set Time" after filling in both times enables the submit button and
      hides itself; with a time missing the button stays disabled. */
  lemma SetTimeEnablesSubmit(p: Page)
    requires !p.loading && !p.timeConfirmed
    ensures SubmitEnabled(HandleSetTime(p)) <==> p.form.startTime != "" && p.form.endTime != ""
    ensures !SetTimeShown(HandleSetTime(p))
  {
  }

  /** A confirmed time has both ends filled in. */
  predicate TimesConfirmed(p: Page) {
    p.timeConfirmed ==> p.form.startTime != "" && p.form.endTime != ""
  }

  /** What a user can do to the form; the other field edits leave the times
      and the confirmation alone and are not distinguished. */
  datatype Action =
    | OpenForm
    | EditStart(value: string)
    | EditEnd(value: string)
    | EditOther(courseCode: string, courseName: string, meetingUrl: string, meetingDate: string, description: string)
    | SetTime
    | EditMeeting(meeting: Meeting)
    | Cancel(stored: Option<string>)
    | Submit(reply: Reply<()>, stored: Option<string>)

  /** One action. The submit button only acts when it is enabled; `loading`
      is set as `handleSubmit` starts. */
  function Apply(p: Page, a: Action): Outcome {
    match a
    case OpenForm => Outcome(p.(showForm := true), [])
    case EditStart(v) => Outcome(EditStartTime(p, v), [])
    case EditEnd(v) => Outcome(EditEndTime(p, v), [])
    case EditOther(code, name, url, date, description) =>
      Outcome(p.(form := p.form.(courseCode := code, courseName := name, meetingUrl := url,
                                  meetingDate := date, description := description)), [])
    case SetTime => Outcome(HandleSetTime(p), [])
    case EditMeeting(m) => Outcome(HandleEdit(p, m), [])
    case Cancel(stored) => Outcome(ResetForm(p, stored), [])
    case Submit(reply, stored) =>
      if SubmitEnabled(p) then HandleSubmit(p.(loading := true), reply, stored) else Outcome(p, [])
  }

  function Run(p: Page, actions: seq<Action>): (o: Outcome)
    decreases |actions|
  {
    if |actions| == 0 then Outcome(p, [])
    else
      var first := Apply(p, actions[0]);
      var rest := Run(first.page, actions[1..]);
      Outcome(rest.page, first.sent + rest.sent)
  }

  /** A saved meeting carries both times. */
  predicate TimesSet(r: Request) {
    (r.Create? || r.Update?) ==> r.form.startTime != "" && r.form.endTime != ""
  }

  predicate AllTimesSet(rs: seq<Request>) {
    forall i :: 0 <= i < |rs| ==> TimesSet(rs[i])
  }

  /** Every meeting offered for editing has both times. */
  predicate EditsHaveTimes(actions: seq<Action>) {
    forall i :: 0 <= i < |actions| && actions[i].EditMeeting? ==>
      actions[i].meeting.startTime != "" && actions[i].meeting.endTime != ""
  }

  /** One action keeps a confirmed time filled in and saves only filled-in
      times. */
  lemma ApplyKeepsTimes(p: Page, a: Action)
    requires TimesConfirmed(p)
    requires a.EditMeeting? ==> a.meeting.startTime != "" && a.meeting.endTime != ""
    ensures TimesConfirmed(Apply(p, a).page)
    ensures AllTimesSet(Apply(p, a).sent)
  {
  }

  /** Whatever the user does, a meeting is only ever created or updated with
      both a start and an end time, provided the meetings offered for
      editing have theirs. */
  lemma {:induction false} OnlyFilledTimesSaved(p: Page, actions: seq<Action>)
    requires TimesConfirmed(p) && EditsHaveTimes(actions)
    ensures TimesConfirmed(Run(p, actions).page)
    ensures AllTimesSet(Run(p, actions).sent)
    decreases |actions|
  {
    if |actions| > 0 {
      var first := Apply(p, actions[0]);
      ApplyKeepsTimes(p, actions[0]);
      assert EditsHaveTimes(actions[1..]) by {
        forall i | 0 <= i < |actions[1..]| && actions[1..][i].EditMeeting?
          ensures actions[1..][i].meeting.startTime != "" && actions[1..][i].meeting.endTime != ""
        {
          assert actions[1..][i] == actions[i + 1];
        }
      }
      OnlyFilledTimesSaved(first.page, actions[1..]);
      var rest := Run(first.page, actions[1..]);
      assert Run(p, actions).sent == first.sent + rest.sent;
      forall i | 0 <= i < |first.sent + rest.sent|
        ensures TimesSet((first.sent + rest.sent)[i])
      {
        if i >= |first.sent| {
          assert (first.sent + rest.sent)[i] == rest.sent[i - |first.sent|];
        }
      }
    }
  }
}

=== FILE: palette.dfy ===
/** The four colours the pages use for good, middling, bad and neutral. */
module Palette {
  const Green := "#10b981"
  const Amber := "#f59e0b"
  const Red := "#ef4444"
  const Grey := "#6b7280"
}

=== FILE: questions.dfy ===
/** The question editor of one mock test.

    The modal lists the test's questions and edits them one at a time. The
    form suggests the next question number from the length of the list; a
    deletion is confirmed against a preview of the question text.
 */
module Questions {
  import opened Wrappers
  import opened Text

  /** `QuestionRequest`. The number field is read with `parseInt`, so it
      may hold `NaN`, modelled as `None`. */
  datatype QuestionForm = QuestionForm(
    questionNo: Option<int>,
    question: string,
    optionA: string,
    optionB: string,
    optionC: string,
    optionD: string,
    correctOption: string)

  /** `QuestionResponse`. */
  datatype QuestionRecord = QuestionRecord(
    id: int,
    questionNo: int,
    question: string,
    optionA: string,
    optionB: string,
    optionC: string,
    optionD: string,
    correctOption: string)

  datatype DeleteConfirm = DeleteConfirm(show: bool, questionId: Option<int>, questionText: string)

  const NoDelete := DeleteConfirm(false, None, "")

  datatype Request =
    | GetByMockTest(mockTestId: int)
    | Create(mockTestId: int, form: QuestionForm)
    | Update(id: int, form: QuestionForm)
    | Delete(id: int)

  datatype Panel = Panel(
    mockTestId: int,
    questions: seq<QuestionRecord>,
    loading: bool,
    showForm: bool,
    editing: Option<QuestionRecord>,
    deleteConfirm: DeleteConfirm,
    form: QuestionForm,
    notice: Option<Notice>)

  /** A handler's outcome: the panel and the requests made, in order. */
  datatype Outcome = Outcome(panel: Panel, sent: seq<Request>)

  const InitialForm := QuestionForm(Some(1), "", "", "", "", "", "A")

  function InitialPanel(mockTestId: int): Panel {
    Panel(mockTestId, [], true, false, None, NoDelete, InitialForm, None)
  }

  const LoadFailed := Notice("Failed to load questions", true)

  /** `loadQuestions` once its request settles: any failure empties the
      list, and only a failure other than 404 is reported. */
  function LoadQuestions(p: Panel, reply: Reply<seq<QuestionRecord>>): (q: Panel)
    ensures !q.loading
    ensures q.questions == if reply.Ok? then reply.value else []
    ensures q.notice == if reply.Err? && !HasStatus(reply, 404) then Some(LoadFailed) else p.notice
    ensures q.form == p.form && q.deleteConfirm == p.deleteConfirm && q.editing == p.editing
  {
    match reply
    case Ok(list) => p.(questions := list, loading := false)
    case Err(status, _) =>
      if status != Some(404) then p.(questions := [], notice := Some(LoadFailed), loading := false)
      else p.(questions := [], loading := false)
  }

  /** `resetForm`: the texts are emptied, option A is preselected, and the
      number suggested is one past the questions the panel currently
      holds. */
  function ResetForm(p: Panel): (q: Panel)
    ensures q.form.questionNo == Some(|p.questions| + 1)
    ensures q.form.question == "" && q.form.correctOption == "A"
    ensures q.form.optionA == "" && q.form.optionB == "" && q.form.optionC == "" && q.form.optionD == ""
    ensures q.editing.None? && !q.showForm
    ensures q.questions == p.questions && q.deleteConfirm == p.deleteConfirm
  {
    p.(form := QuestionForm(Some(|p.questions| + 1), "", "", "", "", "", "A"), editing := None, showForm := false)
  }

  /** The request `handleSubmit` makes: an update of the question being
      edited, else a new question of this test. */
  function SaveRequest(p: Panel): (r: Request)
    ensures r.Create? || r.Update?
    ensures r.form == p.form
    ensures r.Update? <==> p.editing.Some?
    ensures r.Update? ==> r.id == p.editing.value.id
    ensures r.Create? ==> r.mockTestId == p.mockTestId
  {
    if p.editing.Some? then Update(p.editing.value.id, p.form) else Create(p.mockTestId, p.form)
  }

  /** `handleSubmit`: success resets the form and reloads the list; failure
      keeps the form for another try. */
  function HandleSubmit(p: Panel, reply: Reply<()>): (o: Outcome)
    ensures |o.sent| >= 1 && o.sent[0] == SaveRequest(p)
    ensures reply.Ok? ==>
      && o.sent == [SaveRequest(p), GetByMockTest(p.mockTestId)]
      && o.panel.form.questionNo == Some(|p.questions| + 1)
      && o.panel.editing.None? && !o.panel.showForm && o.panel.loading
      && o.panel.notice == Some(Notice(if p.editing.Some? then "Question updated successfully" else "Question added successfully", false))
    ensures reply.Err? ==>
      && o.sent == [SaveRequest(p)]
      && o.panel == p.(notice := Some(Notice(ErrorText(reply, "Operation failed"), true)))
  {
    var save := SaveRequest(p);
    match reply
    case Ok(_) =>
      var message := if p.editing.Some? then "Question updated successfully" else "Question added successfully";
      Outcome(ResetForm(p).(notice := Some(Notice(message, false)), loading := true), [save, GetByMockTest(p.mockTestId)])
    case Err(_, _) =>
      Outcome(p.(notice := Some(Notice(ErrorText(reply, "Operation failed"), true))), [save])
  }

  /** The form holding a question's seven fields. */
  function FormOf(r: QuestionRecord): (f: QuestionForm)
    ensures f.questionNo == Some(r.questionNo) && f.question == r.question && f.correctOption == r.correctOption
    ensures f.optionA == r.optionA && f.optionB == r.optionB && f.optionC == r.optionC && f.optionD == r.optionD
  {
    QuestionForm(Some(r.questionNo), r.question, r.optionA, r.optionB, r.optionC, r.optionD, r.correctOption)
  }

  /** The question a saved form describes, when its number is a number. */
  function RecordOf(id: int, f: QuestionForm): (r: Option<QuestionRecord>)
    ensures r.Some? <==> f.questionNo.Some?
    ensures r.Some? ==> r.value.id == id && FormOf(r.value) == f
  {
    match f.questionNo
    case Some(n) => Some(QuestionRecord(id, n, f.question, f.optionA, f.optionB, f.optionC, f.optionD, f.correctOption))
    case None => None
  }

  /** `handleEdit`: the question's seven fields are copied into the form. */
  function HandleEdit(p: Panel, r: QuestionRecord): (q: Panel)
    ensures q.form == FormOf(r) && q.editing == Some(r) && q.showForm
    ensures q.questions == p.questions
  {
    p.(editing := Some(r), form := FormOf(r), showForm := true)
  }

  /** Opening a question and saving it unchanged sends the question back as
      it was. */
  lemma EditSaveRoundTrip(p: Panel, r: QuestionRecord, reply: Reply<()>)
    ensures var o := HandleSubmit(HandleEdit(p, r), reply);
      && o.sent[0] == Update(r.id, FormOf(r))
      && RecordOf(o.sent[0].id, o.sent[0].form) == Some(r)
  {
  }

  /** The number field, read with `parseInt`. */
  function EditQuestionNo(p: Panel, text: string): (q: Panel)
    ensures q.form == p.form.(questionNo := ParseInt(text))
  {
    p.(form := p.form.(questionNo := ParseInt(text)))
  }

  /** Typing a number into the field stores that number. */
  lemma TypedNumberStored(p: Panel, n: nat)
    ensures EditQuestionNo(p, NatToString(n)).form.questionNo == Some(n)
  {
    ParseIntRoundTrip(n);
  }

  const PreviewLimit := 50

  /** The text of the delete dialog: the question itself when it has at
      most 50 characters, else its first 50 followed by "...". */
  function Preview(question: string): (s: string)
    ensures |question| <= PreviewLimit ==> s == question
    ensures |question| > PreviewLimit ==> s == question[..PreviewLimit] + "..."
    ensures |s| <= PreviewLimit + 3
  {
    if |question| > PreviewLimit then Take(question, PreviewLimit) + "..." else question
  }

  /** A preview of a preview is the same preview. */
  lemma PreviewIdempotent(question: string)
    ensures Preview(Preview(question)) == Preview(question)
  {
    if |question| > PreviewLimit {
      var s := Preview(question);
      assert s[..PreviewLimit] == question[..PreviewLimit];
    }
  }

  /** The preview is the question unchanged exactly when the question is
      short, or is itself 50 characters followed by "...". */
  lemma PreviewUnchangedIff(question: string)
    ensures Preview(question) == question <==>
      |question| <= PreviewLimit || (|question| == PreviewLimit + 3 && question[PreviewLimit..] == "...")
  {
    if |question| > PreviewLimit && |question| == PreviewLimit + 3 && question[PreviewLimit..] == "..." {
      assert question == question[..PreviewLimit] + question[PreviewLimit..];
    }
  }

  /** `handleDelete`: the question becomes the pending one, with its
      preview. */
  function HandleDelete(p: Panel, r: QuestionRecord): (q: Panel)
    ensures q.deleteConfirm == DeleteConfirm(true, Some(r.id), Preview(r.question))
    ensures q.questions == p.questions && q.form == p.form
  {
    p.(deleteConfirm := DeleteConfirm(true, Some(r.id), Preview(r.question)))
  }

  /** `deleteConfirm.questionId` is truthy: present and not zero. */
  predicate HasPendingId(d: DeleteConfirm) {
    d.questionId.Some? && d.questionId.value != 0
  }

  /** `confirmDelete`: without a truthy pending id nothing happens at all;
      otherwise the question is deleted (the list reloaded on success) and
      the confirmation state is cleared whatever the outcome. */
  function ConfirmDelete(p: Panel, reply: Reply<()>): (o: Outcome)
    ensures o.sent == [] <==> !HasPendingId(p.deleteConfirm)
    ensures !HasPendingId(p.deleteConfirm) ==> o.panel == p
    ensures HasPendingId(p.deleteConfirm) ==>
      && o.panel.deleteConfirm == NoDelete
      && o.sent == (if reply.Ok? then [Delete(p.deleteConfirm.questionId.value), GetByMockTest(p.mockTestId)]
                    else [Delete(p.deleteConfirm.questionId.value)])
      && o.panel.notice
         == if reply.Ok? then Some(Notice("Question deleted successfully", false))
            else Some(Notice("Failed to delete question", true))
  {
    if !HasPendingId(p.deleteConfirm) then Outcome(p, [])
    else
      var id := p.deleteConfirm.questionId.value;
      match reply
      case Ok(_) =>
        Outcome(p.(notice := Some(Notice("Question deleted successfully", false)), loading := true, deleteConfirm := NoDelete),
                [Delete(id), GetByMockTest(p.mockTestId)])
      case Err(_, _) =>
        Outcome(p.(notice := Some(Notice("Failed to delete question", true)), deleteConfirm := NoDelete), [Delete(id)])
  }

  /** `cancelDelete`. */
  function CancelDelete(p: Panel): (q: Panel)
    ensures q.deleteConfirm == NoDelete && q.questions == p.questions
  {
    p.(deleteConfirm := NoDelete)
  }

  /** A dialog opened on a question and then cancelled or confirmed ends
      closed and empty either way. */
  lemma DeleteDialogAlwaysCloses(p: Panel, r: QuestionRecord, reply: Reply<()>)
    requires r.id != 0
    ensures CancelDelete(HandleDelete(p, r)).deleteConfirm == NoDelete
    ensures ConfirmDelete(HandleDelete(p, r), reply).panel.deleteConfirm == NoDelete
    ensures Delete(r.id) in ConfirmDelete(HandleDelete(p, r), reply).sent
  {
  }

  /** `resetForm` reads the list of the render that made the request, not
      the list the reload brings: after adding a question to a current list,
      the number suggested next is the number just used. */
  lemma NextNumberRepeatsAfterAdd(p: Panel, reply: Reply<()>)
    requires p.editing.None? && p.form.questionNo == Some(|p.questions| + 1) && reply.Ok?
    ensures var o := HandleSubmit(p, reply);
      && o.sent[0] == Create(p.mockTestId, p.form)
      && o.panel.form.questionNo == p.form.questionNo
  {
  }
}

=== FILE: review.dfy ===
/** The "My Attempts" page: a card per past attempt (score colour, time
    taken) and a detail modal that classifies every reviewed answer and
    highlights the four options. */
module Review {
  import opened Wrappers
  import opened Text
  import opened Clock
  import opened Grading
  import opened Palette

  /** `getScoreColor(score, total)`: the percentage is `score / total * 100`
      in JavaScript numbers. With a zero total that is `Infinity` for a
      positive score (green), and `NaN` or `-Infinity` otherwise, which fail
      both comparisons (red). */
  function ScoreColor(score: real, total: real): (c: string)
    ensures total > 0.0 ==>
      && (c == Green <==> score * 100.0 >= 80.0 * total)
      && (c == Amber <==> 60.0 * total <= score * 100.0 < 80.0 * total)
      && (c == Red <==> score * 100.0 < 60.0 * total)
    ensures total == 0.0 ==> (c == Green <==> score > 0.0) && c != Amber
  {
    if total == 0.0 then
      if score > 0.0 then Green else Red
    else
      var percentage := score / total * 100.0;
      PercentageAtLeast(score, total, 80.0);
      PercentageAtLeast(score, total, 60.0);
      if percentage >= 80.0 then Green
      else if percentage >= 60.0 then Amber
      else Red
  }

  /** Comparing the percentage with a threshold is comparing the scaled
      score with the scaled total. */
  lemma PercentageAtLeast(score: real, total: real, k: real)
    requires total != 0.0
    ensures total > 0.0 ==> (score / total * 100.0 >= k <==> score * 100.0 >= k * total)
  {
    var p := score / total * 100.0;
    assert p * total == score * 100.0;
    if total > 0.0 {
      if p >= k {
        assert p * total >= k * total;
      } else {
        assert p * total < k * total;
      }
    }
  }

  /** The colour of the band the result screen of an attempt shows. */
  function BandColor(b: Band): string {
    match b
    case Excellent => Green
    case Good => Amber
    case KeepPracticing => Red
  }

  /** With questions to count, the card colour is the colour of the same
      80/60 band the result screen and the scores page use. */
  lemma ScoreColorIsBandColor(score: real, total: real)
    requires total > 0.0
    ensures ScoreColor(score, total) == BandColor(BandOf(score / total * 100.0))
  {
  }

  /** A better score for the same number of questions never shows a worse
      colour. */
  lemma ScoreColorMonotone(lo: real, hi: real, total: real)
    requires total > 0.0 && lo <= hi
    ensures ScoreColor(lo, total) == Green ==> ScoreColor(hi, total) == Green
    ensures ScoreColor(hi, total) == Red ==> ScoreColor(lo, total) == Red
  {
  }

  /** The minutes and seconds of the "Time: Xm Ys" line: `Math.floor(t / 60)`
      and JavaScript's truncating `t % 60`. */
  function TimeTakenParts(t: int): (p: (int, int))
    ensures t >= 0 ==> p.0 >= 0 && 0 <= p.1 < 60 && p.0 * 60 + p.1 == t
    ensures t < 0 && t % 60 != 0 ==> -60 < p.1 < 0 && p.0 * 60 + p.1 == t - 60
  {
    var m := FloorDiv(t, 60);
    var s := JsRem(t, 60);
    if t < 0 && t % 60 != 0 then
      NegativeRem(t);
      (m, s)
    else (m, s)
  }

  lemma NegativeRem(t: int)
    requires t < 0 && t % 60 != 0
    ensures JsRem(t, 60) == t % 60 - 60
  {
    var q := t / 60;
    var r := t % 60;
    assert t == q * 60 + r;
    assert -t == (-q - 1) * 60 + (60 - r);
    assert (-t) % 60 == 60 - r;
  }

  /** The line as rendered. */
  function TimeTakenLabel(t: int): (s: string)
    ensures t >= 0 ==> s == NatToString(t / 60) + "m " + NatToString(t % 60) + "s"
  {
    var p := TimeTakenParts(t);
    IntToString(p.0) + "m " + IntToString(p.1) + "s"
  }

  /** One answer in the detail modal; correctness is decided by the backend. */
  datatype ReviewedAnswer = ReviewedAnswer(
    questionId: int,
    questionNo: int,
    question: string,
    correctOption: string,
    selectedOption: Option<string>,
    isCorrect: bool,
    solutionLink: Option<string>)

  /** `answer.selectedOption` is truthy: present and not the empty string. */
  predicate Answered(a: ReviewedAnswer) {
    a.selectedOption.Some? && a.selectedOption.value != ""
  }

  datatype Category = CorrectAnswer | WrongAnswer | NotAnswered {
    function ClassName(): string {
      match this
      case CorrectAnswer => "correct"
      case WrongAnswer => "wrong"
      case NotAnswered => "unanswered"
    }

    function Icon(): string {
      match this
      case CorrectAnswer => "✅"
      case WrongAnswer => "❌"
      case NotAnswered => "⚪"
    }
  }

  /** The card style and icon of a reviewed answer. */
  function Classify(a: ReviewedAnswer): (c: Category)
    ensures c == CorrectAnswer <==> a.isCorrect
    ensures c == WrongAnswer <==> !a.isCorrect && Answered(a)
    ensures c == NotAnswered <==> !a.isCorrect && !Answered(a)
  {
    if a.isCorrect then CorrectAnswer
    else if Answered(a) then WrongAnswer
    else NotAnswered
  }

  /** The three categories have distinct styles and icons, so the card tells
      exactly one of them. */
  lemma CategoriesDistinct(c1: Category, c2: Category)
    requires c1 != c2
    ensures c1.ClassName() != c2.ClassName() && c1.Icon() != c2.Icon()
  {
  }

  function CountOf(answers: seq<ReviewedAnswer>, c: Category): (n: nat)
    ensures n <= |answers|
  {
    if |answers| == 0 then 0
    else CountOf(answers[..|answers| - 1], c) + (if Classify(answers[|answers| - 1]) == c then 1 else 0)
  }

  /** Every answer falls in exactly one category, so the three counts add up
      to the number of answers reviewed. */
  lemma {:induction false} CategoryCountsSum(answers: seq<ReviewedAnswer>)
    ensures CountOf(answers, CorrectAnswer) + CountOf(answers, WrongAnswer)
      + CountOf(answers, NotAnswered) == |answers|
  {
    if |answers| > 0 {
      CategoryCountsSum(answers[..|answers| - 1]);
    }
  }

  /** The class of one option tile: the correct option is marked as such
      even when it was the one selected; "selected" marks a selected option
      that is not the correct one. */
  function OptionClass(a: ReviewedAnswer, letter: string): (cls: string)
    ensures cls == "correct-answer" <==> letter == a.correctOption
    ensures cls == "selected" <==> letter != a.correctOption && a.selectedOption == Some(letter)
    ensures cls == "" <==> letter != a.correctOption && a.selectedOption != Some(letter)
  {
    if a.correctOption == letter then "correct-answer"
    else if a.selectedOption == Some(letter) then "selected"
    else ""
  }

  const Letters: seq<string> := ["A", "B", "C", "D"]

  /** Of the four tiles, at most one is marked correct and at most one is
      marked selected. */
  lemma HighlightsUnique(a: ReviewedAnswer, i: nat, j: nat)
    requires i < 4 && j < 4 && i != j
    ensures !(OptionClass(a, Letters[i]) == "correct-answer" && OptionClass(a, Letters[j]) == "correct-answer")
    ensures !(OptionClass(a, Letters[i]) == "selected" && OptionClass(a, Letters[j]) == "selected")
  {
  }

  /** A wrong answer whose selection is one of the four letters shows that
      tile as selected, and the correct letter's tile as correct. */
  lemma WrongAnswerHighlightsBoth(a: ReviewedAnswer, i: nat, j: nat)
    requires i < 4 && j < 4
    requires a.selectedOption == Some(Letters[i]) && a.correctOption == Letters[j] && i != j
    ensures OptionClass(a, Letters[i]) == "selected"
    ensures OptionClass(a, Letters[j]) == "correct-answer"
  {
  }

  /** "Your Answer": the selection, or "Not Answered" when it is falsy. */
  function YourAnswer(a: ReviewedAnswer): (s: string)
    ensures Answered(a) ==> s == a.selectedOption.value
    ensures !Answered(a) ==> s == "Not Answered"
  {
    if Answered(a) then a.selectedOption.value else "Not Answered"
  }

  /** The answer line agrees with the icon: an unanswered card reads
      "Not Answered", a wrong card shows the (non-empty) selection. */
  lemma AnswerLineAgreesWithCategory(a: ReviewedAnswer)
    ensures Classify(a) == NotAnswered ==> YourAnswer(a) == "Not Answered"
    ensures Classify(a) == WrongAnswer ==> YourAnswer(a) == a.selectedOption.value && YourAnswer(a) != ""
  {
  }

  /** A past attempt as the list endpoint returns it. */
  datatype AttemptSummary = AttemptSummary(
    id: int,
    mockTestName: string,
    mockTestType: string,
    score: real,
    totalQuestions: real,
    correctAnswers: int,
    wrongAnswers: int,
    unanswered: int,
    timeTaken: int,
    answers: seq<ReviewedAnswer>)

  datatype Page = Page(
    attempts: seq<AttemptSummary>,
    loading: bool,
    selected: Option<AttemptSummary>,
    showDetails: bool,
    notice: Option<Notice>)

  const InitialPage := Page([], true, None, false, None)

  const LoadFailed := Notice("Failed to load attempts", true)
  const DetailsFailed := Notice("Failed to load attempt details", true)

  /** `loadAttempts`: the list is replaced on success and kept on failure;
      loading always ends. */
  function LoadAttempts(p: Page, reply: Reply<seq<AttemptSummary>>): (q: Page)
    ensures !q.loading
    ensures reply.Ok? ==> q.attempts == reply.value && q.notice == p.notice
    ensures reply.Err? ==> q.attempts == p.attempts && q.notice == Some(LoadFailed)
    ensures q.selected == p.selected && q.showDetails == p.showDetails
  {
    match reply
    case Ok(list) => p.(attempts := list, loading := false)
    case Err(_, _) => p.(loading := false, notice := Some(LoadFailed))
  }

  /** `viewAttemptDetails`: the modal opens only when the details arrive. */
  function ViewDetails(p: Page, reply: Reply<AttemptSummary>): (q: Page)
    ensures q.showDetails <==> reply.Ok? || p.showDetails
    ensures reply.Ok? ==> q.selected == Some(reply.value)
    ensures reply.Err? ==> q == p.(notice := Some(DetailsFailed))
    ensures q.attempts == p.attempts
  {
    match reply
    case Ok(a) => p.(selected := Some(a), showDetails := true)
    case Err(_, _) => p.(notice := Some(DetailsFailed))
  }

  /** Closing the modal (the × button or the overlay). */
  function CloseDetails(p: Page): (q: Page)
    ensures !q.showDetails && q.selected == p.selected && q.attempts == p.attempts
  {
    p.(showDetails := false)
  }

  /** The modal is drawn when it is shown and an attempt is selected. */
  predicate ModalVisible(p: Page) {
    p.showDetails && p.selected.Some?
  }

  /** Opening the details of an attempt and closing the modal leaves the
      page's list and selection as they were, and hides the modal. */
  lemma ViewThenClose(p: Page, a: AttemptSummary)
    ensures ModalVisible(ViewDetails(p, Ok(a)))
    ensures !ModalVisible(CloseDetails(ViewDetails(p, Ok(a))))
    ensures CloseDetails(ViewDetails(p, Ok(a))).attempts == p.attempts
  {
  }
}

=== FILE: session.dfy ===
/** The test-attempt page as React drives it: handlers change state, and
    whenever `timeRemaining`, `submitting` or `attemptData` changes, the
    timer effect runs again.

    A session counts the submissions that were started and the ones whose
    requests are still in flight. `handleSubmitTest` has no re-entrancy check
    of its own; the only guard is the disabled Submit button. The effect's
    zero branch does not consult `submitting`, and the flag is itself one of
    the effect's dependencies. So at zero remaining seconds a submission
    starts, its own flag change starts a second one, and every settled
    submission flips the flag back and starts two more.

    All of that needs a stored user. Without one, the handler raises the
    flag, returns before its first request and drops the flag in its
    `finally`, all in the same synchronous pass. React applies both updates
    together, so `submitting` does not change and the effect does not run
    again.
 */
module Session {
  import opened Wrappers
  import opened Attempt
  import opened Submission

  /** `userPresent` says whether `localStorage` holds a user; `started`
      counts the submissions whose requests went out. */
  datatype Session = Session(st: State, userPresent: bool, inFlight: nat, started: nat)

  /** The effect's dependency list. */
  function Deps(s: State): (int, bool, Option<AttemptData>) {
    (s.remaining, s.submitting, s.attempt)
  }

  /** The synchronous part of `handleSubmitTest`: without an attempt it
      returns at once; otherwise it sets `submitting` and, with a stored user,
      its requests go out. Without a user the `finally` lowers the flag again
      before anything is sent. It does not look at `submitting` first. */
  function BeginSubmit(x: Session): (y: Session)
    ensures x.st.attempt.None? ==> y == x
    ensures x.st.attempt.Some? && x.userPresent ==>
      y == x.(st := x.st.(submitting := true), inFlight := x.inFlight + 1, started := x.started + 1)
    ensures x.st.attempt.Some? && !x.userPresent ==>
      y == x.(st := x.st.(submitting := false))
  {
    if x.st.attempt.None? then x
    else if !x.userPresent then x.(st := x.st.(submitting := false))
    else x.(st := x.st.(submitting := true), inFlight := x.inFlight + 1, started := x.started + 1)
  }

  /** The timer effect runs; if what it did changed a dependency, it runs
      again. Only `BeginSubmit` changes a dependency here, and only by
      setting the flag to whether a user is stored, so this settles after at
      most two rounds. */
  function React(x: Session): (y: Session)
    ensures y.st == x.st.(submitting := y.st.submitting) && y.userPresent == x.userPresent
    ensures y.started >= x.started && y.inFlight - x.inFlight == y.started - x.started
    ensures !x.userPresent ==> y.started == x.started && y.inFlight == x.inFlight
    decreases if x.st.submitting == x.userPresent then 0 else 1
  {
    if TimerEffect(x.st) == CallSubmit then
      var y := BeginSubmit(x);
      if y.st.submitting != x.st.submitting then React(y) else y
    else x
  }

  /** A handler replaced the state; the effect re-runs when a dependency
      changed. */
  function Update(x: Session, st: State): Session {
    var y := x.(st := st);
    if Deps(st) != Deps(x.st) then React(y) else y
  }

  /** The attempt request came back. */
  function StartEvent(x: Session, reply: Reply<AttemptData>): Session {
    Update(x, StartTest(x.st, x.userPresent, reply).0)
  }

  /** A scheduled timeout fired. */
  function TickEvent(x: Session): Session {
    Update(x, Tick(x.st))
  }

  /** A click on Submit Test: the button is disabled while submitting. */
  function ClickSubmit(x: Session): (y: Session)
    ensures x.st.submitting ==> y == x
  {
    if x.st.submitting then x
    else
      var y := BeginSubmit(x);
      if Deps(y.st) != Deps(x.st) then React(y) else y
  }

  /** One in-flight submission finished; its `finally` drops the flag. */
  function SettleEvent(x: Session, run: Run): Session
    requires x.inFlight > 0
  {
    Update(x.(inFlight := x.inFlight - 1), Settle(x.st, run))
  }

  /** The handler itself starts a submission even while another one is in
      flight: nothing but the button stops a second call. */
  lemma HandlerHasNoGuard(x: Session)
    requires x.st.attempt.Some? && x.st.submitting && x.userPresent
    ensures BeginSubmit(x).started == x.started + 1
    ensures BeginSubmit(x).inFlight == x.inFlight + 1
  {
  }

  /** The disabled button does stop clicks while a submission is in flight. */
  lemma ButtonBlocksClicks(x: Session)
    requires x.st.submitting
    ensures ClickSubmit(x) == x
  {
  }

  /** Before the attempt has loaded (no attempt, zero seconds) nothing is
      submitted, whatever happens to the timer. */
  lemma NothingSubmittedBeforeLoad(x: Session)
    requires x.st.attempt.None?
    ensures React(x) == x
    ensures TickEvent(x).started == x.started && TickEvent(x).inFlight == x.inFlight
  {
  }

  /** At zero with the attempt loaded and nothing in flight, one run of the
      effect starts two submissions: the flag it raises re-runs the effect,
      whose zero branch ignores the flag. */
  lemma ZeroStartsTwoSubmissions(x: Session)
    requires x.st.remaining == 0 && x.st.attempt.Some? && !x.st.submitting && x.userPresent
    ensures React(x).started == x.started + 2
    ensures React(x).inFlight == x.inFlight + 2
    ensures React(x).st == x.st.(submitting := true)
  {
    var y := BeginSubmit(x);
    assert TimerEffect(y.st) == CallSubmit;
    assert React(y) == BeginSubmit(y);
  }

  /** At zero, every submission that settles lowers the flag, which starts
      two new ones: the number in flight grows by one, and never drains. */
  lemma SettleAtZeroResubmits(x: Session, run: Run)
    requires x.st.remaining == 0 && x.st.attempt.Some? && x.st.submitting && x.inFlight > 0 && x.userPresent
    ensures SettleEvent(x, run).started == x.started + 2
    ensures SettleEvent(x, run).inFlight == x.inFlight + 1
    ensures SettleEvent(x, run).st.submitting
    ensures SettleEvent(x, run).st.remaining == 0 && SettleEvent(x, run).st.attempt == x.st.attempt
  {
    var st := Settle(x.st, run);
    var y := x.(inFlight := x.inFlight - 1).(st := st);
    assert Deps(st) != Deps(x.st);
    ZeroStartsTwoSubmissions(y);
  }

  function SettleAll(x: Session, runs: seq<Run>): Session
    requires x.inFlight > 0 && x.st.submitting && x.st.remaining == 0 && x.st.attempt.Some? && x.userPresent
    decreases |runs|
  {
    if |runs| == 0 then x
    else
      SettleAtZeroResubmits(x, runs[0]);
      SettleAll(SettleEvent(x, runs[0]), runs[1..])
  }

  /** However the submissions turn out, after `n` of them settle at zero,
      `2 n` more have been started and `n` more are in flight: once the
      countdown reaches zero the page keeps submitting. */
  lemma {:induction false} SubmissionsNeverStop(x: Session, runs: seq<Run>)
    requires x.inFlight > 0 && x.st.submitting && x.st.remaining == 0 && x.st.attempt.Some? && x.userPresent
    ensures SettleAll(x, runs).started == x.started + 2 * |runs|
    ensures SettleAll(x, runs).inFlight == x.inFlight + |runs|
    decreases |runs|
  {
    if |runs| > 0 {
      SettleAtZeroResubmits(x, runs[0]);
      SubmissionsNeverStop(SettleEvent(x, runs[0]), runs[1..]);
    }
  }

  function Ticks(x: Session, n: nat): Session
    decreases n
  {
    if n == 0 then x else Ticks(TickEvent(x), n - 1)
  }

  /** A loaded attempt with `n` seconds left and nothing in flight counts
      down one second per tick without submitting; the tick that reaches zero
      starts two submissions at once. */
  lemma {:induction false} Countdown(x: Session, n: nat)
    requires x.st.attempt.Some? && !x.st.submitting && x.inFlight == 0 && x.userPresent
    requires x.st.remaining == n && n >= 1
    ensures Ticks(x, n).st == x.st.(remaining := 0, submitting := true)
    ensures Ticks(x, n).started == x.started + 2
    ensures Ticks(x, n).inFlight == 2
    decreases n
  {
    var y := TickEvent(x);
    var t := Tick(x.st);
    assert t == x.st.(remaining := n - 1);
    if n == 1 {
      ZeroStartsTwoSubmissions(x.(st := t));
      assert Ticks(y, 0) == y;
    } else {
      assert TimerEffect(t) == ScheduleTick;
      assert y == x.(st := t);
      Countdown(y, n - 1);
    }
  }

  /** A start with a timer of `m >= 1` minutes, followed by `60 m` ticks,
      saves an attempt whose time taken is the whole allowance. */
  lemma FullTimeoutRecordsWholeAllowance(x: Session, reply: Reply<AttemptData>)
    requires x.st.attempt.None? && !x.st.submitting && x.inFlight == 0 && x.userPresent
    requires reply.Ok? && reply.value.timerInMinutes >= 1
    ensures var z := Ticks(StartEvent(x, reply), reply.value.timerInMinutes * 60);
      z.st.attempt == Some(reply.value) && z.st.remaining == 0 && z.inFlight == 2
      && RecordOf(z.st).timeTaken == reply.value.timerInMinutes * 60
  {
    var y := StartEvent(x, reply);
    var st := StartTest(x.st, true, reply).0;
    assert TimerEffect(st) == ScheduleTick;
    assert y == x.(st := st);
    Countdown(y, reply.value.timerInMinutes * 60);
  }

  /** A manual submit while time is left stops the countdown; once it
      settles the countdown resumes, result or no result, so the page will
      submit again when it reaches zero. */
  lemma CountdownResumesAfterManualSubmit(x: Session, run: Run)
    requires x.st.attempt.Some? && !x.st.submitting && x.st.remaining > 0 && x.inFlight == 0 && x.userPresent
    ensures ClickSubmit(x).started == x.started + 1 && ClickSubmit(x).inFlight == 1
    ensures TimerEffect(ClickSubmit(x).st) == Idle
    ensures TimerEffect(SettleEvent(ClickSubmit(x), run).st) == ScheduleTick
  {
    var y := BeginSubmit(x);
    assert TimerEffect(y.st) == Idle;
    assert ClickSubmit(x) == y;
  }
  /** Without a stored user a run of the effect sends nothing, and at zero
      it leaves the flag down, so the effect does not run again. This is the
      handler's no-user branch on its own: `StartTest` loads no attempt
      without a user, so a session started from the mount state with no user
      never holds an attempt. */
  lemma NoUserSubmitsNothing(x: Session)
    requires !x.userPresent
    ensures React(x).started == x.started && React(x).inFlight == x.inFlight
    ensures x.st.remaining == 0 && x.st.attempt.Some? ==> !React(x).st.submitting
  {
    if x.st.remaining == 0 && x.st.attempt.Some? {
      var y := BeginSubmit(x);
      if y.st.submitting != x.st.submitting {
        assert React(y) == BeginSubmit(y);
      }
    }
  }

  /** Without a stored user the countdown still runs to zero, and there the
      page calls the handler once and stops: nothing is sent and the flag
      stays down. Like `NoUserSubmitsNothing`, it starts from a loaded
      attempt, which a session with no user does not reach from the mount
      state. */
  lemma {:induction false} CountdownWithoutUser(x: Session, n: nat)
    requires x.st.attempt.Some? && !x.st.submitting && x.inFlight == 0 && !x.userPresent
    requires x.st.remaining == n && n >= 1
    ensures Ticks(x, n).st == x.st.(remaining := 0)
    ensures Ticks(x, n).started == x.started && Ticks(x, n).inFlight == 0
    decreases n
  {
    var y := TickEvent(x);
    var t := Tick(x.st);
    assert t == x.st.(remaining := n - 1);
    if n == 1 {
      var z := x.(st := t);
      assert TimerEffect(t) == CallSubmit;
      assert BeginSubmit(z) == z;
      assert React(z) == z;
      assert Ticks(y, 0) == y;
    } else {
      assert TimerEffect(t) == ScheduleTick;
      assert y == x.(st := t);
      CountdownWithoutUser(y, n - 1);
    }
  }
}

=== FILE: signup.dfy ===
/** The registration page: a form, then an OTP step.

    Submitting the form checks the passwords, then sends an OTP to the email
    unless an account already uses it. Verifying the OTP creates a free
    account with the form's details.
 */
module Signup {
  import opened Wrappers

  datatype SignupForm = SignupForm(name: string, emailid: string, password: string, confirmPassword: string, phoneno: string)

  datatype Step = FormStep | OtpStep

  /** The account `createAccount` registers. */
  datatype Account = Account(
    name: string,
    emailid: string,
    password: string,
    phoneno: string,
    acess: string,
    roles: string,
    status: string)

  datatype Request =
    | CheckEmail(email: string)
    | SendRegisterOtp(email: string)
    | ValidateOtp(email: string, otp: string)
    | CreateUser(account: Account)

  datatype Page = Page(
    form: SignupForm,
    step: Step,
    otp: string,
    loading: bool,
    otpSent: bool,
    notice: Option<Notice>,
    redirect: Option<string>)

  const InitialPage := Page(SignupForm("", "", "", "", ""), FormStep, "", false, false, None, None)

  /** A handler's outcome: the page and the requests made, in order. */
  datatype Outcome = Outcome(page: Page, sent: seq<Request>)

  function Error(message: string): Option<Notice> {
    Some(Notice(message, true))
  }

  /** `authAPI.checkEmailExists`: a lookup that succeeds means the email is
      taken, a 404 means it is free, and any other failure is passed on. */
  function EmailExists(lookup: Reply<()>): (r: Reply<bool>)
    ensures r == Ok(true) <==> lookup.Ok?
    ensures r == Ok(false) <==> HasStatus(lookup, 404)
    ensures r.Err? ==> lookup.Err? && r.status == lookup.status && r.message == lookup.message
  {
    match lookup
    case Ok(_) => Ok(true)
    case Err(status, message) => if status == Some(404) then Ok(false) else Err(status, message)
  }

  const OtpSent := Notice("OTP sent to your email", false)

  /** `sendOtp`: an empty email is refused before any request; a taken email
      is refused after the lookup; otherwise the OTP is sent and, on
      success, the page moves to the OTP step. */
  function SendOtp(p: Page, lookup: Reply<()>, otpReply: Reply<()>): (o: Outcome)
    ensures p.form.emailid == "" ==> o == Outcome(p.(notice := Error("Please enter email address")), [])
    ensures p.form.emailid != "" ==> |o.sent| >= 1 && o.sent[0] == CheckEmail(p.form.emailid) && !o.page.loading
    ensures o.page.step == OtpStep <==> p.step == OtpStep || (p.form.emailid != "" && HasStatus(lookup, 404) && otpReply.Ok?)
    ensures SendRegisterOtp(p.form.emailid) in o.sent <==> p.form.emailid != "" && HasStatus(lookup, 404)
    ensures o.page.form == p.form && o.page.otp == p.otp
  {
    if p.form.emailid == "" then Outcome(p.(notice := Error("Please enter email address")), [])
    else
      var e := p.form.emailid;
      match EmailExists(lookup)
      case Err(_, _) =>
        Outcome(p.(loading := false, notice := Error(ErrorText(lookup, "Failed to send OTP"))), [CheckEmail(e)])
      case Ok(taken) =>
        if taken then
          Outcome(p.(loading := false, notice := Error("User already exists with this email")), [CheckEmail(e)])
        else
          var sent := [CheckEmail(e), SendRegisterOtp(e)];
          match otpReply
          case Ok(_) => Outcome(p.(otpSent := true, step := OtpStep, notice := Some(OtpSent), loading := false), sent)
          case Err(_, _) => Outcome(p.(loading := false, notice := Error(ErrorText(otpReply, "Failed to send OTP"))), sent)
  }

  /** `handleSubmit`: the passwords must match, then be at least six
      characters long; only then is `sendOtp` reached. */
  function HandleSubmit(p: Page, lookup: Reply<()>, otpReply: Reply<()>): (o: Outcome)
    ensures p.form.password != p.form.confirmPassword ==>
      o == Outcome(p.(notice := Error("Passwords do not match")), [])
    ensures p.form.password == p.form.confirmPassword && |p.form.password| < 6 ==>
      o == Outcome(p.(notice := Error("Password must be at least 6 characters")), [])
    ensures o.sent != [] <==>
      p.form.password == p.form.confirmPassword && |p.form.password| >= 6 && p.form.emailid != ""
  {
    if p.form.password != p.form.confirmPassword then Outcome(p.(notice := Error("Passwords do not match")), [])
    else if |p.form.password| < 6 then Outcome(p.(notice := Error("Password must be at least 6 characters")), [])
    else SendOtp(p, lookup, otpReply)
  }

  /** The account a form registers: the form's name, email, password and
      phone, as an active free user. */
  function AccountOf(f: SignupForm): (a: Account)
    ensures a.name == f.name && a.emailid == f.emailid && a.password == f.password && a.phoneno == f.phoneno
    ensures a.roles == "USER" && a.acess == "ACTIVE" && a.status == "ACTIVE"
  {
    Account(f.name, f.emailid, f.password, f.phoneno, "ACTIVE", "USER", "ACTIVE")
  }

  const AccountCreated := Notice("Account created successfully! Please login.", false)

  /** `createAccount`: success schedules the move to the sign-in page;
      failure is reported and caught here. */
  function CreateAccount(p: Page, create: Reply<()>): (o: Outcome)
    ensures o.sent == [CreateUser(AccountOf(p.form))]
    ensures o.page.redirect == if create.Ok? then Some("/login") else p.redirect
  {
    var sent := [CreateUser(AccountOf(p.form))];
    match create
    case Ok(_) => Outcome(p.(notice := Some(AccountCreated), redirect := Some("/login")), sent)
    case Err(_, _) => Outcome(p.(notice := Error(ErrorText(create, "Failed to create account"))), sent)
  }

  /** `verifyOtp`: an empty OTP is refused; the account is created only
      after the OTP is accepted. */
  function VerifyOtp(p: Page, validate: Reply<()>, create: Reply<()>): (o: Outcome)
    ensures p.otp == "" ==> o == Outcome(p.(notice := Error("Please enter OTP")), [])
    ensures p.otp != "" ==> |o.sent| >= 1 && o.sent[0] == ValidateOtp(p.form.emailid, p.otp) && !o.page.loading
    ensures (exists a :: CreateUser(a) in o.sent) <==> p.otp != "" && validate.Ok?
    ensures p.otp != "" && validate.Ok? ==> o.sent == [ValidateOtp(p.form.emailid, p.otp), CreateUser(AccountOf(p.form))]
    ensures p.otp != "" && validate.Err? ==> o.page.notice == Error(ErrorText(validate, "Invalid OTP"))
    ensures o.page.step == p.step && o.page.form == p.form
  {
    if p.otp == "" then Outcome(p.(notice := Error("Please enter OTP")), [])
    else
      var v := ValidateOtp(p.form.emailid, p.otp);
      match validate
      case Err(_, _) => Outcome(p.(loading := false, notice := Error(ErrorText(validate, "Invalid OTP"))), [v])
      case Ok(_) =>
        var verified := p.(loading := true, notice := Some(Notice("Email verified successfully", false)));
        var c := CreateAccount(verified, create);
        assert c.sent == [CreateUser(AccountOf(p.form))];
        Outcome(c.page.(loading := false), [v] + c.sent)
  }

  /** "Back to Form": only the step changes; the form and the OTP stay. */
  function BackToForm(p: Page): (q: Page)
    ensures q.step == FormStep
    ensures q.form == p.form && q.otp == p.otp && q.otpSent == p.otpSent
  {
    p.(step := FormStep)
  }

  /** A taken email stops the flow: no OTP is sent and the step stays. */
  lemma TakenEmailRejected(p: Page, otpReply: Reply<()>)
    requires p.form.emailid != "" && p.step == FormStep
    ensures var o := SendOtp(p, Ok(()), otpReply);
      && o.sent == [CheckEmail(p.form.emailid)]
      && o.page.step == FormStep && o.page.otpSent == p.otpSent
      && o.page.notice == Error("User already exists with this email")
  {
  }

  /** The whole registration: a valid form with a free email, an accepted
      OTP and a created account make exactly the four requests, in order,
      and end with the move to the sign-in page. */
  lemma RegistrationFlow(p: Page, msg: Option<string>, otp: string)
    requires p.form.password == p.form.confirmPassword && |p.form.password| >= 6 && p.form.emailid != ""
    requires otp != ""
    ensures var o1 := HandleSubmit(p, Err(Some(404), msg), Ok(()));
      var o2 := VerifyOtp(o1.page.(otp := otp), Ok(()), Ok(()));
      && o1.page.step == OtpStep && o1.page.otpSent
      && o1.sent + o2.sent == [CheckEmail(p.form.emailid), SendRegisterOtp(p.form.emailid),
                               ValidateOtp(p.form.emailid, otp), CreateUser(AccountOf(p.form))]
      && o2.page.redirect == Some("/login")
  {
  }
}

=== FILE: student_nav.dfy ===
/** The student navigation bar: a fixed table of destinations, each open to
    a set of roles, filtered by the role of the signed-in user. */
module StudentNav {

  datatype NavItem = NavItem(key: string, caption: string, path: string, icon: string, roles: seq<string>)

  const AllStudents: seq<string> := ["USER", "MOCKTEST", "FULL_COURSE"]

  /** `STUDENT_NAV_ITEMS`, in display order. */
  const NavItems: seq<NavItem> := [
    NavItem("dashboard", "Dashboard", "/dashboard", "🏠", AllStudents),
    NavItem("meetings", "Live Classes", "/student/meetings", "🎥", ["FULL_COURSE"]),
    NavItem("tests", "Mock Tests", "/student/tests", "📝", ["MOCKTEST", "FULL_COURSE"]),
    NavItem("free-tests", "Free Tests", "/student/free-tests", "🆓", ["USER"]),
    NavItem("practice", "Daily Practice", "/student/practice", "📚", ["FULL_COURSE"]),
    NavItem("scores", "My Scores", "/scores", "🏆", AllStudents),
    NavItem("profile", "Profile", "/profile", "👤", AllStudents)
  ]

  /** `a` is `b` with some elements dropped, the rest kept in order. */
  predicate Subsequence<T(==)>(a: seq<T>, b: seq<T>)
    decreases |b|
  {
    if |a| == 0 then true
    else if |b| == 0 then false
    else if a[0] == b[0] then Subsequence(a[1..], b[1..])
    else Subsequence(a, b[1..])
  }

  /** `items.filter(item => item.roles.includes(role))`. */
  function FilterByRole(items: seq<NavItem>, role: string): (r: seq<NavItem>)
    ensures |r| <= |items|
  {
    if |items| == 0 then []
    else if role in items[0].roles then [items[0]] + FilterByRole(items[1..], role)
    else FilterByRole(items[1..], role)
  }

  /** The filter keeps exactly the entries open to the role. */
  lemma {:induction false} FilterMembers(items: seq<NavItem>, role: string)
    ensures forall x :: x in FilterByRole(items, role) <==> x in items && role in x.roles
  {
    if |items| > 0 {
      FilterMembers(items[1..], role);
      assert items == [items[0]] + items[1..];
    }
  }

  /** The filter keeps the table order. */
  lemma {:induction false} FilterInOrder(items: seq<NavItem>, role: string)
    ensures Subsequence(FilterByRole(items, role), items)
  {
    if |items| > 0 {
      FilterInOrder(items[1..], role);
      var rest := FilterByRole(items[1..], role);
      if role !in items[0].roles && |rest| > 0 {
        FilterMembers(items[1..], role);
        assert rest[0] in rest;
        assert rest[0] != items[0];
      }
    }
  }

  /** `getVisibleNavItems()`. */
  function VisibleItems(role: string): seq<NavItem> {
    FilterByRole(NavItems, role)
  }

  /** The menu holds exactly the table entries open to the role, in table
      order. */
  lemma VisibleItemsExactly(role: string)
    ensures forall x :: x in VisibleItems(role) <==> x in NavItems && role in x.roles
    ensures Subsequence(VisibleItems(role), NavItems)
  {
    FilterMembers(NavItems, role);
    FilterInOrder(NavItems, role);
  }

  /** The keys of some entries, in order. */
  function Keys(items: seq<NavItem>): (ks: seq<string>)
    ensures |ks| == |items|
  {
    seq(|items|, i requires 0 <= i < |items| => items[i].key)
  }

  /** The entry alone when it is open to the role, else nothing. */
  function Keep(item: NavItem, role: string): seq<NavItem> {
    if role in item.roles then [item] else []
  }

  /** One step of the filter, at position `i` of the table. */
  lemma FilterAt(t: seq<NavItem>, i: nat, role: string)
    requires i < |t|
    ensures FilterByRole(t[i..], role) == Keep(t[i], role) + FilterByRole(t[i + 1..], role)
  {
    assert t[i..][1..] == t[i + 1..];
  }

  /** The filter over a table of seven entries, one entry at a time. */
  lemma FilterSeven(t: seq<NavItem>, r: string)
    requires |t| == 7
    ensures FilterByRole(t, r) == Keep(t[0], r) + (Keep(t[1], r) + (Keep(t[2], r) + (Keep(t[3], r)
      + (Keep(t[4], r) + (Keep(t[5], r) + Keep(t[6], r))))))
  {
    assert t[7..] == [];
    assert FilterByRole(t[6..], r) == Keep(t[6], r) by { FilterAt(t, 6, r); }
    assert FilterByRole(t[5..], r) == Keep(t[5], r) + Keep(t[6], r) by { FilterAt(t, 5, r); }
    assert FilterByRole(t[4..], r) == Keep(t[4], r) + (Keep(t[5], r) + Keep(t[6], r)) by { FilterAt(t, 4, r); }
    assert FilterByRole(t[3..], r)
      == Keep(t[3], r) + (Keep(t[4], r) + (Keep(t[5], r) + Keep(t[6], r))) by { FilterAt(t, 3, r); }
    assert FilterByRole(t[2..], r)
      == Keep(t[2], r) + (Keep(t[3], r) + (Keep(t[4], r) + (Keep(t[5], r) + Keep(t[6], r)))) by { FilterAt(t, 2, r); }
    assert FilterByRole(t[1..], r)
      == Keep(t[1], r) + (Keep(t[2], r) + (Keep(t[3], r) + (Keep(t[4], r) + (Keep(t[5], r) + Keep(t[6], r)))))
      by { FilterAt(t, 1, r); }
    FilterAt(t, 0, r);
    assert t[0..] == t;
  }

  /** The full-course menu: six entries. */
  lemma FullCourseMenu()
    ensures VisibleItems("FULL_COURSE") == [NavItems[0], NavItems[1], NavItems[2], NavItems[4], NavItems[5], NavItems[6]]
    ensures Keys(VisibleItems("FULL_COURSE")) == ["dashboard", "meetings", "tests", "practice", "scores", "profile"]
  {
    FilterSeven(NavItems, "FULL_COURSE");
  }

  /** The mock-test menu: four entries. */
  lemma MockTestMenu()
    ensures VisibleItems("MOCKTEST") == [NavItems[0], NavItems[2], NavItems[5], NavItems[6]]
    ensures Keys(VisibleItems("MOCKTEST")) == ["dashboard", "tests", "scores", "profile"]
  {
    FilterSeven(NavItems, "MOCKTEST");
  }

  /** The free menu: four entries. */
  lemma FreeMenu()
    ensures VisibleItems("USER") == [NavItems[0], NavItems[3], NavItems[5], NavItems[6]]
    ensures Keys(VisibleItems("USER")) == ["dashboard", "free-tests", "scores", "profile"]
  {
    FilterSeven(NavItems, "USER");
  }

  /** Dashboard, scores and profile are open to every kind of student. */
  lemma CommonItems(role: string)
    requires role in AllStudents
    ensures NavItems[0] in VisibleItems(role) && NavItems[0].key == "dashboard"
    ensures NavItems[5] in VisibleItems(role) && NavItems[5].key == "scores"
    ensures NavItems[6] in VisibleItems(role) && NavItems[6].key == "profile"
  {
    VisibleItemsExactly(role);
  }

  /** Before the stored user is read the role is the empty string, and no
      entry is open to it or to any role outside the three student roles. */
  lemma UnknownRoleSeesNothing(role: string)
    requires role !in AllStudents
    ensures VisibleItems(role) == []
  {
    FilterSeven(NavItems, role);
  }

  /** The paid and the free test catalogues never appear in the same menu. */
  lemma TestsExclusive(role: string)
    ensures !(NavItems[2] in VisibleItems(role) && NavItems[3] in VisibleItems(role))
  {
    VisibleItemsExactly(role);
  }

  datatype NavState = NavState(isOpen: bool, location: string)

  /** `handleNavigation(path)`: go to the path and close the mobile menu. */
  function Navigate(s: NavState, path: string): (t: NavState)
    ensures !t.isOpen && t.location == path
  {
    NavState(false, path)
  }

  /** The ☰ button. */
  function ToggleMenu(s: NavState): (t: NavState)
    ensures t.isOpen != s.isOpen && t.location == s.location
  {
    s.(isOpen := !s.isOpen)
  }

  /** An entry is drawn as active when its path is the current location. */
  predicate Active(s: NavState, item: NavItem) {
    s.location == item.path
  }

  /** Following an entry of the menu closes it and makes exactly that entry
      active: no two entries share a path. */
  lemma NavigateActivatesItem(s: NavState, i: nat, j: nat)
    requires i < |NavItems| && j < |NavItems|
    ensures Active(Navigate(s, NavItems[i].path), NavItems[j]) <==> i == j
    ensures !Navigate(s, NavItems[i].path).isOpen
  {
  }
}

=== FILE: submission.dfy ===
/** `handleSubmitTest` together with `calculateScore`: one submission of a
    test attempt, run against the outcomes the backend gives its four
    requests.

    The requests go out strictly one after another: calculate the score,
    fetch the detailed results, save the attempt record, save the score. The
    first failure ends the run. A failure of either of the first two is
    reported as "Failed to calculate score"; a failure of either save as
    "Failed to submit test". The result screen appears only when all four
    succeed.
 */
module Submission {
  import opened Wrappers
  import opened Attempt

  /** One row of the backend's detailed results. */
  datatype DetailedResult = DetailedResult(
    questionId: int,
    questionNo: int,
    question: string,
    optionA: string,
    optionB: string,
    optionC: string,
    optionD: string,
    correctAnswer: string,
    userAnswer: Option<string>,
    isCorrect: bool)

  /** One entry of the saved attempt: the question and the option chosen for
      it, `null` (here `None`) when unanswered. */
  datatype AnswerEntry = AnswerEntry(questionId: int, selectedOption: Option<Choice>)

  /** The attempt record sent to the backend. */
  datatype AttemptRecord = AttemptRecord(
    mockTestId: int,
    mockTestName: string,
    mockTestType: string,
    answers: seq<AnswerEntry>,
    timeTaken: int)

  /** The four stages of the protocol, in their required order. */
  datatype Stage = ScoreStage | ResultsStage | SaveAttemptStage | SaveScoreStage

  /** A request the page sends, with what it sends. */
  datatype Call =
    | CalculateScore(kind: TestKind, mockTestId: int, sent: map<int, Choice>)
    | GetResults(kind: TestKind, mockTestId: int, sent: map<int, Choice>)
    | SaveAttempt(record: AttemptRecord)
    | SaveScore(mockTestId: int, mockTestTitle: string, score: real)
  {
    function Stage(): Stage {
      match this
      case CalculateScore(_, _, _) => ScoreStage
      case GetResults(_, _, _) => ResultsStage
      case SaveAttempt(_) => SaveAttemptStage
      case SaveScore(_, _, _) => SaveScoreStage
    }
  }

  /** How the backend answers each of the four requests. */
  datatype Backend = Backend(
    score: Reply<real>,
    results: Reply<seq<DetailedResult>>,
    saveAttempt: Reply<()>,
    saveScore: Reply<()>)

  /** What one submission did: the requests it sent, in order, the result it
      shows (if any) and the notice it raised (if any). */
  datatype Run = Run(calls: seq<Call>, result: Option<TestResult>, notice: Option<Notice>)

  const FullOrder: seq<Stage> := [ScoreStage, ResultsStage, SaveAttemptStage, SaveScoreStage]

  function Stages(calls: seq<Call>): (st: seq<Stage>)
    ensures |st| == |calls|
    ensures forall i :: 0 <= i < |calls| ==> st[i] == calls[i].Stage()
  {
    seq(|calls|, i requires 0 <= i < |calls| => calls[i].Stage())
  }

  /** The answer recorded for a question, if any. */
  function Lookup(answers: map<int, Choice>, q: int): Option<Choice> {
    if q in answers then Some(answers[q]) else None
  }

  /** `attemptAnswers`: one entry per question, in question order. */
  function EntriesFor(qs: seq<Question>, answers: map<int, Choice>): (es: seq<AnswerEntry>)
    ensures |es| == |qs|
    ensures forall i :: 0 <= i < |qs| ==>
      es[i].questionId == qs[i].questionId && es[i].selectedOption == Lookup(answers, qs[i].questionId)
  {
    seq(|qs|, i requires 0 <= i < |qs| => AnswerEntry(qs[i].questionId, Lookup(answers, qs[i].questionId)))
  }

  /** The answers a list of entries records, a later entry for the same
      question winning. */
  function AnswersOf(es: seq<AnswerEntry>): map<int, Choice>
    decreases |es|
  {
    if |es| == 0 then map[]
    else
      var rest := AnswersOf(es[..|es| - 1]);
      var e := es[|es| - 1];
      if e.selectedOption.Some? then rest[e.questionId := e.selectedOption.value] else rest
  }

  function Restrict(answers: map<int, Choice>, ids: set<int>): map<int, Choice> {
    map q | q in answers && q in ids :: answers[q]
  }

  /** The saved entries lose nothing: reading the answers back from them
      gives exactly the recorded answers for the attempt's questions. */
  lemma {:induction false} EntriesRecoverAnswers(qs: seq<Question>, answers: map<int, Choice>)
    ensures AnswersOf(EntriesFor(qs, answers)) == Restrict(answers, Ids(qs))
    decreases |qs|
  {
    if |qs| > 0 {
      var init := qs[..|qs| - 1];
      var id := qs[|qs| - 1].questionId;
      var es := EntriesFor(qs, answers);
      assert es[..|es| - 1] == EntriesFor(init, answers);
      EntriesRecoverAnswers(init, answers);
      IdsSnoc(qs);
      var lhs := AnswersOf(es);
      var rhs := Restrict(answers, Ids(qs));
      assert lhs.Keys == rhs.Keys;
      forall q | q in lhs
        ensures lhs[q] == rhs[q]
      {
      }
    }
  }

  /** The record `handleSubmitTest` saves for the attempt as it stands. */
  function RecordOf(s: State): (rec: AttemptRecord)
    requires s.attempt.Some?
    ensures |rec.answers| == |s.attempt.value.questions|
    ensures rec.timeTaken + s.remaining == s.attempt.value.timerInMinutes * 60
    ensures rec.mockTestType == (if s.kind == Paid then "PAID" else "FREE")
  {
    var data := s.attempt.value;
    AttemptRecord(data.mockTestId, data.mockTestName, s.kind.Name(),
                  EntriesFor(data.questions, s.answers), TimeTaken(data, s.remaining))
  }

  /** With the answers kept within the attempt, the saved record carries
      exactly the page's answers, and the time taken lies between zero and the
      allowance whenever the countdown does. */
  lemma RecordFaithful(s: State)
    requires s.attempt.Some? && AnswersWithinAttempt(s)
    ensures AnswersOf(RecordOf(s).answers) == s.answers
    ensures 0 <= s.remaining <= s.attempt.value.timerInMinutes * 60 ==>
      0 <= RecordOf(s).timeTaken <= s.attempt.value.timerInMinutes * 60
  {
    EntriesRecoverAnswers(s.attempt.value.questions, s.answers);
    assert Restrict(s.answers, Ids(s.attempt.value.questions)) == s.answers;
  }

  /** `detailedResults.filter(r => r.isCorrect).length`. */
  function CountCorrect(rs: seq<DetailedResult>): (n: nat)
    ensures n <= |rs|
    decreases |rs|
  {
    if |rs| == 0 then 0 else CountCorrect(rs[..|rs| - 1]) + (if rs[|rs| - 1].isCorrect then 1 else 0)
  }

  function CorrectPositions(rs: seq<DetailedResult>): set<int> {
    set i | 0 <= i < |rs| && rs[i].isCorrect
  }

  /** The correct count is the number of result rows flagged correct. */
  lemma {:induction false} CountCorrectIsCardinality(rs: seq<DetailedResult>)
    ensures CountCorrect(rs) == |CorrectPositions(rs)|
    decreases |rs|
  {
    if |rs| > 0 {
      var init := rs[..|rs| - 1];
      var last := |rs| - 1;
      CountCorrectIsCardinality(init);
      assert forall i :: 0 <= i < |init| ==> init[i] == rs[i];
      if rs[last].isCorrect {
        assert CorrectPositions(rs) == CorrectPositions(init) + {last};
      } else {
        assert CorrectPositions(rs) == CorrectPositions(init);
      }
    }
  }

  /** One review row per result row: `userAnswer || ''`. */
  function ReviewItemOf(r: DetailedResult): ReviewItem {
    ReviewItem(Question(r.questionId, r.questionNo, r.question, r.optionA, r.optionB, r.optionC, r.optionD),
               r.correctAnswer, r.userAnswer.GetOr(""), r.isCorrect)
  }

  /** The result `calculateScore` assembles. */
  function BuildResult(score: real, rs: seq<DetailedResult>, data: AttemptData): (t: TestResult)
    ensures t.score == score
    ensures t.correctAnswers == |CorrectPositions(rs)| <= |rs|
    ensures t.totalQuestions == |data.questions|
    ensures |t.items| == |rs|
    ensures forall i :: 0 <= i < |rs| ==>
      t.items[i].isCorrect == rs[i].isCorrect && t.items[i].correctAnswer == rs[i].correctAnswer
    ensures forall i :: 0 <= i < |rs| ==>
      && t.items[i].userAnswer == (if rs[i].userAnswer.Some? then rs[i].userAnswer.value else "")
      && t.items[i].question == Question(rs[i].questionId, rs[i].questionNo, rs[i].question,
                                         rs[i].optionA, rs[i].optionB, rs[i].optionC, rs[i].optionD)
      && t.items[i].question.questionId == rs[i].questionId
  {
    CountCorrectIsCardinality(rs);
    TestResult(score, CountCorrect(rs), |data.questions|, seq(|rs|, i requires 0 <= i < |rs| => ReviewItemOf(rs[i])))
  }

  const ScoreFailed := Notice("Failed to calculate score", true)
  const SubmitFailed := Notice("Failed to submit test", true)
  const Submitted := Notice("Test submitted successfully!", false)

  /** One submission of the attempt as the page sees it at the moment the
      handler is called. No attempt or no stored user: nothing is sent. */
  function RunSubmission(s: State, userPresent: bool, b: Backend): (r: Run)
    ensures Stages(r.calls) <= FullOrder
    ensures r.result.Some? <==>
      s.attempt.Some? && userPresent && b.score.Ok? && b.results.Ok? && b.saveAttempt.Ok? && b.saveScore.Ok?
    ensures r.result.Some? ==>
      r.result.value == BuildResult(b.score.value, b.results.value, s.attempt.value)
    ensures s.attempt.None? || !userPresent ==> r.calls == [] && r.notice.None?
    ensures b.score.Err? || b.results.Err? ==> |r.calls| <= 2 && (r.notice.Some? ==> r.notice == Some(ScoreFailed))
    ensures s.attempt.Some? && userPresent && b.score.Err? ==>
      r.calls == [CalculateScore(s.kind, s.attempt.value.mockTestId, s.answers)] && r.notice == Some(ScoreFailed)
    ensures s.attempt.Some? && userPresent && b.score.Ok? && b.results.Err? ==>
      && r.calls == [CalculateScore(s.kind, s.attempt.value.mockTestId, s.answers),
                     GetResults(s.kind, s.attempt.value.mockTestId, s.answers)]
      && r.notice == Some(ScoreFailed)
    ensures s.attempt.Some? && userPresent && b.score.Ok? && b.results.Ok? && (b.saveAttempt.Err? || b.saveScore.Err?) ==>
      r.notice == Some(SubmitFailed)
    ensures r.result.Some? ==> r.notice == Some(Submitted)
    ensures b.saveAttempt.Err? ==> r.result.None?
    ensures forall i :: 0 <= i < |r.calls| && r.calls[i].SaveAttempt? ==> r.calls[i].record == RecordOf(s)
    ensures forall i :: 0 <= i < |r.calls| && (r.calls[i].CalculateScore? || r.calls[i].GetResults?) ==>
      r.calls[i].sent == s.answers && r.calls[i].kind == s.kind
    ensures s.attempt.Some? ==> forall i :: 0 <= i < |r.calls| && r.calls[i].SaveScore? ==>
      r.calls[i] == SaveScore(s.attempt.value.mockTestId, s.attempt.value.mockTestName, b.score.value)
  {
    if s.attempt.None? || !userPresent then Run([], None, None)
    else
      var data := s.attempt.value;
      var c1 := CalculateScore(s.kind, data.mockTestId, s.answers);
      var c2 := GetResults(s.kind, data.mockTestId, s.answers);
      match b.score
      case Err(_, _) => Run([c1], None, Some(ScoreFailed))
      case Ok(score) =>
        match b.results
        case Err(_, _) => Run([c1, c2], None, Some(ScoreFailed))
        case Ok(rs) =>
          var c3 := SaveAttempt(RecordOf(s));
          match b.saveAttempt
          case Err(_, _) => Run([c1, c2, c3], None, Some(SubmitFailed))
          case Ok(_) =>
            var c4 := SaveScore(data.mockTestId, data.mockTestName, score);
            match b.saveScore
            case Err(_, _) => Run([c1, c2, c3, c4], None, Some(SubmitFailed))
            case Ok(_) => Run([c1, c2, c3, c4], Some(BuildResult(score, rs, data)), Some(Submitted))
  }

  /** A save is only ever sent after the score and the detailed results
      both came back. */
  lemma SavesFollowScoring(s: State, userPresent: bool, b: Backend)
    ensures |RunSubmission(s, userPresent, b).calls| > 2 ==> b.score.Ok? && b.results.Ok?
    ensures |RunSubmission(s, userPresent, b).calls| == 4 <==>
      s.attempt.Some? && userPresent && b.score.Ok? && b.results.Ok? && b.saveAttempt.Ok?
  {
  }

  /** A failed save hides the result even though the score was computed:
      the page raises "Failed to submit test" and shows no result. */
  lemma SaveFailureHidesResult(s: State, b: Backend)
    requires s.attempt.Some? && b.score.Ok? && b.results.Ok?
    requires b.saveAttempt.Err? || b.saveScore.Err?
    ensures RunSubmission(s, true, b).result.None?
    ensures RunSubmission(s, true, b).notice == Some(SubmitFailed)
  {
  }

  /** When a submission settles (the handler's `finally`), the flag drops
      and a produced result replaces whatever was shown. */
  function Settle(current: State, run: Run): (r: State)
    ensures !r.submitting
    ensures run.result.Some? ==> r.result == run.result
    ensures run.result.None? ==> r.result == current.result
    ensures r == current.(submitting := false, result := r.result)
  {
    current.(submitting := false, result := if run.result.Some? then run.result else current.result)
  }
}

=== FILE: text.dfy ===
/** The JavaScript string primitives the pages rely on: decimal rendering of
    numbers (`toString`), `padStart(2, '0')`, `trim` and `parseInt`.

    Strings are sequences of characters; lengths are counted in characters.
 */
module Text {
  import opened Wrappers

  predicate IsDigit(c: char) {
    '0' <= c <= '9'
  }

  predicate AllDigits(s: string) {
    forall i :: 0 <= i < |s| ==> IsDigit(s[i])
  }

  function DigitChar(d: nat): (c: char)
    requires d < 10
    ensures IsDigit(c)
  {
    (d + '0' as int) as char
  }

  function DigitValue(c: char): (d: nat)
    requires IsDigit(c)
    ensures d < 10
  {
    c as int - '0' as int
  }

  lemma DigitRoundTrip(d: nat)
    requires d < 10
    ensures DigitValue(DigitChar(d)) == d
  {
  }

  /** `n.toString()` for a non-negative integer: its shortest decimal form. */
  function NatToString(n: nat): (s: string)
    ensures |s| >= 1
    ensures AllDigits(s)
    ensures (s[0] == '0') == (n == 0)
    ensures n < 10 <==> |s| == 1
    decreases n
  {
    if n < 10 then [DigitChar(n)] else NatToString(n / 10) + [DigitChar(n % 10)]
  }

  /** `n.toString()` for any integer: a minus sign in front of negatives. */
  function IntToString(n: int): (s: string)
    ensures |s| >= 1
    ensures n >= 0 ==> s == NatToString(n)
    ensures n < 0 ==> s[0] == '-' && s[1..] == NatToString(-n)
  {
    if n < 0 then "-" + NatToString(-n) else NatToString(n)
  }

  /** The number a string of decimal digits denotes. */
  function DecimalValue(s: string): nat
    requires AllDigits(s)
  {
    if |s| == 0 then 0 else DecimalValue(s[..|s| - 1]) * 10 + DigitValue(s[|s| - 1])
  }

  /** Reading back the decimal form of `n` gives `n`. */
  lemma {:induction false} DecimalRoundTrip(n: nat)
    ensures DecimalValue(NatToString(n)) == n
    decreases n
  {
    if n >= 10 {
      var s := NatToString(n);
      assert s[..|s| - 1] == NatToString(n / 10);
      DecimalRoundTrip(n / 10);
      DigitRoundTrip(n % 10);
    } else {
      DigitRoundTrip(n);
    }
  }

  /** Leading zeros do not change a decimal value. */
  lemma {:induction false} LeadingZeroValue(s: string)
    requires AllDigits(s)
    ensures DecimalValue("0" + s) == DecimalValue(s)
    decreases |s|
  {
    if |s| > 0 {
      var t := "0" + s;
      assert t[..|t| - 1] == "0" + s[..|s| - 1];
      LeadingZeroValue(s[..|s| - 1]);
    }
  }

  /** `s.padStart(2, '0')`: zeros in front until the string is two long. */
  function PadStart2(s: string): (r: string)
    ensures |r| == if |s| >= 2 then |s| else 2
    ensures r[|r| - |s|..] == s
    ensures forall i :: 0 <= i < |r| - |s| ==> r[i] == '0'
  {
    if |s| >= 2 then s else if |s| == 1 then "0" + s else "00"
  }

  /** Padding a number below 100 gives exactly two digits that read back as it. */
  lemma TwoDigitRoundTrip(n: nat)
    requires n < 100
    ensures |PadStart2(NatToString(n))| == 2
    ensures AllDigits(PadStart2(NatToString(n)))
    ensures DecimalValue(PadStart2(NatToString(n))) == n
  {
    DecimalRoundTrip(n);
    if n < 10 {
      LeadingZeroValue(NatToString(n));
    }
  }

  /** `s.substring(0, n)`: the first `n` characters, or all of a shorter
      string. */
  function Take(s: string, n: nat): (r: string)
    ensures |r| == if |s| <= n then |s| else n
    ensures r == s[..|r|]
  {
    if |s| <= n then s else s[..n]
  }

  /** The characters `String.prototype.trim` and `parseInt` skip: the
      ECMAScript WhiteSpace and LineTerminator code points. */
  predicate IsJsSpace(c: char) {
    || c == '\t' || c == '\n' || c == '\U{000B}' || c == '\U{000C}' || c == '\r'
    || c == ' ' || c == '\U{00A0}' || c == '\U{1680}'
    || ('\U{2000}' <= c <= '\U{200A}')
    || c == '\U{2028}' || c == '\U{2029}' || c == '\U{202F}' || c == '\U{205F}'
    || c == '\U{3000}' || c == '\U{FEFF}'
  }

  predicate AllSpace(s: string) {
    forall i :: 0 <= i < |s| ==> IsJsSpace(s[i])
  }

  /** `s.trimStart()`: the suffix left after dropping leading white space. */
  function TrimStart(s: string): (r: string)
    ensures |r| <= |s| && r == s[|s| - |r|..]
    ensures AllSpace(s[..|s| - |r|])
    ensures |r| > 0 ==> !IsJsSpace(r[0])
    decreases |s|
  {
    if |s| > 0 && IsJsSpace(s[0]) then TrimStart(s[1..]) else s
  }

  /** `s.trimEnd()`: the prefix left after dropping trailing white space. */
  function TrimEnd(s: string): (r: string)
    ensures |r| <= |s| && r == s[..|r|]
    ensures AllSpace(s[|r|..])
    ensures |r| > 0 ==> !IsJsSpace(r[|r| - 1])
    decreases |s|
  {
    if |s| > 0 && IsJsSpace(s[|s| - 1]) then TrimEnd(s[..|s| - 1]) else s
  }

  /** `s.trim()`. */
  function Trim(s: string): string {
    TrimEnd(TrimStart(s))
  }

  /** A string trims to nothing exactly when it is all white space. */
  lemma TrimEmptyIffAllSpace(s: string)
    ensures Trim(s) == "" <==> AllSpace(s)
  {
    var t := TrimStart(s);
    if Trim(s) == "" {
      assert AllSpace(t);
      assert s == s[..|s| - |t|] + t;
    } else {
      var k := |s| - |t|;
      assert s[k] == t[0];
    }
  }

  predicate IsHexDigit(c: char) {
    IsDigit(c) || ('a' <= c <= 'f') || ('A' <= c <= 'F')
  }

  function HexDigitValue(c: char): (d: nat)
    requires IsHexDigit(c)
    ensures d < 16
  {
    if IsDigit(c) then DigitValue(c)
    else if 'a' <= c <= 'f' then c as int - 'a' as int + 10
    else c as int - 'A' as int + 10
  }

  function HexValue(s: string): nat
    requires forall i :: 0 <= i < |s| ==> IsHexDigit(s[i])
  {
    if |s| == 0 then 0 else HexValue(s[..|s| - 1]) * 16 + HexDigitValue(s[|s| - 1])
  }

  /** The longest prefix of `s` made of decimal digits. */
  function LeadingDigits(s: string): (r: string)
    ensures |r| <= |s| && r == s[..|r|] && AllDigits(r)
    ensures |r| < |s| ==> !IsDigit(s[|r|])
    ensures AllDigits(s) ==> r == s
    decreases |s|
  {
    if |s| > 0 && IsDigit(s[0]) then [s[0]] + LeadingDigits(s[1..]) else ""
  }

  /** The longest prefix of `s` made of hexadecimal digits. */
  function LeadingHexDigits(s: string): (r: string)
    ensures |r| <= |s| && r == s[..|r|]
    ensures forall i :: 0 <= i < |r| ==> IsHexDigit(r[i])
    ensures |r| < |s| ==> !IsHexDigit(s[|r|])
    decreases |s|
  {
    if |s| > 0 && IsHexDigit(s[0]) then [s[0]] + LeadingHexDigits(s[1..]) else ""
  }

  predicate HasHexPrefix(s: string) {
    |s| >= 2 && s[0] == '0' && (s[1] == 'x' || s[1] == 'X')
  }

  /** The unsigned part of `parseInt`: after a `0x`/`0X` prefix the longest
      run of hexadecimal digits, otherwise the longest run of decimal digits.
      No digits at all is `NaN`, here `None`. */
  function ParseMagnitude(u: string): (r: Option<nat>)
    ensures r.None? <==>
      if HasHexPrefix(u) then |u| == 2 || !IsHexDigit(u[2]) else |u| == 0 || !IsDigit(u[0])
    ensures r.Some? && HasHexPrefix(u) ==> r.value == HexValue(LeadingHexDigits(u[2..]))
    ensures r.Some? && !HasHexPrefix(u) ==> r.value == DecimalValue(LeadingDigits(u))
    ensures !HasHexPrefix(u) && |u| > 0 && AllDigits(u) ==> r == Some(DecimalValue(u))
  {
    if HasHexPrefix(u) then
      var h := LeadingHexDigits(u[2..]);
      assert |u| > 2 && IsHexDigit(u[2]) ==> |h| > 0;
      if |h| == 0 then None else Some(HexValue(h))
    else
      var d := LeadingDigits(u);
      assert |u| > 0 && IsDigit(u[0]) ==> |d| > 0;
      if |d| == 0 then None else Some(DecimalValue(d))
  }

  /** What follows an optional leading sign. */
  function Unsigned(t: string): (u: string)
    ensures u == t || (|t| > 0 && (t[0] == '-' || t[0] == '+') && u == t[1..])
  {
    if |t| > 0 && (t[0] == '-' || t[0] == '+') then t[1..] else t
  }

  /** `parseInt(s)` with no radix: leading white space is skipped, an optional
      sign is read, and the magnitude follows; `NaN` is `None`. */
  function ParseInt(s: string): (r: Option<int>)
    ensures r.None? <==> ParseMagnitude(Unsigned(TrimStart(s))).None?
    ensures r.Some? ==>
      var m := ParseMagnitude(Unsigned(TrimStart(s))).value;
      r.value == if TrimStart(s)[0] == '-' then -(m as int) else m as int
  {
    var t := TrimStart(s);
    match ParseMagnitude(Unsigned(t))
    case None => None
    case Some(m) => Some(if |t| > 0 && t[0] == '-' then -(m as int) else m as int)
  }

  lemma DigitIsNotSpace(c: char)
    requires IsDigit(c)
    ensures !IsJsSpace(c)
  {
  }

  /** The magnitude of a plain run of decimal digits. */
  lemma MagnitudeOfDigits(d: string)
    requires |d| > 0 && AllDigits(d)
    ensures ParseMagnitude(d) == Some(DecimalValue(d))
  {
    assert IsDigit(d[0]);
    assert !HasHexPrefix(d) by {
      if |d| >= 2 {
        assert IsDigit(d[1]);
      }
    }
  }

  /** Reading a plain run of decimal digits. */
  lemma ParseIntOfDigits(s: string)
    requires |s| > 0 && AllDigits(s)
    ensures ParseInt(s) == Some(DecimalValue(s) as int)
  {
    assert IsDigit(s[0]);
    assert TrimStart(s) == s by { DigitIsNotSpace(s[0]); }
    assert Unsigned(s) == s;
    MagnitudeOfDigits(s);
  }

  /** `parseInt` reads back every non-negative decimal rendering, and so
      never answers `NaN` for one. */
  lemma ParseIntRoundTrip(n: nat)
    ensures ParseInt(NatToString(n)) == Some(n)
  {
    ParseIntOfDigits(NatToString(n));
    DecimalRoundTrip(n);
  }

  /** A string that does not start with white space is its own
      `trimStart`. */
  lemma TrimKeeps(s: string)
    requires |s| > 0 && !IsJsSpace(s[0])
    ensures TrimStart(s) == s
  {
  }

  /** A minus sign in front of a run of decimal digits negates what
      `parseInt` reads. */
  lemma ParseIntOfNegativeDigits(s: string)
    requires |s| > 1 && s[0] == '-' && AllDigits(s[1..])
    ensures ParseInt(s) == Some(-(DecimalValue(s[1..]) as int))
  {
    TrimKeeps(s);
    assert Unsigned(s) == s[1..];
    MagnitudeOfDigits(s[1..]);
  }

  /** `parseInt` reads back every negative decimal rendering. */
  lemma ParseIntNegative(n: nat)
    ensures ParseInt("-" + NatToString(n)) == Some(-(n as int))
  {
    var s := "-" + NatToString(n);
    assert s[1..] == NatToString(n);
    ParseIntOfNegativeDigits(s);
    DecimalRoundTrip(n);
  }
}

=== FILE: users.dfy ===
/** The user administration page.

    Users are listed, searched by id or by email, created (as administrators
    or as ordinary users, by the role chosen) and edited. Editing never
    shows the stored password.
 */
module Users {
  import opened Wrappers
  import opened Text
  import opened Palette

  /** `UserRequest`. */
  datatype UserForm = UserForm(
    name: string,
    emailid: string,
    password: string,
    phoneno: string,
    gender: string,
    dob: string,
    highestQualification: string,
    university: string,
    yearOfPassing: Option<int>,
    attemptsGiven: Option<int>,
    state: string,
    city: string,
    pinCode: string,
    address: string,
    dateOfJoining: string,
    aadharNumber: string,
    acess: string,
    roles: string,
    status: string)

  /** `UserResponse`; the optional profile fields may be absent. */
  datatype UserRecord = UserRecord(
    userid: int,
    name: string,
    emailid: string,
    phoneno: string,
    gender: Option<string>,
    dob: Option<string>,
    highestQualification: Option<string>,
    university: Option<string>,
    yearOfPassing: Option<int>,
    attemptsGiven: Option<int>,
    state: Option<string>,
    city: Option<string>,
    pinCode: Option<string>,
    address: Option<string>,
    dateOfJoining: Option<string>,
    aadharNumber: Option<string>,
    acess: string,
    roles: string,
    status: string)

  datatype SearchType = ByUserId | ByEmail

  datatype Request =
    | GetAll
    | GetById(userid: int)
    | GetByEmail(email: string)
    | UpdateUser(userid: int, form: UserForm)
    | CreateAdmin(form: UserForm)
    | CreateUser(form: UserForm)

  datatype Page = Page(
    users: seq<UserRecord>,
    loading: bool,
    showForm: bool,
    editing: Option<UserRecord>,
    searchType: SearchType,
    searchValue: string,
    searchLoading: bool,
    form: UserForm,
    notice: Option<Notice>)

  /** A handler's outcome: the page and the requests made, in order. */
  datatype Outcome = Outcome(page: Page, sent: seq<Request>)

  const EmptyForm := UserForm("", "", "", "", "", "", "", "", None, None, "", "", "", "", "", "", "ACTIVE", "", "")

  function Error(message: string): Option<Notice> {
    Some(Notice(message, true))
  }

  /** `loadUsers` once its request settles: the list is replaced on
      success; a failure is reported with the server's message or, failing
      that, the error's own `message`, and keeps the list. */
  function LoadUsers(p: Page, reply: Reply<seq<UserRecord>>, errorMessage: string): (q: Page)
    ensures !q.loading
    ensures reply.Ok? ==> q.users == reply.value && q.notice == p.notice
    ensures reply.Err? ==>
      q.users == p.users && q.notice == Error("Failed to load users: " + ErrorText(reply, errorMessage))
    ensures q.form == p.form && q.searchValue == p.searchValue
  {
    match reply
    case Ok(list) => p.(users := list, loading := false)
    case Err(_, _) => p.(loading := false, notice := Error("Failed to load users: " + ErrorText(reply, errorMessage)))
  }

  /** The search is blank: `!searchValue.trim()`. */
  predicate Blank(value: string) {
    Trim(value) == ""
  }

  /** The request a non-blank search makes, if any: an id search reads the
      value with `parseInt` and makes none when that is `NaN`; an email
      search sends the value as typed. */
  function SearchRequest(searchType: SearchType, value: string): (r: Option<Request>)
    ensures searchType == ByEmail ==> r == Some(GetByEmail(value))
    ensures searchType == ByUserId ==> (r.None? <==> ParseInt(value).None?)
    ensures searchType == ByUserId && r.Some? ==> r.value == GetById(ParseInt(value).value)
  {
    match searchType
    case ByEmail => Some(GetByEmail(value))
    case ByUserId =>
      match ParseInt(value)
      case Some(id) => Some(GetById(id))
      case None => None
  }

  const SearchFound := Notice("User found successfully", false)

  /** `handleSearch`. A blank value is refused before anything else; an id
      that does not parse is refused with the list left as it was; a lookup
      leaves exactly the user found, or nothing when it fails. */
  function HandleSearch(p: Page, lookup: Reply<UserRecord>): (o: Outcome)
    ensures Blank(p.searchValue) ==> o == Outcome(p.(notice := Error("Please enter a search value")), [])
    ensures !Blank(p.searchValue) ==> !o.page.searchLoading
    ensures o.sent == [] <==> Blank(p.searchValue) || SearchRequest(p.searchType, p.searchValue).None?
    ensures !Blank(p.searchValue) && SearchRequest(p.searchType, p.searchValue).None? ==>
      o.page == p.(searchLoading := false, notice := Error("Please enter a valid User ID"))
    ensures o.sent != [] ==>
      && o.sent == [SearchRequest(p.searchType, p.searchValue).value]
      && o.page.users == (if lookup.Ok? then [lookup.value] else [])
      && o.page.notice == (if lookup.Ok? then Some(SearchFound) else Error(ErrorText(lookup, "User not found")))
  {
    if Blank(p.searchValue) then Outcome(p.(notice := Error("Please enter a search value")), [])
    else
      match SearchRequest(p.searchType, p.searchValue)
      case None => Outcome(p.(searchLoading := false, notice := Error("Please enter a valid User ID")), [])
      case Some(request) =>
        match lookup
        case Ok(user) => Outcome(p.(users := [user], notice := Some(SearchFound), searchLoading := false), [request])
        case Err(_, _) =>
          Outcome(p.(users := [], notice := Error(ErrorText(lookup, "User not found")), searchLoading := false), [request])
  }

  /** A value of white space alone is blank, so it never reaches the
      backend. */
  lemma WhiteSpaceSearchRefused(p: Page, lookup: Reply<UserRecord>)
    requires AllSpace(p.searchValue)
    ensures HandleSearch(p, lookup).sent == []
    ensures HandleSearch(p, lookup).page.users == p.users
  {
    TrimEmptyIffAllSpace(p.searchValue);
  }

  /** Searching by a typed decimal id looks up exactly that id. */
  lemma NumericSearch(p: Page, n: nat, lookup: Reply<UserRecord>)
    requires p.searchType == ByUserId && p.searchValue == NatToString(n)
    ensures HandleSearch(p, lookup).sent == [GetById(n)]
  {
    var s := NatToString(n);
    assert !IsJsSpace(s[0]) by { DigitIsNotSpace(s[0]); }
    TrimEmptyIffAllSpace(s);
    ParseIntRoundTrip(n);
  }

  /** `handleClearSearch`: the value is emptied and the whole list
      reloaded. */
  function HandleClearSearch(p: Page): (o: Outcome)
    ensures o.sent == [GetAll] && o.page.searchValue == "" && o.page.loading
    ensures o.page.users == p.users && o.page.searchType == p.searchType
  {
    Outcome(p.(searchValue := "", loading := true), [GetAll])
  }

  /** Clearing a search makes the next search blank. */
  lemma ClearThenSearchRefused(p: Page, lookup: Reply<UserRecord>)
    ensures HandleSearch(HandleClearSearch(p).page, lookup).sent == []
  {
  }

  /** The request `handleSubmit` makes: an update of the user being edited;
      otherwise a new administrator for the role "ADMIN" and a new ordinary
      user for any other role. */
  function SaveRequest(p: Page): (r: Request)
    ensures (r.UpdateUser? || r.CreateAdmin? || r.CreateUser?) && r.form == p.form
    ensures r.UpdateUser? <==> p.editing.Some?
    ensures r.UpdateUser? ==> r.userid == p.editing.value.userid
    ensures r.CreateAdmin? <==> p.editing.None? && p.form.roles == "ADMIN"
    ensures r.CreateUser? <==> p.editing.None? && p.form.roles != "ADMIN"
  {
    if p.editing.Some? then UpdateUser(p.editing.value.userid, p.form)
    else if p.form.roles == "ADMIN" then CreateAdmin(p.form)
    else CreateUser(p.form)
  }

  /** `resetForm`. */
  function ResetForm(p: Page): (q: Page)
    ensures q.form.name == "" && q.form.emailid == "" && q.form.password == "" && q.form.roles == ""
    ensures q.form.acess == "ACTIVE" && q.form.status == ""
    ensures q.form.yearOfPassing.None? && q.form.attemptsGiven.None?
    ensures q.editing.None? && !q.showForm
    ensures q.users == p.users
  {
    p.(form := EmptyForm, editing := None, showForm := false)
  }

  /** `handleSubmit`: success resets the form and reloads the list; failure
      keeps the form. */
  function HandleSubmit(p: Page, reply: Reply<()>): (o: Outcome)
    ensures |o.sent| >= 1 && o.sent[0] == SaveRequest(p)
    ensures reply.Ok? ==>
      && o.sent == [SaveRequest(p), GetAll]
      && o.page.form == EmptyForm && o.page.editing.None? && !o.page.showForm && o.page.loading
      && o.page.notice == Some(Notice(if p.editing.Some? then "User updated successfully" else "User created successfully", false))
    ensures reply.Err? ==>
      && o.sent == [SaveRequest(p)]
      && o.page == p.(notice := Error(ErrorText(reply, "Operation failed")))
  {
    var save := SaveRequest(p);
    match reply
    case Ok(_) =>
      var message := if p.editing.Some? then "User updated successfully" else "User created successfully";
      Outcome(ResetForm(p).(notice := Some(Notice(message, false)), loading := true), [save, GetAll])
    case Err(_, _) => Outcome(p.(notice := Error(ErrorText(reply, "Operation failed"))), [save])
  }

  /** `x || ''` for an optional text field. */
  function OrEmpty(x: Option<string>): (s: string)
    ensures x.Some? ==> s == x.value
    ensures x.None? ==> s == ""
  {
    x.GetOr("")
  }

  /** The form `handleEdit` fills: the password left empty, absent texts as
      empty strings, the numbers and the access, role and status as they
      are. */
  function FormOf(u: UserRecord): (f: UserForm)
    ensures f.password == ""
    ensures f.name == u.name && f.emailid == u.emailid && f.phoneno == u.phoneno
    ensures f.gender == OrEmpty(u.gender) && f.dob == OrEmpty(u.dob)
    ensures f.highestQualification == OrEmpty(u.highestQualification) && f.university == OrEmpty(u.university)
    ensures f.yearOfPassing == u.yearOfPassing && f.attemptsGiven == u.attemptsGiven
    ensures f.state == OrEmpty(u.state) && f.city == OrEmpty(u.city)
    ensures f.pinCode == OrEmpty(u.pinCode) && f.address == OrEmpty(u.address)
    ensures f.dateOfJoining == OrEmpty(u.dateOfJoining) && f.aadharNumber == OrEmpty(u.aadharNumber)
    ensures f.acess == u.acess && f.roles == u.roles && f.status == u.status
  {
    UserForm(u.name, u.emailid, "", u.phoneno, OrEmpty(u.gender), OrEmpty(u.dob),
             OrEmpty(u.highestQualification), OrEmpty(u.university), u.yearOfPassing, u.attemptsGiven,
             OrEmpty(u.state), OrEmpty(u.city), OrEmpty(u.pinCode), OrEmpty(u.address),
             OrEmpty(u.dateOfJoining), OrEmpty(u.aadharNumber), u.acess, u.roles, u.status)
  }

  /** `handleEdit`. */
  function HandleEdit(p: Page, u: UserRecord): (q: Page)
    ensures q.form == FormOf(u) && q.editing == Some(u) && q.showForm
    ensures q.users == p.users
  {
    p.(editing := Some(u), form := FormOf(u), showForm := true)
  }

  /** The record of a user whose optional texts are all present, as a form
      would give them back. */
  function RecordOf(userid: int, f: UserForm): (u: UserRecord)
    ensures u.userid == userid
    ensures FormOf(u) == f.(password := "")
  {
    UserRecord(userid, f.name, f.emailid, f.phoneno, Some(f.gender), Some(f.dob),
               Some(f.highestQualification), Some(f.university), f.yearOfPassing, f.attemptsGiven,
               Some(f.state), Some(f.city), Some(f.pinCode), Some(f.address),
               Some(f.dateOfJoining), Some(f.aadharNumber), f.acess, f.roles, f.status)
  }

  /** Opening a user and saving unchanged sends an update of that user with
      an empty password and every other field as loaded, whatever the role:
      an administrator is updated, never created again. */
  lemma EditSaveRoundTrip(p: Page, u: UserRecord, reply: Reply<()>)
    ensures var r := HandleSubmit(HandleEdit(p, u), reply).sent[0];
      && r == UpdateUser(u.userid, FormOf(u))
      && r.form.password == ""
      && FormOf(RecordOf(u.userid, r.form)) == r.form
  {
  }

  /** `getRoleColor`. */
  function RoleColor(role: string): (c: string)
    ensures c == Red <==> role == "ADMIN"
    ensures c == Amber <==> role == "MOCKTEST"
    ensures c == Green <==> role == "FULL_COURSE"
    ensures c == Grey <==> role !in {"ADMIN", "MOCKTEST", "FULL_COURSE"}
  {
    match role
    case "ADMIN" => Red
    case "MOCKTEST" => Amber
    case "FULL_COURSE" => Green
    case _ => Grey
  }

  /** `getStatusColor`. */
  function StatusColor(status: string): (c: string)
    ensures c == Green <==> status == "ACTIVE"
    ensures c == Red <==> status != "ACTIVE"
  {
    if status == "ACTIVE" then Green else Red
  }

  /** The three named roles get three colours, none of them the grey of
      other roles (the free "USER" role among them). */
  lemma RoleColorsDistinct(r1: string, r2: string)
    requires r1 in {"ADMIN", "MOCKTEST", "FULL_COURSE"} && r1 != r2
    ensures RoleColor(r1) != RoleColor(r2)
    ensures RoleColor("USER") == Grey
  {
  }
}

=== FILE: wrappers.dfy ===
/** Option values and the abstract outcome of one backend request.

    Every HTTP call the front-end makes is modelled as a `Reply`: either the
    request resolved with a value, or it was rejected. A rejection may carry
    the HTTP status of the response (absent for a network error) and the
    `message` field of the response body (absent when the body has none).
 */
module Wrappers {

  datatype Option<+T> = None | Some(value: T) {

    /** The value a page shows: the one present, or the page's fallback when
        the field is absent. */
    function GetOr(default: T): T {
      match this
      case Some(v) => v
      case None => default
    }
  }

  /** A toast notification; `isError` selects the error style over the
      success style. */
  datatype Notice = Notice(message: string, isError: bool)

  datatype Reply<+T> = Ok(value: T) | Err(status: Option<int>, message: Option<string>)

  /** The notification text of a failed request: the response's own message
      when it has a non-empty one (`error.response?.data?.message || fallback`),
      otherwise the page's fallback text. */
  function ErrorText<T>(r: Reply<T>, fallback: string): (text: string)
    requires r.Err?
    ensures r.message.Some? && r.message.value != "" ==> text == r.message.value
    ensures r.message.None? || r.message.value == "" ==> text == fallback
  {
    match r.message
    case Some(m) => if m != "" then m else fallback
    case None => fallback
  }

  /** True when a failed request came back with the given HTTP status. */
  predicate HasStatus<T>(r: Reply<T>, code: int) {
    r.Err? && r.status == Some(code)
  }
}
